=== FILE: README.md ===
# Central-bank sentiment pipeline: a Dafny model of its core

This project models the parts of the central-bank sentiment pipeline that decide what
text reaches the analysis. Each part gets a pure model, and the project proves what
each part promises.

- **PDF sentence extraction** (`Doc::extract_text`, C++): every page's text is cut into
  candidates by the regular expression `([^.!?]+[.!?])`. Each candidate is trimmed. It is
  kept when it is ASCII-only, at least 30 characters long and free of parentheses. Then
  its first newline is erased, and it is stored and appended to the document text
  followed by a space.
- **Sentence cleaning** (`CleanText`, C++, and `PyTextCleaner`, Python): both split on
  `.`, `!` and `?`, trim, filter by ASCII and by `min_chars`, and accumulate the result.
  The project proves that the two implementations keep the same sentences on the
  inputs the comparison script uses.
- **Federal Reserve scraper** (`FedScraper`): picking out the year pages; reading the
  year from a URL; building the year→links map; selecting the years a caller asks for,
  with its `KeyError` and `return 0` exits; rebuilding each year's texts from futures
  that complete in any order; classifying policy-report links; naming the output files.
- **Speech collection** (`collect_speech_text`): flattening the speeches into
  `(year, text)` rows and naming the pickle file.
- **BIS scraper** (`ScrapeBIS`): choosing documents by institution; building the
  sanitised file name; the per-download record; the completion-order result list.
- **Vectorisation** (`Vectorize`, `MixtureMode`, `PCAMatrix`):
  - the sentence chunker and the date-key normaliser;
  - keying chunk lists by normalised title, as the code as written does (which raises)
    and as a corrected two-phase transform that also keeps each final buffer;
  - building the mixture model's matrix and dispatching its predictions;
  - the state flag of the PCA wrapper.

Python dictionaries are modelled as ordered association lists (`ODict.Dict`). The order
is part of the model because the code iterates over them:
- assigning to an existing key keeps its position;
- a new key goes to the end.

C++ `std::string` is modelled as a sequence of bytes (`Bytes.ByteString`). `size_t`
arithmetic is written out modulo 2^64.

Shared modules:
- `Split`: splitting on terminators, generic over the element type. Both cleaners and
  the extractor use it.
- `Blanks`: stripping a set of blank characters from the ends.
- `Seqs`: filter, map, concatenation and flat-map.
- `Decimal`: `str` and `int` on decimal digits.
- `Outcomes`: `Option` and `Result`.

## Model

| member | source | states |
|---|---|---|
| Bytes.IsAsciiOnly | text_cleaner_cpp/speech_clean.cpp:27-34 | true exactly when every byte of the string is below 128 |
| SpeechClean.SplitPunctuation | text_cleaner_cpp/speech_clean.cpp:38-58 | `split_punctuation` is the generic split on `.`, `!` and `?`; `Split.PiecesLossless`, `Split.PiecesShape` and `Split.PiecesCharacterised` state what that split is |
| Split.ScanConcat | text_cleaner_cpp/speech_clean.cpp:41-51 | the closed sentences followed by the current buffer are exactly the characters read so far |
| Split.ScanShape | text_cleaner_cpp/speech_clean.cpp:41-51 | every closed sentence is non-empty and ends in its only terminator; the buffer holds no terminator |
| Split.ScanCount | text_cleaner_cpp/speech_clean.cpp:46-50 | one sentence is closed per terminator character |
| Split.PiecesLossless | text_cleaner_cpp/speech_clean.cpp:38-58 | concatenating the split pieces gives back the input: nothing is lost, duplicated or reordered |
| Split.PiecesShape | text_cleaner_cpp/speech_clean.cpp:38-58 | every piece is non-empty, every piece but the last ends in a terminator, and there is one piece per terminator plus one for a non-empty tail |
| Split.WellSplitUnique | text_cleaner_cpp/speech_clean.cpp:38-58 | two lossless splittings of the same text into well-formed pieces are equal |
| Split.PiecesCharacterised | text_cleaner_cpp/speech_clean.cpp:38-58 | the split is the only well-formed lossless splitting of its input |
| Split.ScanAfterClosed | text_cleaner_cpp/speech_clean.cpp:41-51 | after a closed piece the scan starts afresh: splitting `a + b` gives a's pieces followed by b's |
| Split.ScanNoTerm | text_cleaner_cpp/speech_clean.cpp:52-56 | text without a terminator stays in the buffer and closes nothing |
| Blanks.StripLeft | text_cleaner_cpp/speech_clean.cpp:65 | the result is a suffix of the input that starts with a non-blank or is empty |
| Blanks.StripRight | text_cleaner_cpp/speech_clean.cpp:66 | the result is a prefix of the input that ends with a non-blank or is empty |
| Blanks.Strip | text_cleaner_cpp/performance_comparison.py:58 | the result is empty exactly when the input is all blank, and otherwise starts and ends with a non-blank |
| Blanks.StripIdempotent | text_cleaner_cpp/performance_comparison.py:58 | stripping a stripped string changes nothing |
| Blanks.StripKeepsLast | text_extract.cpp:55 | a string ending in a non-blank keeps that last character after stripping |
| Blanks.StripAgree | text_cleaner_cpp/performance_comparison.py:58 | two blank sets that agree on every character of the string strip it identically |
| SpeechClean.NewCleanText | text_cleaner_cpp/speech_clean.cpp:17-18 | a fresh object holds no sentences, its count agrees with that, and it keeps the given text, file name and `min_chars` |
| SpeechClean.FindFirstNotOf | text_cleaner_cpp/speech_clean.cpp:65 | the first position whose byte is outside the set, or npos when every byte is in it |
| SpeechClean.FindLastNotOf | text_cleaner_cpp/speech_clean.cpp:66 | the last position whose byte is outside the set, or npos when every byte is in it |
| SpeechClean.EraseFront | text_cleaner_cpp/speech_clean.cpp:65 | `erase(0, n)` drops the first n bytes, or all of them when n exceeds the size |
| SpeechClean.SizeTSum | text_cleaner_cpp/speech_clean.cpp:66 | `size_t` addition stays below 2^64: the sum, or the sum minus 2^64 when it overflows |
| SpeechClean.Trim | text_cleaner_cpp/speech_clean.cpp:65-66 | the two erases never lengthen the string; `SpeechClean.TrimIsStrip` proves they strip exactly the blanks at both ends |
| SpeechClean.TrimIsStrip | text_cleaner_cpp/speech_clean.cpp:65-66 | the erase-based trim equals stripping space, tab, newline and carriage return from both ends |
| SpeechClean.EraseFrontIsStripLeft | text_cleaner_cpp/speech_clean.cpp:65 | the first erase removes exactly the leading blanks, and everything when the string is blank |
| SpeechClean.EraseBackIsStripRight | text_cleaner_cpp/speech_clean.cpp:66 | the second erase removes exactly the trailing blanks, relying on npos + 1 wrapping to 0 |
| SpeechClean.SizeT | text_cleaner_cpp/speech_clean.cpp:68 | converting `min_chars` to `size_t` gives the value congruent modulo 2^64 below 2^64 |
| SpeechClean.AbsorbAllAppends | text_cleaner_cpp/speech_clean.cpp:63-74 | processing the trimmed pieces appends exactly the kept ones: to `sentences` in order, their concatenation to `cleaned_text`, and their number to `num_sentences` |
| SpeechClean.ProcessText | text_cleaner_cpp/speech_clean.cpp:60-76 | the loop over the split pieces leaves the object in the state that appends the kept trimmed pieces |
| SpeechClean.ProcessPiece | text_cleaner_cpp/speech_clean.cpp:65-73 | one iteration appends the trimmed piece when it is ASCII and long enough, and changes nothing otherwise |
| SpeechClean.KeptMembership | text_cleaner_cpp/speech_clean.cpp:68-69 | a string is kept exactly when it is one of the trimmed pieces, ASCII-only and at least `size_t(min_chars)` long |
| SpeechClean.KeptAppend | text_cleaner_cpp/speech_clean.cpp:63-73 | the filter keeps the pieces' order and distributes over concatenation |
| SpeechClean.ProcessConsistent | text_cleaner_cpp/speech_clean.cpp:68-72 | processing keeps `num_sentences` equal to the number of stored sentences, and a second call appends the same sentences again |
| SpeechClean.NegativeMinKeepsNothing | text_cleaner_cpp/speech_clean.cpp:68 | a negative `min_chars` becomes a huge `size_t`, so no piece of realistic length is kept |
| SpeechClean.ZeroMinKeepsEmpty | text_cleaner_cpp/speech_clean.cpp:68 | with `min_chars` 0 a blank piece is stored as an empty sentence |
| SpeechClean.GetSentenes | text_cleaner_cpp/speech_clean.cpp:110-119 | returns the stored sentences, the empty list when there are none |
| SpeechClean.GetSentenceCount | text_cleaner_cpp/speech_clean.cpp:126-129 | on a consistent object, the count equals the number of sentences `get_sentenes` returns |
| PyCleaner.PyScanMatches | text_cleaner_cpp/performance_comparison.py:40-48 | the Python loop's buffer is the generic split's buffer, and its list is the generic split's closed pieces, stripped, with empties removed |
| PyCleaner.PySplitIsStrippedPieces | text_cleaner_cpp/performance_comparison.py:35-50 | the Python split equals the generic split's pieces, each stripped, with empty results removed |
| PyCleaner.StrippedNonEmptyElement | text_cleaner_cpp/performance_comparison.py:43-48 | every element of the Python split is non-empty and is the strip of some generic piece |
| PyCleaner.PySplitShape | text_cleaner_cpp/performance_comparison.py:40-48 | every piece of the Python split is non-empty and has no Python whitespace at either end |
| PyCleaner.PySplitPunctuation | text_cleaner_cpp/performance_comparison.py:35-50 | the Python split; `PyCleaner.PySplitIsStrippedPieces` proves it is the generic split stripped with empties removed, and `PyCleaner.PySplitShape` that its pieces are non-empty and stripped |
| PyCleaner.PySplitEnds | text_cleaner_cpp/performance_comparison.py:40-48 | every piece of the Python split except possibly the last ends in a terminator |
| PyCleaner.NewPyTextCleaner | text_cleaner_cpp/performance_comparison.py:23-29 | a fresh cleaner stores the raw text, file name and `min_chars`, holds no sentences and is consistent |
| PyCleaner.PyProcessText | text_cleaner_cpp/performance_comparison.py:52-63 | processing appends exactly the split's pieces that pass the ASCII and length test, in order, to the sentences, their text to the cleaned text and their number to the count; the raw text, file name and `min_chars` stay |
| PyCleaner.SecondStripNoOp | text_cleaner_cpp/performance_comparison.py:58 | the second `strip` of `process_text` changes nothing, because the split already stripped every piece |
| PyCleaner.KeepFilter | text_cleaner_cpp/performance_comparison.py:60-63 | a string is kept exactly when it is in the input and passes the ASCII and length test |
| PyCleaner.KeepFilterAppend | text_cleaner_cpp/performance_comparison.py:56-63 | the filter keeps input order: filtering a concatenation filters each part in turn |
| PyCleaner.BlankSetsAgree | text_cleaner_cpp/performance_comparison.py:43-44 | on ASCII characters outside vertical tab, form feed and 0x1c-0x1f, Python's whitespace and the C++ trim set agree |
| PyCleaner.KeptIsKeepFilter | text_cleaner_cpp/performance_comparison.py:60 | for a non-negative `min_chars`, the C++ filter and the Python filter keep the same strings |
| PyCleaner.FilterDropsEmpty | text_cleaner_cpp/performance_comparison.py:43-47 | with `min_chars` at least 1, dropping empty pieces before the filter changes nothing |
| PyCleaner.TrimAgrees | text_cleaner_cpp/performance_comparison.py:58 | on a piece without the blanks the two sets disagree on, the C++ trim and Python strip coincide |
| PyCleaner.CleanersAgree | text_cleaner_cpp/performance_comparison.py:235-269 | for a text without those blanks and a `min_chars` of at least 1, both cleaners keep the same sentences in the same order |
| PyCleaner.ObjectsAgree | text_cleaner_cpp/performance_comparison.py:241-269 | two fresh cleaner objects built from the same such text hold the same sentences after `process_text` |
| TextExtract.MatchLen | text_extract.cpp:24 | an anchored match of the sentence pattern is at least two characters long and fits the input |
| TextExtract.MatchLenIsMatch | text_extract.cpp:24 | an anchored match is a run of non-terminators ended by a terminator; there is none exactly when the input starts with a terminator or has none |
| TextExtract.SearchLeftmost | text_extract.cpp:49-52 | the search returns the leftmost position where the pattern matches, with that match's end; no result means no position matches |
| TextExtract.Candidates | text_extract.cpp:49-52 | every candidate is at least two characters long; `TextExtract.CandidatesIterateSearch` and `TextExtract.CandidatesArePieces` state that the candidates are the iterator's matches and the closed split pieces longer than one character |
| TextExtract.CandidatesIterateSearch | text_extract.cpp:49-52 | the iterator's matches are the leftmost match followed by the matches of the rest after it, and none when nothing matches |
| TextExtract.NoTermNoCandidates | text_extract.cpp:49-52 | text without a terminator yields no candidate |
| TextExtract.CandidatesArePieces | text_extract.cpp:24 | the candidates are exactly the closed split pieces longer than one character: a terminator directly after another and the text after the last terminator yield nothing |
| TextExtract.CandidatesClosed | text_extract.cpp:49-53 | every candidate is a non-empty run that ends in its only terminator |
| TextExtract.TrimLeadingIsStripLeft | text_extract.cpp:55 | the `^\s+` replacement strips the leading regex whitespace |
| TextExtract.TrimTrailingIsStripRight | text_extract.cpp:55 | the `\s+$` replacement strips the trailing regex whitespace |
| TextExtract.RegexTrimIsStrip | text_extract.cpp:55 | the regex trim equals stripping regex whitespace from both ends |
| TextExtract.FindNewline | text_extract.cpp:66 | a found position holds a newline |
| TextExtract.FindNewlineFirst | text_extract.cpp:66 | the position found is the first newline, and nothing is found exactly when there is no newline |
| TextExtract.EraseFirstNewline | text_extract.cpp:66-70 | the length drops by one exactly when there is a newline |
| TextExtract.EraseShifts | text_extract.cpp:68-69 | the characters before the newline stay; those after it move down by one |
| TextExtract.OneNewlineErased | text_extract.cpp:66-70 | exactly one newline disappears, so any further newlines remain |
| TextExtract.StoredShape | text_extract.cpp:55-73 | a stored sentence is ASCII-only and free of parentheses, starts with a non-blank, ends in a terminator, is at least 29 characters long, and is shorter than 30 only when the trimmed candidate held a newline |
| TextExtract.TrimmedEnds | text_extract.cpp:55 | a trimmed candidate that is not empty still ends in its terminator and starts with a non-blank |
| TextExtract.ErasedStored | text_extract.cpp:57-70 | every accepted candidate, after the newline erase, has the stored shape |
| TextExtract.ShorterThanBound | text_extract.cpp:60-70 | a 30-character sentence containing a newline is stored with 29 characters, so the length check comes before the erase |
| TextExtract.SpacedLength | text_extract.cpp:71-72 | the document text is as long as the stored sentences together plus one space per sentence |
| TextExtract.SpacedAppend | text_extract.cpp:71-72 | the spaced text of two sentence lists is the concatenation of their spaced texts |
| TextExtract.AccumulateStep | text_extract.cpp:36-75 | one more page extends both the sentence list and the spaced text by that page's contribution |
| TextExtract.ExtractText | text_extract.cpp:23-81 | when loading fails the document is unchanged; otherwise it records the file name and the page count, appends every page's sentences in order to the stored ones, and sets the text to this call's sentences, each followed by a space |
| TextExtract.ExtractPageOf | text_extract.cpp:36-45 | a null page or a page with empty text adds nothing; any other page adds its accepted candidates |
| TextExtract.ExtractPage | text_extract.cpp:49-75 | one page appends its accepted, trimmed and newline-erased candidates in order, each followed by a space in the text |
| TextExtract.ExtractCandidate | text_extract.cpp:53-74 | one candidate is appended, trimmed and newline-erased, exactly when it is accepted |
| TextExtract.NullPageAddsNothing | text_extract.cpp:39-41 | the document's sentences are unchanged when a null page is removed |
| TextExtract.DocStored | text_extract.cpp:36-76 | every sentence the document stores has the stored shape |
| TextExtract.PageStored | text_extract.cpp:49-75 | every sentence a page contributes has the stored shape |
| Chunker.Run | data_analysis/vectorize.py:94-105 | the loop closes at most one chunk per sentence; `Chunker.RunIsGrouping` proves its counter, buffer and chunk list are the grouping's |
| Chunker.GroupsPartition | data_analysis/vectorize.py:96-105 | the closed groups followed by the open group are the document's sentences, in order |
| Chunker.GroupsWithinBudget | data_analysis/vectorize.py:97-105 | a closed group of two or more sentences stays within the word budget; only a single sentence can exceed it |
| Chunker.EmptyGroupOnlyFirst | data_analysis/vectorize.py:99-104 | only the first closed group can be empty, and it is empty exactly when the first sentence alone exceeds the budget |
| Chunker.RunIsGrouping | data_analysis/vectorize.py:94-105 | the string loop's counter, buffer and chunk list are the open group's word count and text, and the closed groups' texts |
| Chunker.ChunksPreserveText | data_analysis/vectorize.py:96-107 | the chunks followed by the dropped final buffer are the whole document's text |
| Chunker.ChunkBudget | data_analysis/vectorize.py:97-105 | each chunk is the text of a closed group, and a chunk of two or more sentences is within the budget |
| Chunker.EmptyChunkOnlyFirst | data_analysis/vectorize.py:99-104 | with non-empty sentences, only the first chunk can be empty, and it is empty when the first sentence exceeds the budget |
| Chunker.WithinBudgetYieldsNothing | data_analysis/vectorize.py:96-107 | a document whose total word count fits the budget yields no chunk, because the final buffer is never stored |
| Chunker.FlushedChunks | data_analysis/vectorize.py:96-107 | the chunker with the final buffer kept extends the chunks as written by at most one chunk, keeping them as its prefix |
| Chunker.FlushedPreservesText | data_analysis/vectorize.py:96-107 | a chunker that also stores the final buffer loses nothing: its chunks concatenate to the document |
| Chunker.FlushedAddsLastGroup | data_analysis/vectorize.py:96-107 | that flushing chunker adds exactly one chunk, the open group's text |
| Chunker.ChunkExample | data_analysis/vectorize.py:89-107 | three two-word sentences with a four-word budget give one chunk of the first two sentences |
| DateMatcher.FindDate | data_analysis/vectorize.py:142 | the scan finds the first position at or after the start where a `\d{4}-\d{2}-\d{2}` token begins, and nothing when there is none |
| DateMatcher.MatchDate | data_analysis/vectorize.py:140-148 | the key is the leftmost date-shaped substring of the title, or the title itself when there is none |
| DateMatcher.MatchDateOfDate | data_analysis/vectorize.py:140-148 | a date-shaped string normalises to itself |
| DateMatcher.MatchDateIdempotent | data_analysis/vectorize.py:140-148 | normalising a normalised key changes nothing |
| DateMatcher.MatchDateAfterDigitFree | data_analysis/vectorize.py:141-146 | behind a digit-free prefix, the date directly after it is the key |
| DateMatcher.MatchDateExample | data_analysis/vectorize.py:140-148 | "Speech A 2023-01-10" is keyed "2023-01-10"; "Speech A" keeps its title |
| Vectorize.PrepareTokens | data_analysis/vectorize.py:91-107 | the fresh chunk map has no duplicate key; `Vectorize.PrepareTokensKeys` and `Vectorize.PrepareTokensLastWins` state its keys and values |
| Vectorize.PrepareTokensKeys | data_analysis/vectorize.py:106-107 | the chunk map's keys are exactly the normalised titles, each once, and each already normalised |
| Vectorize.PrepareTokensLastWins | data_analysis/vectorize.py:106-107 | a document's chunks, its final buffer included, are stored under its key unless a later document has the same key |
| Vectorize.InPlaceFrom | data_analysis/vectorize.py:91-107 | the loop from position `i` completes only when the dictionary still has the size it had when the iteration began |
| Vectorize.PrepareTokensInPlace | data_analysis/vectorize.py:91-107 | the in-place loop completes only when no entry was added; `Vectorize.InPlaceFailsOnNewKey` shows a new key makes it raise |
| Vectorize.InPlaceNormalisedPrefix | data_analysis/vectorize.py:91-107 | while every title seen so far is already normalised, the in-place loop only overwrites values in place |
| Vectorize.InPlaceAgreesWhenNormalised | data_analysis/vectorize.py:91-108 | when every title is already normalised, the in-place loop succeeds, replacing each value by its chunks |
| Vectorize.InPlaceFailsOnNewKey | data_analysis/vectorize.py:91-107 | once a title normalises to a key the dictionary does not hold, the in-place loop raises "dictionary changed size during iteration" |
| Vectorize.InPlaceExample | data_analysis/vectorize.py:89-108 | the one-document example "Speech A 2023-01-10" raises instead of returning its chunks |
| Vectorize.Rekey | data_analysis/vectorize.py:150-162 | the re-keyed map has no duplicate key; `Vectorize.RekeyNormalised` states which keys it keeps and where |
| Vectorize.RekeyNormalised | data_analysis/vectorize.py:150-162 | re-keying a map whose keys are already normalised keeps every key and its position |
| Vectorize.RekeyAfterPrepare | data_analysis/vectorize.py:110-125 | re-keying the chunk map keeps each document's key and position and applies the vectoriser to its chunk list |
| Mixture.AssignRow | data_analysis/vectorize.py:180 | numpy accepts a row exactly when the vector has the row's width or one element; the row then has that width and holds the vector, or its one element broadcast |
| Mixture.BuildMatrix | data_analysis/vectorize.py:174-181 | the matrix has `len(text)` times the number of vectors rows: the vectors in document and chunk order, then zero rows; a negative width or a vector of the wrong width raises |
| Mixture.FlattenPosition | data_analysis/vectorize.py:177-181 | the row of a given chunk of a given document comes after the rows of all earlier documents |
| Mixture.Dispatch | data_analysis/vectorize.py:184-194 | the labels are returned exactly when hard predictions are asked for, and the probabilities exactly when soft ones are |
| Mixture.DispatchShapes | data_analysis/vectorize.py:184-194 | asking for neither gives `None`; asking for both gives the labels and the probabilities |
| Mixture.MatrixUnique | data_analysis/vectorize.py:174-181 | at most one matrix fits that description of a text's rows |
| Mixture.MatrixRow | data_analysis/vectorize.py:177-181 | the row after the vectors of the earlier documents, `c` places in, is chunk `c` of document `d` |
| Mixture.GetPreds | data_analysis/vectorize.py:172-194 | the call raises for a negative width exactly, and names the first vector that does not fit its row; when every vector fits it returns a result exactly when the fit of the matrix `BuildMatrix` describes succeeds, and a result, or a fit error passed on, comes from fitting that matrix; a result holds the kinds of prediction asked for |
| Pca.NewPcaMatrix | data_analysis/vectorize.py:199-202 | a new wrapper is not applied and reports no explained variance |
| Pca.ApplyPca | data_analysis/vectorize.py:204-215 | the flag is set exactly by a fit whose output is truthy; a returned fit replaces the stored variance; a truthy output is returned and a falsy one gives `None`; an ambiguous truth value or a raised fit is an error that leaves the flag alone |
| Pca.ApplyPcaAsWritten | data_analysis/vectorize.py:206 | with the fit method misspelt, every call is an error and leaves the object unchanged |
| Pca.GetExplainedVariance | data_analysis/vectorize.py:217-226 | the variance is available exactly when the flag is set, and is the fitted model's |
| Pca.FlagNeverCleared | data_analysis/vectorize.py:208-213 | once applied, the wrapper stays applied and keeps reporting its variance |
| Pca.AsWrittenAfter | data_analysis/vectorize.py:204-226 | the object after a sequence of calls as written; `Pca.AsWrittenNeverApplies` proves the flag is never set |
| Pca.AsWrittenNeverApplies | data_analysis/vectorize.py:204-226 | as written, no sequence of calls ever sets the flag, so the explained variance is never available |
| Pca.TruthyFitEnablesVariance | data_analysis/vectorize.py:204-226 | with the fit method spelt right, a fresh wrapper given a truthy fit returns the output and then reports the fitted variance |
| BisScraper.LinkOf | scraper_py/bis_scraper.py:48-54 | the record holds the path, the PDF URL under the BIS base link, the institutions, and "Untitled" and "no_date" for missing keys |
| BisScraper.CollectFrom | scraper_py/bis_scraper.py:42-54 | the loop raises `TypeError` exactly when some object's institutions are `null`; otherwise it yields at most one link per entry |
| BisScraper.CollectLinks | scraper_py/bis_scraper.py:35-54 | a response without a `list` key yields no links; otherwise the list raises exactly when an object's institutions are `null` |
| BisScraper.CollectIsFilterMap | scraper_py/bis_scraper.py:42-54 | when the loop completes, the links are the wanted entries, in iteration order, each turned into its record |
| BisScraper.CollectMembership | scraper_py/bis_scraper.py:44-47 | when the loop completes, an object entry is chosen exactly when its institutions meet the wanted codes |
| BisScraper.Sanitize | scraper_py/bis_scraper.py:69 | a character is replaced by `_` only when it is one the file name may not hold, and the result is never such a character |
| BisScraper.SafeTitle | scraper_py/bis_scraper.py:69-70 | the safe title has at most 100 characters, none of them forbidden in a file name |
| BisScraper.SafeTitlePointwise | scraper_py/bis_scraper.py:69-70 | each kept character is the title's character at that place, or `_` where it was forbidden |
| BisScraper.SafeTitleIdempotent | scraper_py/bis_scraper.py:69-70 | sanitising a safe title changes nothing |
| BisScraper.SafeTitleKeepsSafe | scraper_py/bis_scraper.py:69-70 | a short title without forbidden characters is kept as it is |
| BisScraper.OrDefault | scraper_py/bis_scraper.py:66-67 | a non-empty string is kept; `None` or the empty string gives the default |
| BisScraper.FileName | scraper_py/bis_scraper.py:71 | the file name ends in `.pdf`; `BisScraper.FileNameRelative` and `BisScraper.FileNameDate` state that it is relative and that the date reads back from it |
| BisScraper.FileNameRelative | scraper_py/bis_scraper.py:71-72 | a file name is never empty and never starts with `/` |
| BisScraper.FileNameDate | scraper_py/bis_scraper.py:71 | the date matcher reads back a date-shaped date from a file name whose safe title has no digit |
| BisScraper.PathJoin | scraper_py/bis_scraper.py:72 | joining with an absolute second path gives that path |
| BisScraper.SavedInDir | scraper_py/bis_scraper.py:71-72 | a saved file lies directly in the download directory |
| BisScraper.DownloadHelper | scraper_py/bis_scraper.py:59-91 | the record keeps the document; the status is "success" exactly when the transfer succeeded, with its size and file name; otherwise it is "error: …" with empty paths and size 0 |
| BisScraper.DownloadPdfs | scraper_py/bis_scraper.py:93-117 | no links give an empty list; otherwise a non-positive worker count raises `ValueError`, and any other gives one record per link, in completion order |
| BisScraper.DownloadsCoverLinks | scraper_py/bis_scraper.py:103-117 | whatever the completion order, every link has a record |
| FedScraper.UrlJoin | scraper_py/fed_scraper.py:45 | a joined reference is an https URL |
| FedScraper.UrlJoinTwice | scraper_py/fed_scraper.py:49 | the second `urljoin` of `get_link` changes nothing |
| FedScraper.IsYearHref | scraper_py/fed_scraper.py:47 | the href filter; `FedScraper.GetLinkIsFilter` proves `get_link` keeps exactly the hrefs it accepts, and `FedScraper.YearHrefJoinable` that they join to year pages |
| FedScraper.YearHrefJoinable | scraper_py/fed_scraper.py:44-47 | a year href joins to a year-page URL |
| FedScraper.GetLink | scraper_py/fed_scraper.py:35-50 | every link returned is a year-page URL |
| FedScraper.GetLinkIsFilter | scraper_py/fed_scraper.py:44-50 | the links are the page's year hrefs, in page order, each behind the base URL |
| FedScraper.FindYear | scraper_py/fed_scraper.py:65 | the scan finds the first position where `(\d{4})-speeches` matches, and nothing when there is none |
| FedScraper.YearOfAfterDigitFree | scraper_py/fed_scraper.py:65 | behind a digit-free prefix, the year read is the four digits right after it |
| FedScraper.YearOf | scraper_py/fed_scraper.py:65 | a year read from a link is a four-digit number, below 10000 |
| FedScraper.YearOfYearUrl | scraper_py/fed_scraper.py:65 | a year page's year is the number spelt by its href's four digits |
| FedScraper.YearMap | scraper_py/fed_scraper.py:59-80 | once every event has its anchor, the year map has distinct keys, and no year is stored with an empty list |
| FedScraper.YearMapStep | scraper_py/fed_scraper.py:65-79 | a year page with events sets the links of its own year; every other year keeps what the earlier pages stored |
| FedScraper.YearMapHasYear | scraper_py/fed_scraper.py:59-80 | a year is in the map exactly when some year page reading that year has speech events |
| FedScraper.YearMapLastWins | scraper_py/fed_scraper.py:59-80 | the links stored for a year are the events of the last page with events that reads that year |
| FedScraper.SpeechLinks | scraper_py/fed_scraper.py:52-80 | an event element without an anchor raises `TypeError` exactly when some page has one; otherwise the map has distinct keys and no empty list |
| FedScraper.SpeechLinksHasYear | scraper_py/fed_scraper.py:59-80 | when the call completes, a year is in the map exactly when some year page reading that year has speech events |
| FedScraper.SpeechLinksLastWins | scraper_py/fed_scraper.py:59-80 | when the call completes, the links stored for a year are the anchors of the last page with events that reads that year, in element order |
| FedScraper.ThreadParse | scraper_py/fed_scraper.py:82-107 | a failed request is an exception; any other page gives a text |
| FedScraper.ThreadParseShape | scraper_py/fed_scraper.py:96-107 | the text is empty exactly when a tag is missing; otherwise it is the date, a newline and the paragraphs |
| FedScraper.Reassemble | scraper_py/fed_scraper.py:134-151 | whatever the completion order, each link's slot holds that link's text, or "" when its request raised |
| FedScraper.SelectYears | scraper_py/fed_scraper.py:125-131 | a successful selection has the requested years as keys, each once, in the order first requested |
| FedScraper.SelectYearsSucceeds | scraper_py/fed_scraper.py:125-131 | the selection succeeds exactly when every requested year is present with at least one link |
| FedScraper.SelectYearsValues | scraper_py/fed_scraper.py:125-131 | after a successful selection each requested year has the links it had in the map |
| FedScraper.SelectYearsFailure | scraper_py/fed_scraper.py:125-129 | a failed selection is decided by the first unusable requested year: a `KeyError` when it is absent, `0` when its list is empty |
| FedScraper.SpeechLinksNeverZero | scraper_py/fed_scraper.py:67-69 | on a map that `get_speech_links` returns, the `return 0` exit cannot happen |
| FedScraper.GetSpeechTexts | scraper_py/fed_scraper.py:109-152 | an unusable year ends the call as the selection does; otherwise a non-positive worker count raises `ValueError` exactly when a year was selected, and each selected year maps, in order, to its reassembled texts |
| FedScraper.ReassembleYears | scraper_py/fed_scraper.py:135-151 | each selected year, in order, is stored with the texts of its links, each in its link's slot |
| FedScraper.HrefKindsDisjoint | scraper_py/fed_scraper.py:196-201 | no href is both a testimony and a report link, so the `elif` hides nothing |
| FedScraper.PolicyLinks | scraper_py/fed_scraper.py:196-203 | the two lists together hold at most one link per href; `FedScraper.PolicyLinksAreFilters` states which href goes to which list |
| FedScraper.PolicyLinksAreFilters | scraper_py/fed_scraper.py:196-203 | the report list and the testimony list each hold their own kind of href, in page order, behind the base URL |
| FedScraper.OutputNames | scraper_py/fed_scraper.py:176-177 | there is one output file name per year |
| FedScraper.OutputNamesDistinct | scraper_py/fed_scraper.py:176-181 | different years get different file names, so no year's file overwrites another's |
| CollectFed.YearRows | data_collection/collect_fed.py:27-28 | one row per text of the year |
| CollectFed.Flatten | data_collection/collect_fed.py:25-28 | the `(year, text)` rows; `CollectFed.FlattenCount`, `CollectFed.FlattenPosition` and `CollectFed.FlattenRowsBelong` state their number, positions and years |
| CollectFed.FlattenCount | data_collection/collect_fed.py:25-28 | there are as many rows as texts across all years |
| CollectFed.FlattenPosition | data_collection/collect_fed.py:25-28 | the i-th text of the k-th year is the row right after the earlier years' rows, i places in, tagged with its year |
| CollectFed.FlattenRowsBelong | data_collection/collect_fed.py:25-28 | every row pairs a text with the year whose list holds it |
| CollectFed.PickleName | data_collection/collect_fed.py:32 | the pickle file lies under `data/` and ends in `_speeches.pkl` |
| CollectFed.PickleNameInjective | data_collection/collect_fed.py:32 | two year lists with non-negative ends share a pickle name only when they share both ends |
| CollectFed.CollectSpeechText | data_collection/collect_fed.py:22-37 | a `KeyError` or `ValueError` is passed on; a `0` from `get_speech_texts` becomes an `AttributeError`; writing with no years is an `IndexError`; otherwise the map itself, or the frame of all `(year, text)` rows year by year under the pickle name, one row per text |
| CollectFed.FrameRowPosition | data_collection/collect_fed.py:25-35 | in the pickled frame, the `i`-th text of the `k`-th year is the row right after the earlier years' rows, tagged with its year |
| ODict.Put | scraper_py/fed_scraper.py:79 | `d[k] = v` on the ordered dictionary; `ODict.PutGet` states that `k` then reads `v` and other keys are unchanged, and `ODict.PutKeys` where the key stands |
| ODict.PutKeys | scraper_py/fed_scraper.py:79 | assigning to a present key keeps the key order; assigning to a new key appends it |
| ODict.PutValid | scraper_py/fed_scraper.py:79 | assignment keeps the keys distinct |
| ODict.PutGet | scraper_py/fed_scraper.py:79 | after assignment the key reads back the new value and every other key its old one |
| ODict.GetPresent | scraper_py/fed_scraper.py:126 | a lookup succeeds exactly when the key is present |
| ODict.FromPairs | data_analysis/vectorize.py:106-107 | a fresh dictionary filled by assigning the pairs in order; `ODict.FromPairsLastWins` and `ODict.FromPairsKeysDedup` state its values and key order |
| ODict.FromPairsLastWins | data_analysis/vectorize.py:106-107 | filling a fresh dictionary in order stores, for each key, the value of its last occurrence |
| ODict.FromPairsKeys | data_analysis/vectorize.py:106-107 | the filled dictionary's keys are exactly the keys of the pairs |
| ODict.FromPairsKeyOrder | data_analysis/vectorize.py:106-107 | keys appear in the order of their first occurrence: the pairs' keys without repeats, each pair appending its key only when it is new |
| ODict.FromPairsKeysDedup | data_analysis/vectorize.py:106-107 | the keys are the pairs' keys with later repeats removed, in first-occurrence order |
| ODict.PutExisting | data_analysis/vectorize.py:107 | assigning to an existing key replaces its value at the same position |
| ODict.PutNew | scraper_py/fed_scraper.py:151 | assigning to a new key appends the pair at the end |
| Decimal.IntToString | data_collection/collect_fed.py:32 | the decimal form is non-empty and starts with `-` exactly for negative numbers |
| Decimal.ParseNatToString | scraper_py/fed_scraper.py:65 | reading back the printed digits gives the number |
| Decimal.IntToStringInjective | data_collection/collect_fed.py:32 | different integers print differently |

## Left out

- I/O is replaced by its outcome, passed in as a parameter. This covers poppler's PDF
  loading (the text of each page, or a null page), HTTP requests, BeautifulSoup parsing,
  file and pickle writes, and the `print` messages.
- The thread pools and `as_completed` are replaced by an arbitrary completion order, a
  permutation passed as a parameter. The pool's one argument check is kept: a worker
  count that is given and not positive raises `ValueError`, and `None` is accepted.
- The ECB scraper, `get_policy_texts`, `collect_policy_reports`, `Doc::write_to_file`,
  `show_*`, `CleanText::write_to_file`, the date getter and `add_to_db` are left out.
  They only do I/O, and the database has no logic of its own.
- The Cython wrapper, the headers and the setup and benchmark scripts are left out. They
  only bind, time or print.
- `sent_tokenize` and `word_tokenize` are not modelled: a document arrives already split
  into sentences, each with its word count.
- SentenceTransformer, TfidfVectorizer, GaussianMixture and PCA are floating-point
  library code. They are parameters: the vectoriser function, the fit outcome, and the
  fitted labels and probabilities.
- `text.values` at data_analysis/vectorize.py:178 is modelled as `text.values()`. As
  written it names the method without calling it and cannot be iterated.
- The numpy truth value of the PCA output is modelled as three cases: truthy, falsy, and
  ambiguous (raises).
- FedScraper.UrlJoin: handles only absolute `https://` URLs and root-relative paths,
  which are the only references the scraper joins. It is not the whole of `urljoin`.
  A root-relative path is appended to the base as it is: `urljoin`'s removal of dot
  segments (`/a/../b.htm` becomes `/b.htm`) and its dropping of an empty `?` or `#` are
  not modelled.
- DateMatcher.FindDate: `\d` matches only ASCII digits here, whereas Python also matches
  other Unicode digits.
- FedScraper.FindYear: the same ASCII-only `\d` restriction applies.
- FedScraper.GetLink, FedScraper.GetLinkIsFilter: the same ASCII-only `\d` restriction
  applies to the href filter at scraper_py/fed_scraper.py:47 (`FedScraper.IsYearHref`).
  An href spelling its year in other Unicode digits is kept by the source and dropped
  here.
- `std::regex_error` and `std::bad_alloc` are not modelled. Matching may raise the former
  (`error_complexity`, `error_stack`) on some standard libraries, and a recursive
  matcher may exhaust the stack on a long run of text without a terminator; the model
  assumes every match completes.
- The constructor leaves `num_pages` uninitialised. The model starts it from an
  arbitrary integer, which a failed load leaves unchanged.
- TextExtract.ExtractPageOf: checks emptiness on the page's text after conversion. This
  assumes a page's UTF-8 text is empty exactly when its Latin-1 re-encoding is.
- `num_sentences` is an `int` that could overflow after 2^31 sentences. It is modelled
  as unbounded.
- SpeechClean.NegativeMinKeepsNothing: stated only for pieces shorter than
  2^64 - 2^31 bytes.
- BisScraper.LinkOf: JSON titles and dates are `null` or strings. Other JSON values
  would format differently in the f-string and are not modelled.
- FedScraper.SpeechLinks: each anchored event carries its link already joined to the base
  URL; `FedScraper.UrlJoin` models that join on its own.
- BisScraper.CollectFrom: an object's `institutions` is absent, `null` or a list of
  codes. Other JSON values (a number raises, a string is intersected character by
  character) are not modelled.

## Findings

| source | as written | input that shows it | evidently intended | confidence | as-written member | corrected member |
|---|---|---|---|---|---|---|
| data_analysis/vectorize.py:106-107 | `__prepare_tokens` assigns `text[self.__date_matcher(key)]` while iterating `text.items()`, so a title that normalises to a new key grows the dictionary during the iteration | `{"Speech A 2023-01-10": ...}`: the key "2023-01-10" is added, and the next iterator step raises "dictionary changed size during iteration" | build a fresh dictionary of chunk lists keyed by the normalised titles | not executed | Vectorize.InPlaceFailsOnNewKey | Vectorize.PrepareTokensLastWins |
| data_analysis/vectorize.py:206 | `apply_pca` calls `self.model.fit_tranform`, which scikit-learn's PCA does not define | any call to `apply_pca`: it raises `AttributeError`, which the `except` turns into a `ValueError`, so `applied_pca` is never set and `get_explained_variance` always returns `None` | call `fit_transform`, so that a truthy output sets the flag and the variance becomes available | not executed | Pca.AsWrittenNeverApplies | Pca.TruthyFitEnablesVariance |
| data_analysis/vectorize.py:96-107 | after the sentence loop, `interm_list` is stored without the last `curr_sentence`, so the open buffer is dropped | a document whose total word count fits `max_len`, such as one two-word sentence with a budget of four: every sentence goes into the buffer and the stored list is empty | append the final buffer when it is not empty, so the chunks cover the whole text | not executed | Chunker.WithinBudgetYieldsNothing | Chunker.FlushedPreservesText |

=== FILE: bis_scraper.dfy ===
/** The pure parts of `ScrapeBIS` (scraper_py/bis_scraper.py): choosing the speeches of
    the wanted institutions from the BIS document list, naming the file a PDF is saved
    under, the record kept for each download, and the shape of the download result.
    The HTTP requests, the file writes and the thread pool are replaced by their
    outcomes. */
module BisScraper {
  import opened Outcomes
  import opened Seqs
  import opened ODict
  import opened Decimal
  import opened DateMatcher
  import opened Pool

  const BaseLink: string := "https://www.bis.org/"

  /** A JSON scalar read as a title or date: `null` or a string. */
  datatype Text = Null | Str(s: string)

  /** The value stored under an object's `institutions` key, when it is there: a list
      of institution codes or `null`. */
  datatype Insts = IdList(ids: seq<int>) | NullIds

  /** The value stored under one document path of the list: `null`, some value that is
      not an object, or an object with the three keys the scraper reads, each possibly
      absent. */
  datatype Entry =
    | NullEntry
    | NotObject
    | Info(institutions: Option<Insts>, shortTitle: Option<Text>, startDate: Option<Text>)

  /** One document chosen by `collect_links`. */
  datatype Link = Link(title: Text, date: Text, url: string, instIds: seq<int>, path: string)

  /** The `TypeError` of `use_codes.intersection(None)`: `null` is not iterable. */
  datatype CollectError = TypeError

  /** An object whose `institutions` is `null`: the intersection test raises on it. */
  predicate NullInstitutions(item: (string, Entry))
  {
    item.1.Info? && item.1.institutions.Some? && item.1.institutions.value.NullIds?
  }

  /** `info.get('institutions', [])`, for an object where it is not `null`. */
  function InstitutionsOf(e: Entry): seq<int>
    requires e.Info? && !(e.institutions.Some? && e.institutions.value.NullIds?)
  {
    if e.institutions.Some? then e.institutions.value.ids else []
  }

  /** `use_codes.intersection(institutions)` is non-empty. */
  predicate Intersects(useCodes: set<int>, institutions: seq<int>)
  {
    exists i | 0 <= i < |institutions| :: institutions[i] in useCodes
  }

  /** The test of the loop body: an object, with listed or absent institutions, naming
      a wanted institution. */
  predicate Wanted(useCodes: set<int>, item: (string, Entry))
  {
    item.1.Info? && !NullInstitutions(item) && Intersects(useCodes, InstitutionsOf(item.1))
  }

  /** The record appended for a wanted document. */
  function LinkOf(item: (string, Entry)): (r: Link)
    requires item.1.Info? && !NullInstitutions(item)
    ensures r.path == item.0 && r.url == BaseLink + item.0 + ".pdf"
    ensures r.instIds == InstitutionsOf(item.1)
    ensures item.1.shortTitle.None? ==> r.title == Str("Untitled")
    ensures item.1.startDate.None? ==> r.date == Str("no_date")
  {
    var (path, info) := item;
    Link(
      if info.shortTitle.Some? then info.shortTitle.value else Str("Untitled"),
      if info.startDate.Some? then info.startDate.value else Str("no_date"),
      BaseLink + path + ".pdf",
      InstitutionsOf(info),
      path)
  }

  /** The loop of `collect_links` over `list_data.items()`: an object with `null`
      institutions raises and loses the links gathered so far. */
  function CollectFrom(items: Dict<string, Entry>, useCodes: set<int>): (r: Result<seq<Link>, CollectError>)
    ensures r.Err? <==> exists i | 0 <= i < |items| :: NullInstitutions(items[i])
    ensures r.Ok? ==> |r.value| <= |items|
  {
    if |items| == 0 then Ok([])
    else
      var init := items[..|items| - 1];
      var last := items[|items| - 1];
      assert forall i | 0 <= i < |init| :: init[i] == items[i];
      var rest := CollectFrom(init, useCodes);
      if rest.Err? then rest
      else if NullInstitutions(last) then Err(TypeError)
      else if Wanted(useCodes, last) then Ok(rest.value + [LinkOf(last)])
      else rest
  }

  /** `collect_links`, given the decoded response: no `list` key gives no links, and
      the loop over the list raises when an object's institutions are `null`. */
  function CollectLinks(data: Dict<string, Dict<string, Entry>>, useCodes: set<int>): (r: Result<seq<Link>, CollectError>)
    ensures Get(data, "list").None? ==> r == Ok([])
    ensures Get(data, "list").Some? ==>
      var items := Get(data, "list").value;
      && (r.Err? <==> exists i | 0 <= i < |items| :: NullInstitutions(items[i]))
      && (r.Ok? ==> |r.value| <= |items|)
  {
    match Get(data, "list")
    case None => Ok([])
    case Some(items) => CollectFrom(items, useCodes)
  }

  /** When the loop completes, the links are the wanted entries, in iteration order,
      each turned into its record. */
  lemma {:induction false} CollectIsFilterMap(items: Dict<string, Entry>, useCodes: set<int>)
    ensures CollectFrom(items, useCodes).Ok? ==>
      var wanted := Filter(item => Wanted(useCodes, item), items);
      && (forall i | 0 <= i < |wanted| :: wanted[i].1.Info? && !NullInstitutions(wanted[i]))
      && |CollectFrom(items, useCodes).value| == |wanted|
      && forall i | 0 <= i < |wanted| :: CollectFrom(items, useCodes).value[i] == LinkOf(wanted[i])
  {
    var p := item => Wanted(useCodes, item);
    if |items| > 0 && CollectFrom(items, useCodes).Ok? {
      var init, last := items[..|items| - 1], items[|items| - 1];
      CollectIsFilterMap(init, useCodes);
      assert items == init + [last];
      FilterAppend(p, init, last);
    }
  }

  /** When the loop completes, a document is chosen exactly when its entry is an object
      sharing an institution with `use_codes`. */
  lemma CollectMembership(items: Dict<string, Entry>, useCodes: set<int>, item: (string, Entry))
    requires item in items && item.1.Info? && !NullInstitutions(item)
    ensures CollectFrom(items, useCodes).Ok? ==>
      (Wanted(useCodes, item) <==> exists i | 0 <= i < |CollectFrom(items, useCodes).value| ::
        CollectFrom(items, useCodes).value[i] == LinkOf(item))
  {
    var p := item => Wanted(useCodes, item);
    var wanted := Filter(p, items);
    CollectIsFilterMap(items, useCodes);
    FilterMembership(p, items, item);
    var r := CollectFrom(items, useCodes);
    if r.Ok? && Wanted(useCodes, item) {
      var i :| 0 <= i < |wanted| && wanted[i] == item;
      assert r.value[i] == LinkOf(item);
    }
  }

  // ---------------------------------------------------------------------------------
  // File names

  /** The class `[<>:"/\\|?*]` of the sanitising substitution. */
  predicate Unsafe(c: char)
  {
    c == '<' || c == '>' || c == ':' || c == '"' || c == '/' || c == '\\' || c == '|' || c == '?' || c == '*'
  }

  function Sanitize(c: char): (d: char)
    ensures !Unsafe(d)
  {
    if Unsafe(c) then '_' else c
  }

  /** `re.sub(r'[<>:"/\\|?*]', '_', title)[:100]`. */
  function SafeTitle(title: string): (r: string)
    ensures |r| <= 100
    ensures forall i | 0 <= i < |r| :: !Unsafe(r[i])
  {
    var n := if |title| <= 100 then |title| else 100;
    seq(n, i requires 0 <= i < n => Sanitize(title[i]))
  }

  /** Each kept character is the title's character at the same place, or `_` where that
      one was unsafe; only the first hundred are kept. */
  lemma SafeTitlePointwise(title: string)
    ensures |SafeTitle(title)| == if |title| <= 100 then |title| else 100
    ensures forall i | 0 <= i < |SafeTitle(title)| ::
      SafeTitle(title)[i] == (if Unsafe(title[i]) then '_' else title[i])
  {
  }

  /** Sanitising a sanitised title changes nothing. */
  lemma SafeTitleIdempotent(title: string)
    ensures SafeTitle(SafeTitle(title)) == SafeTitle(title)
  {
    var r := SafeTitle(title);
    assert forall i | 0 <= i < |r| :: Sanitize(r[i]) == r[i];
  }

  /** A title without unsafe characters and at most a hundred long is its own safe
      title. */
  lemma SafeTitleKeepsSafe(title: string)
    requires |title| <= 100 && forall i | 0 <= i < |title| :: !Unsafe(title[i])
    ensures SafeTitle(title) == title
  {
  }

  /** `x or default` for a title or date: `null` and the empty string are falsy. */
  function OrDefault(t: Text, default: string): (r: string)
    ensures t.Str? && |t.s| > 0 ==> r == t.s
    ensures (t.Null? || t.s == "") ==> r == default
  {
    if t.Str? && |t.s| > 0 then t.s else default
  }

  /** `f'{safe_title}-{date}.pdf'`. */
  function FileName(title: Text, date: Text): (r: string)
    ensures |r| > 4 && r[|r| - 4..] == ".pdf"
  {
    SafeTitle(OrDefault(title, "none")) + "-" + OrDefault(date, "no_date") + ".pdf"
  }

  /** A file name never starts with `/`, so `os.path.join` keeps the directory. */
  lemma FileNameRelative(title: Text, date: Text)
    ensures |FileName(title, date)| > 0 && FileName(title, date)[0] != '/'
  {
    var safe := SafeTitle(OrDefault(title, "none"));
    if |safe| > 0 {
      assert FileName(title, date)[0] == safe[0];
    }
  }

  /** `__date_matcher` of the file name gives back the date when the safe title has no
      digit and the date is date-shaped. */
  lemma FileNameDate(title: Text, d: string)
    requires NoDigits(SafeTitle(OrDefault(title, "none"))) && IsDateShaped(d)
    ensures MatchDate(FileName(title, Str(d))) == d
  {
    var safe := SafeTitle(OrDefault(title, "none"));
    assert NoDigits(safe + "-") by {
      assert forall i | 0 <= i < |safe| :: (safe + "-")[i] == safe[i];
    }
    assert FileName(title, Str(d)) == (safe + "-") + d + ".pdf";
    MatchDateAfterDigitFree(safe + "-", d, ".pdf");
  }

  /** `os.path.join(a, b)` on POSIX. */
  function PathJoin(a: string, b: string): (r: string)
    ensures |b| > 0 && b[0] == '/' ==> r == b
  {
    if |b| > 0 && b[0] == '/' then b
    else if |a| == 0 || a[|a| - 1] == '/' then a + b
    else a + "/" + b
  }

  // ---------------------------------------------------------------------------------
  // Downloads

  /** What the request and the file write did: saved the body of the response, or raised
      an exception whose `str` is given. */
  datatype Transfer = Saved(content: seq<int>) | Raised(message: string)

  /** The record `__pdf_download_helper` returns: the document with four more keys. */
  datatype Download = Download(doc: Link, fileName: string, filePath: string, sizeBytes: nat, status: string)

  /** `__pdf_download_helper`, given the outcome of its I/O. */
  function DownloadHelper(dir: string, doc: Link, t: Transfer): (r: Download)
    ensures r.doc == doc
    ensures t.Raised? <==> r.status != "success"
    ensures t.Raised? ==>
      && r.fileName == "" && r.filePath == "" && r.sizeBytes == 0
      && |r.status| >= 7 && r.status[..7] == "error: "
    ensures t.Saved? ==> r.sizeBytes == |t.content| && r.fileName == FileName(doc.title, doc.date)
  {
    match t
    case Raised(message) =>
      assert ("error: " + message)[0] == 'e';
      Download(doc, "", "", 0, "error: " + message)
    case Saved(content) =>
      var fileName := FileName(doc.title, doc.date);
      Download(doc, fileName, PathJoin(dir, fileName), |content|, "success")
  }

  /** A saved file lies directly in the download directory. */
  lemma SavedInDir(dir: string, doc: Link, content: seq<int>)
    requires |dir| > 0 && dir[|dir| - 1] != '/'
    ensures DownloadHelper(dir, doc, Saved(content)).filePath == dir + "/" + FileName(doc.title, doc.date)
  {
    FileNameRelative(doc.title, doc.date);
  }

  /** `download_pdfs`: no links give `[]`; otherwise a pool of `workers` threads is
      opened, which raises for a non-positive count, and the records are appended in the
      order the downloads complete, `order[j]` being the link whose download finished
      `j`-th. */
  method DownloadPdfs(dir: string, workers: Option<int>, links: seq<Link>, transfers: seq<Transfer>, order: seq<nat>)
    returns (result: Result<seq<Download>, PoolError>)
    requires |transfers| == |links|
    requires |links| > 0 ==> IsPermutation(order, |links|)
    ensures |links| == 0 ==> result == Ok([])
    ensures result.Err? <==> |links| > 0 && Rejects(workers)
    ensures result.Ok? ==> |result.value| == |links|
    ensures result.Ok? ==> forall j | 0 <= j < |result.value| ::
      result.value[j] == DownloadHelper(dir, links[order[j]], transfers[order[j]])
  {
    if |links| == 0 {
      return Ok([]);
    }
    if Rejects(workers) {
      return Err(InvalidWorkerCount);
    }
    var records := [];
    for j := 0 to |order|
      invariant |records| == j
      invariant forall k | 0 <= k < j :: records[k] == DownloadHelper(dir, links[order[k]], transfers[order[k]])
    {
      var i := order[j];
      records := records + [DownloadHelper(dir, links[i], transfers[i])];
    }
    return Ok(records);
  }

  /** Every link has a record, whatever the completion order; with one record per link
      in all, none has two. */
  lemma DownloadsCoverLinks(dir: string, links: seq<Link>, transfers: seq<Transfer>, order: seq<nat>, result: seq<Download>)
    requires |transfers| == |links| && IsPermutation(order, |links|)
    requires |result| == |links|
    requires forall j | 0 <= j < |result| :: result[j] == DownloadHelper(dir, links[order[j]], transfers[order[j]])
    ensures forall i | 0 <= i < |links| :: HasRecord(result, links[i])
  {
    forall i | 0 <= i < |links| ensures HasRecord(result, links[i]) {
      assert i in order;
      var j :| 0 <= j < |order| && order[j] == i;
      assert result[j].doc == links[i];
    }
  }

  predicate HasRecord(result: seq<Download>, doc: Link)
  {
    exists j | 0 <= j < |result| :: result[j].doc == doc
  }
}

=== FILE: blanks.dfy ===
/** Removing a set of blank elements from both ends of a sequence: the reference that
    Python's `str.strip()` is and that the C++ trimming code is measured against. */
module Blanks {

  /** Drops leading blanks: what remains is a suffix that starts with a non-blank. */
  function StripLeft<T(==)>(s: seq<T>, ws: iset<T>): (r: seq<T>)
    ensures |r| <= |s| && r == s[|s| - |r|..]
    ensures forall i | 0 <= i < |s| - |r| :: s[i] in ws
    ensures |r| > 0 ==> r[0] !in ws
  {
    if |s| > 0 && s[0] in ws then
      var r := StripLeft(s[1..], ws);
      assert s[1..][|s| - 1 - |r|..] == s[|s| - |r|..];
      r
    else s
  }

  /** Drops trailing blanks: what remains is a prefix that ends in a non-blank. */
  function StripRight<T(==)>(s: seq<T>, ws: iset<T>): (r: seq<T>)
    ensures |r| <= |s| && r == s[..|r|]
    ensures forall i | |r| <= i < |s| :: s[i] in ws
    ensures |r| > 0 ==> r[|r| - 1] !in ws
  {
    if |s| > 0 && s[|s| - 1] in ws then StripRight(s[..|s| - 1], ws) else s
  }

  predicate AllBlank<T(==)>(s: seq<T>, ws: iset<T>)
  {
    forall i | 0 <= i < |s| :: s[i] in ws
  }

  /** Drops blanks at both ends: nothing of `s` remains exactly when all of it is blank. */
  function Strip<T(==)>(s: seq<T>, ws: iset<T>): (r: seq<T>)
    ensures |r| > 0 ==> r[0] !in ws && r[|r| - 1] !in ws
    ensures |r| == 0 <==> AllBlank(s, ws)
  {
    StripEmptyIff(s, ws);
    StripRight(StripLeft(s, ws), ws)
  }

  lemma {:induction false} StripEmptyIff<T>(s: seq<T>, ws: iset<T>)
    ensures |StripRight(StripLeft(s, ws), ws)| == 0 <==> AllBlank(s, ws)
  {
    var l := StripLeft(s, ws);
    var k := |s| - |l|;
    var r := StripRight(l, ws);
    if |r| == 0 {
      assert |l| == 0;
    } else {
      assert l[0] == s[k];
    }
  }

  /** The part of `s` between its blank ends, given by where it starts and ends. */
  lemma {:induction false} StripBounds<T>(s: seq<T>, ws: iset<T>)
    ensures var i := |s| - |StripLeft(s, ws)|;
      && i + |Strip(s, ws)| <= |s|
      && Strip(s, ws) == s[i..i + |Strip(s, ws)|]
  {
  }

  /** Stripping twice strips nothing more. */
  lemma {:induction false} StripIdempotent<T>(s: seq<T>, ws: iset<T>)
    ensures Strip(Strip(s, ws), ws) == Strip(s, ws)
  {
    var r := Strip(s, ws);
    if |r| > 0 {
      assert StripLeft(r, ws) == r;
      assert StripRight(r, ws) == r;
    } else {
      assert StripLeft(r, ws) == r;
    }
  }

  /** A sequence whose last element is not blank keeps that element last when
      stripped. */
  lemma StripKeepsLast<T>(p: seq<T>, ws: iset<T>)
    requires |p| > 0 && p[|p| - 1] !in ws
    ensures |Strip(p, ws)| > 0 && Strip(p, ws)[|Strip(p, ws)| - 1] == p[|p| - 1]
  {
    StripLeftKeepsLast(p, ws);
    var l := StripLeft(p, ws);
    assert StripRight(l, ws) == l;
  }

  lemma StripLeftKeepsLast<T>(p: seq<T>, ws: iset<T>)
    requires |p| > 0 && p[|p| - 1] !in ws
    ensures |StripLeft(p, ws)| > 0 && StripLeft(p, ws)[|StripLeft(p, ws)| - 1] == p[|p| - 1]
  {
    var l := StripLeft(p, ws);
    var k := |p| - |l|;
    assert k < |p|;
    assert l[|l| - 1] == p[k..][|l| - 1];
  }

  /** Two blank sets that agree on the elements of `s` strip it alike. */
  lemma {:induction false} StripAgree<T>(s: seq<T>, a: iset<T>, b: iset<T>)
    requires forall i | 0 <= i < |s| :: s[i] in a <==> s[i] in b
    ensures Strip(s, a) == Strip(s, b)
  {
    StripLeftAgree(s, a, b);
    var l := StripLeft(s, a);
    var k := |s| - |l|;
    assert l == s[k..];
    forall i | 0 <= i < |l| ensures l[i] in a <==> l[i] in b {
      assert s[k..][i] == s[k + i];
    }
    StripRightAgree(l, a, b);
  }

  lemma {:induction false} StripLeftAgree<T>(s: seq<T>, a: iset<T>, b: iset<T>)
    requires forall i | 0 <= i < |s| :: s[i] in a <==> s[i] in b
    ensures StripLeft(s, a) == StripLeft(s, b)
  {
    if |s| > 0 && s[0] in a {
      assert forall i | 0 <= i < |s[1..]| :: s[1..][i] == s[i + 1];
      StripLeftAgree(s[1..], a, b);
    }
  }

  lemma {:induction false} StripRightAgree<T>(s: seq<T>, a: iset<T>, b: iset<T>)
    requires forall i | 0 <= i < |s| :: s[i] in a <==> s[i] in b
    ensures StripRight(s, a) == StripRight(s, b)
  {
    if |s| > 0 && s[|s| - 1] in a {
      StripRightAgree(s[..|s| - 1], a, b);
    }
  }
}

=== FILE: bytes.dfy ===
/** The characters of a C++ `std::string` are bytes; a byte is held here as the
    character with that code, so an ASCII Python string is also a byte string. */
module Bytes {
  type Byte = c: char | c < 256 as char

  type ByteString = seq<Byte>

  /** `isascii` of the unsigned byte in C++, `ord(c) < 128` in Python. */
  predicate IsAscii(c: char)
  {
    c < 128 as char
  }

  predicate AllAscii(s: string)
  {
    forall i | 0 <= i < |s| :: IsAscii(s[i])
  }

  /** `is_ascii_only`: stops at the first non-ASCII byte. */
  method IsAsciiOnly(s: ByteString) returns (b: bool)
    ensures b <==> AllAscii(s)
    ensures !b ==> exists i | 0 <= i < |s| :: !IsAscii(s[i])
  {
    for i := 0 to |s|
      invariant forall j | 0 <= j < i :: IsAscii(s[j])
    {
      if !IsAscii(s[i]) {
        return false;
      }
    }
    return true;
  }
}

=== FILE: chunker.dfy ===
/** The chunker of `Vectorize.__prepare_tokens` (data_analysis/vectorize.py): a left fold
    over a document's sentences with a word-count accumulator and a string buffer. The
    buffer is closed as a chunk when adding a sentence pushes the count past the budget.
    Sentence splitting and word counting are done by NLTK; here each sentence arrives
    with its word count. */
module Chunker {
  import opened Seqs

  /** One sentence as `sent_tokenize` returns it, with `len(word_tokenize(sentence))`. */
  datatype Sentence = Sentence(text: string, words: nat)

  /** The loop variables: `counter`, `curr_sentence` and `interm_list`. */
  datatype State = State(counter: int, buffer: string, chunks: seq<string>)

  /** One iteration of the loop over `sentence_list`. */
  function Step(st: State, s: Sentence, maxLen: int): State
  {
    var counter := st.counter + s.words;
    if counter <= maxLen then State(counter, st.buffer + s.text, st.chunks)
    else State(s.words, s.text, st.chunks + [st.buffer])
  }

  /** The loop run over a whole document. */
  function Run(sents: seq<Sentence>, maxLen: int): (r: State)
    ensures |r.chunks| <= |sents|
  {
    if |sents| == 0 then State(0, "", [])
    else Step(Run(sents[..|sents| - 1], maxLen), sents[|sents| - 1], maxLen)
  }

  /** What the code stores for a document: the closed chunks. The open buffer left when
      the loop ends is never appended. */
  function Chunks(sents: seq<Sentence>, maxLen: int): seq<string>
  {
    Run(sents, maxLen).chunks
  }

  /** The chunker with the final buffer kept: the same loop, then the last buffer is
      appended as one more chunk when it is not empty. */
  function FlushedChunks(sents: seq<Sentence>, maxLen: int): (r: seq<string>)
    ensures var written := Chunks(sents, maxLen);
      |written| <= |r| <= |written| + 1 && r[..|written|] == written
  {
    var st := Run(sents, maxLen);
    if st.buffer == "" then st.chunks else st.chunks + [st.buffer]
  }

  /** The sentences' texts joined without separator. */
  function Texts(g: seq<Sentence>): string
  {
    if |g| == 0 then "" else Texts(g[..|g| - 1]) + g[|g| - 1].text
  }

  /** Total word count of some sentences. */
  function Words(g: seq<Sentence>): nat
  {
    if |g| == 0 then 0 else Words(g[..|g| - 1]) + g[|g| - 1].words
  }

  lemma WordsAppend(g: seq<Sentence>, s: Sentence)
    ensures Words(g + [s]) == Words(g) + s.words
    ensures Texts(g + [s]) == Texts(g) + s.text
  {
    assert (g + [s])[..|g|] == g;
  }

  // ---------------------------------------------------------------------------
  // A reference chunker over sentences instead of strings: it records which
  // sentences form each chunk, so that budget and ordering can be stated.

  /** The open group of sentences and the closed groups. */
  datatype Grouping = Grouping(current: seq<Sentence>, groups: seq<seq<Sentence>>)

  function GroupStep(gr: Grouping, s: Sentence, maxLen: int): Grouping
  {
    if Words(gr.current) + s.words <= maxLen then Grouping(gr.current + [s], gr.groups)
    else Grouping([s], gr.groups + [gr.current])
  }

  function GroupRun(sents: seq<Sentence>, maxLen: int): Grouping
  {
    if |sents| == 0 then Grouping([], [])
    else GroupStep(GroupRun(sents[..|sents| - 1], maxLen), sents[|sents| - 1], maxLen)
  }

  /** The closed groups followed by the open group are the document's sentences, in
      order; no sentence is split, dropped, repeated or moved. The open group is empty
      only for an empty document. */
  lemma {:induction false} GroupsPartition(sents: seq<Sentence>, maxLen: int)
    ensures var gr := GroupRun(sents, maxLen);
      && Concat(gr.groups) + gr.current == sents
      && |gr.groups| <= |sents|
      && (gr.current == [] <==> sents == [])
  {
    if |sents| > 0 {
      var prefix := sents[..|sents| - 1];
      var s := sents[|sents| - 1];
      GroupsPartition(prefix, maxLen);
      var before := GroupRun(prefix, maxLen);
      ConcatAppend(before.groups, before.current);
      assert sents == prefix + [s];
    }
  }

  /** A group of two or more sentences is within the budget; only a group of one sentence
      (or the empty first group) can exceed it. */
  lemma {:induction false} GroupsWithinBudget(sents: seq<Sentence>, maxLen: int)
    ensures var gr := GroupRun(sents, maxLen);
      && (forall i | 0 <= i < |gr.groups| :: |gr.groups[i]| >= 2 ==> Words(gr.groups[i]) <= maxLen)
      && (|gr.current| >= 2 ==> Words(gr.current) <= maxLen)
  {
    if |sents| > 0 {
      var prefix := sents[..|sents| - 1];
      var s := sents[|sents| - 1];
      GroupsWithinBudget(prefix, maxLen);
      var before := GroupRun(prefix, maxLen);
      if Words(before.current) + s.words <= maxLen {
        WordsAppend(before.current, s);
        assert GroupRun(sents, maxLen) == Grouping(before.current + [s], before.groups);
      } else {
        assert GroupRun(sents, maxLen) == Grouping([s], before.groups + [before.current]);
      }
    }
  }

  /** Only the first group can be empty, and it is exactly when the first sentence alone
      is over the budget. */
  lemma {:induction false} EmptyGroupOnlyFirst(sents: seq<Sentence>, maxLen: int)
    ensures var gr := GroupRun(sents, maxLen);
      && (forall i | 0 < i < |gr.groups| :: gr.groups[i] != [])
      && (|sents| > 0 ==> (sents[0].words > maxLen <==> |gr.groups| > 0 && gr.groups[0] == []))
  {
    if |sents| > 0 {
      var prefix := sents[..|sents| - 1];
      var s := sents[|sents| - 1];
      EmptyGroupOnlyFirst(prefix, maxLen);
      GroupsPartition(prefix, maxLen);
      var before := GroupRun(prefix, maxLen);
      if |prefix| == 0 {
        assert before == Grouping([], []);
        assert Words([]) == 0;
      } else {
        assert prefix[0] == sents[0];
        assert before.current != [];
        if Words(before.current) + s.words <= maxLen {
          assert GroupRun(sents, maxLen) == Grouping(before.current + [s], before.groups);
        } else {
          assert GroupRun(sents, maxLen) == Grouping([s], before.groups + [before.current]);
        }
      }
    }
  }

  /** The string-level loop is the grouping seen through `Texts`: the accumulator is the
      open group's word count, the buffer its text, and each chunk the text of a group. */
  lemma RunIsGrouping(sents: seq<Sentence>, maxLen: int)
    ensures Run(sents, maxLen).counter == Words(GroupRun(sents, maxLen).current)
    ensures Run(sents, maxLen).buffer == Texts(GroupRun(sents, maxLen).current)
    ensures Run(sents, maxLen).chunks == Map(Texts, GroupRun(sents, maxLen).groups)
  {
    RunOpenGroup(sents, maxLen);
    RunClosedGroups(sents, maxLen);
  }

  /** The accumulator and the buffer follow the open group. */
  lemma {:induction false} RunOpenGroup(sents: seq<Sentence>, maxLen: int)
    ensures Run(sents, maxLen).counter == Words(GroupRun(sents, maxLen).current)
    ensures Run(sents, maxLen).buffer == Texts(GroupRun(sents, maxLen).current)
  {
    if |sents| > 0 {
      var prefix := sents[..|sents| - 1];
      var s := sents[|sents| - 1];
      RunOpenGroup(prefix, maxLen);
      WordsAppend(GroupRun(prefix, maxLen).current, s);
      WordsAppend([], s);
      assert [] + [s] == [s];
    }
  }

  /** Each closed chunk is the text of a closed group. */
  lemma {:induction false} RunClosedGroups(sents: seq<Sentence>, maxLen: int)
    ensures Run(sents, maxLen).chunks == Map(Texts, GroupRun(sents, maxLen).groups)
  {
    if |sents| > 0 {
      var prefix := sents[..|sents| - 1];
      RunClosedGroups(prefix, maxLen);
      RunOpenGroup(prefix, maxLen);
      var before := GroupRun(prefix, maxLen);
      assert Map(Texts, before.groups + [before.current]) == Map(Texts, before.groups) + [Texts(before.current)];
    }
  }

  /** Nothing is lost, duplicated or reordered: the chunks followed by the dropped final
      buffer concatenate to the document's sentences. */
  lemma {:induction false} ChunksPreserveText(sents: seq<Sentence>, maxLen: int)
    ensures Concat(Chunks(sents, maxLen)) + Run(sents, maxLen).buffer == Texts(sents)
  {
    if |sents| > 0 {
      var prefix := sents[..|sents| - 1];
      var s := sents[|sents| - 1];
      ChunksPreserveText(prefix, maxLen);
      var st := Run(prefix, maxLen);
      ConcatAppend(st.chunks, st.buffer);
    }
  }

  /** The chunks are the texts of the groups, and a chunk made of two or more sentences
      stays within the word budget; only a one-sentence chunk can exceed it. */
  lemma ChunkBudget(sents: seq<Sentence>, maxLen: int)
    ensures var gr := GroupRun(sents, maxLen);
      && |Chunks(sents, maxLen)| == |gr.groups|
      && forall i | 0 <= i < |gr.groups| ::
           && Chunks(sents, maxLen)[i] == Texts(gr.groups[i])
           && (|gr.groups[i]| >= 2 ==> Words(gr.groups[i]) <= maxLen)
  {
    RunIsGrouping(sents, maxLen);
    GroupsWithinBudget(sents, maxLen);
  }

  lemma {:induction false} TextsEmpty(g: seq<Sentence>)
    requires forall i | 0 <= i < |g| :: g[i].text != ""
    ensures Texts(g) == "" <==> g == []
  {
    if |g| > 0 {
      TextsEmpty(g[..|g| - 1]);
    }
  }

  /** With non-empty sentences, an empty chunk can only be the first one, and it is there
      exactly when the first sentence alone is over budget. */
  lemma EmptyChunkOnlyFirst(sents: seq<Sentence>, maxLen: int)
    requires forall i | 0 <= i < |sents| :: sents[i].text != ""
    ensures forall i | 0 <= i < |Chunks(sents, maxLen)| ::
      Chunks(sents, maxLen)[i] == "" <==> (i == 0 && |sents| > 0 && sents[0].words > maxLen)
    ensures |sents| > 0 && sents[0].words > maxLen ==> |Chunks(sents, maxLen)| > 0 && Chunks(sents, maxLen)[0] == ""
  {
    ChunkBudget(sents, maxLen);
    GroupsPartition(sents, maxLen);
    EmptyGroupOnlyFirst(sents, maxLen);
    var gr := GroupRun(sents, maxLen);
    forall i | 0 <= i < |gr.groups|
      ensures Texts(gr.groups[i]) == "" <==> gr.groups[i] == []
    {
      assert forall k | 0 <= k < |gr.groups[i]| :: gr.groups[i][k] in sents by {
        forall k | 0 <= k < |gr.groups[i]|
          ensures gr.groups[i][k] in sents
        {
          ConcatIndex(gr.groups, i, k);
          assert Concat(gr.groups)[|Concat(gr.groups[..i])| + k] in Concat(gr.groups) + gr.current;
        }
      }
      TextsEmpty(gr.groups[i]);
    }
  }

  lemma {:induction false} WithinBudgetRun(sents: seq<Sentence>, maxLen: int)
    requires Words(sents) <= maxLen
    ensures Run(sents, maxLen).chunks == [] && Run(sents, maxLen).counter == Words(sents)
  {
    if |sents| > 0 {
      WithinBudgetRun(sents[..|sents| - 1], maxLen);
    }
  }

  /** Because the final buffer is dropped, a document whose total word count fits the
      budget yields no chunk at all. */
  lemma WithinBudgetYieldsNothing(sents: seq<Sentence>, maxLen: int)
    requires Words(sents) <= maxLen
    ensures Chunks(sents, maxLen) == []
  {
    WithinBudgetRun(sents, maxLen);
  }

  /** The flushing chunker loses nothing: its chunks concatenate to the whole document. */
  lemma FlushedPreservesText(sents: seq<Sentence>, maxLen: int)
    ensures Concat(FlushedChunks(sents, maxLen)) == Texts(sents)
  {
    ChunksPreserveText(sents, maxLen);
    var st := Run(sents, maxLen);
    ConcatAppend(st.chunks, st.buffer);
  }

  /** With non-empty sentences the flushing chunker adds exactly one chunk, the text of the
      last group, to what the code returns. */
  lemma FlushedAddsLastGroup(sents: seq<Sentence>, maxLen: int)
    requires |sents| > 0 && forall i | 0 <= i < |sents| :: sents[i].text != ""
    ensures FlushedChunks(sents, maxLen) == Chunks(sents, maxLen) + [Texts(GroupRun(sents, maxLen).current)]
  {
    RunIsGrouping(sents, maxLen);
    OpenGroupText(sents, maxLen);
  }

  /** With non-empty sentences the open group has a non-empty text. */
  lemma OpenGroupText(sents: seq<Sentence>, maxLen: int)
    requires |sents| > 0 && forall i | 0 <= i < |sents| :: sents[i].text != ""
    ensures Texts(GroupRun(sents, maxLen).current) != ""
  {
    GroupsPartition(sents, maxLen);
    var gr := GroupRun(sents, maxLen);
    var n := |Concat(gr.groups)|;
    assert gr.current == sents[n..] by {
      assert Concat(gr.groups) + gr.current == sents;
    }
    assert forall k | 0 <= k < |gr.current| :: gr.current[k].text != "" by {
      assert forall k | 0 <= k < |gr.current| :: gr.current[k] == sents[n + k];
    }
    TextsEmpty(gr.current);
  }

  /** An example: three two-word sentences with a budget of four words give one
      chunk of the first two; the third is left in the buffer and dropped. */
  lemma ChunkExample(t1: string, t2: string, t3: string)
    ensures var doc := [Sentence(t1, 2), Sentence(t2, 2), Sentence(t3, 2)];
      && Chunks(doc, 4) == [t1 + t2]
      && (t3 != "" ==> FlushedChunks(doc, 4) == [t1 + t2, t3])
  {
    var s1, s2, s3 := Sentence(t1, 2), Sentence(t2, 2), Sentence(t3, 2);
    var doc := [s1, s2, s3];
    assert doc[..2] == [s1, s2] && [s1, s2][..1] == [s1] && [s1][..0] == [];
    assert "" + t1 == t1;
    var r1 := Run([s1], 4);
    assert Run([s1][..0], 4) == State(0, "", []);
    assert r1 == Step(State(0, "", []), s1, 4);
    assert Step(State(0, "", []), s1, 4) == State(2, t1, []);
    var r2 := Run([s1, s2], 4);
    assert r2 == Step(r1, s2, 4) == State(4, t1 + t2, []);
    assert Run(doc, 4) == Step(r2, s3, 4) == State(2, t3, [t1 + t2]);
  }
}

=== FILE: collect_fed.dfy ===
/** `collect_speech_text` (data_collection/collect_fed.py): the scraped speeches are
    flattened into `(year, text)` rows, which are pickled when asked for, and otherwise
    the map of speeches itself is returned. The pickle write is left to the caller. */
module CollectFed {
  import opened Outcomes
  import opened Seqs
  import opened ODict
  import opened Decimal
  import opened FedScraper

  type Row = (int, string)

  /** The rows of one year: its texts in list order, each tagged with the year. */
  function YearRows(entry: (int, seq<string>)): (r: seq<Row>)
    ensures |r| == |entry.1|
  {
    seq(|entry.1|, i requires 0 <= i < |entry.1| => (entry.0, entry.1[i]))
  }

  /** The nested loop building `data`: year by year in the map's order, text by text. */
  function Flatten(speeches: Dict<int, seq<string>>): seq<Row>
  {
    FlatMap(YearRows, speeches)
  }

  /** How many texts each year has. */
  function YearCounts(speeches: Dict<int, seq<string>>): (r: seq<int>)
    ensures |r| == |speeches|
  {
    seq(|speeches|, i requires 0 <= i < |speeches| => |speeches[i].1|)
  }

  /** There is one row per text: as many rows as the years' lists hold together. */
  lemma {:induction false} FlattenCount(speeches: Dict<int, seq<string>>)
    ensures |Flatten(speeches)| == Sum(YearCounts(speeches))
  {
    if |speeches| > 0 {
      var init := speeches[..|speeches| - 1];
      FlattenCount(init);
      assert YearCounts(speeches)[..|speeches| - 1] == YearCounts(init);
    }
  }

  /** The `i`-th text of the `k`-th year is the row right after the rows of the years
      before it, `i` places in, and carries that year. */
  lemma FlattenPosition(speeches: Dict<int, seq<string>>, k: nat, i: nat)
    requires k < |speeches| && i < |speeches[k].1|
    ensures var at := |Flatten(speeches[..k])| + i;
      at < |Flatten(speeches)| && Flatten(speeches)[at] == (speeches[k].0, speeches[k].1[i])
  {
    var before, after := speeches[..k + 1], speeches[k + 1..];
    assert before + after == speeches;
    FlatMapAppend(YearRows, before, after);
    FlatMapStep(YearRows, speeches, k);
    var rows := YearRows(speeches[k]);
    assert Flatten(speeches) == Flatten(speeches[..k]) + rows + Flatten(after);
    assert rows[i] == (speeches[k].0, speeches[k].1[i]);
  }

  /** Every row pairs a text with the year whose list it came from. */
  lemma FlattenRowsBelong(speeches: Dict<int, seq<string>>)
    ensures forall row | row in Flatten(speeches) :: Belongs(speeches, row)
  {
    forall j | 0 <= j < |speeches| ensures forall row | row in YearRows(speeches[j]) :: Belongs(speeches, row) {
      forall row | row in YearRows(speeches[j]) ensures Belongs(speeches, row) {
        var i :| 0 <= i < |speeches[j].1| && YearRows(speeches[j])[i] == row;
        assert row.1 == speeches[j].1[i];
      }
    }
    FlatMapAll(YearRows, speeches, row => Belongs(speeches, row));
  }

  /** Some year of the map has this row's year as key and its text in its list. */
  predicate Belongs(speeches: Dict<int, seq<string>>, row: Row)
  {
    exists k | 0 <= k < |speeches| :: speeches[k].0 == row.0 && row.1 in speeches[k].1
  }

  /** `f"data/{years[0]}-{years[-1]}_speeches.pkl"`; `years` must not be empty. */
  function PickleName(years: seq<int>): (r: string)
    requires |years| > 0
    ensures |r| > 18 && r[..5] == "data/" && r[|r| - 13..] == "_speeches.pkl"
  {
    "data/" + (IntToString(years[0]) + ("-" + (IntToString(years[|years| - 1]) + "_speeches.pkl")))
  }

  /** The name tells the first and last year apart: two year lists with non-negative
      ends share a pickle name only when they share both ends. */
  lemma PickleNameInjective(ys: seq<int>, zs: seq<int>)
    requires |ys| > 0 && |zs| > 0
    requires ys[0] >= 0 && ys[|ys| - 1] >= 0 && zs[0] >= 0 && zs[|zs| - 1] >= 0
    requires PickleName(ys) == PickleName(zs)
    ensures ys[0] == zs[0] && ys[|ys| - 1] == zs[|zs| - 1]
  {
    var a, b := IntToString(ys[0]), IntToString(ys[|ys| - 1]);
    var c, d := IntToString(zs[0]), IntToString(zs[|zs| - 1]);
    assert AllDigits(a) by { assert a == NatToString(ys[0]); }
    assert AllDigits(c) by { assert c == NatToString(zs[0]); }
    var tail := "_speeches.pkl";
    var x, y := a + ("-" + (b + tail)), c + ("-" + (d + tail));
    assert x == y by {
      assert x == ("data/" + x)[5..];
      assert y == ("data/" + y)[5..];
    }
    DashSplit(a, b, c, d, tail);
    IntToStringInjective(ys[0], zs[0]);
    IntToStringInjective(ys[|ys| - 1], zs[|zs| - 1]);
  }

  /** A digit run followed by `-` is read back unambiguously, and so is what lies between
      the dash and a common tail. */
  lemma DashSplit(a: string, b: string, c: string, d: string, tail: string)
    requires AllDigits(a) && AllDigits(c)
    requires a + ("-" + (b + tail)) == c + ("-" + (d + tail))
    ensures a == c && b == d
  {
    var x, y := "-" + (b + tail), "-" + (d + tail);
    DigitsThenDash(a, x, c, y);
    assert b + tail == x[1..] == y[1..] == d + tail;
    assert b == (b + tail)[..|b|];
    assert d == (d + tail)[..|d|];
  }

  /** A digit run ends where a non-digit starts, so it is read back unambiguously. */
  lemma DigitsThenDash(a: string, x: string, c: string, y: string)
    requires AllDigits(a) && AllDigits(c) && |x| > 0 && |y| > 0 && !IsDigit(x[0]) && !IsDigit(y[0])
    requires a + x == c + y
    ensures a == c && x == y
  {
    var s := a + x;
    assert forall i | 0 <= i < |a| :: IsDigit(s[i]);
    assert !IsDigit(s[|a|]);
    assert forall i | 0 <= i < |c| :: IsDigit(s[i]) by {
      assert forall i | 0 <= i < |c| :: s[i] == c[i];
    }
    assert !IsDigit(s[|c|]) by {
      assert s[|c|] == y[0];
    }
    assert |a| == |c|;
    assert a == s[..|a|] == c;
    assert x == s[|a|..] == y;
  }

  /** What `collect_speech_text` returns: the rows (after pickling them under the name)
      or the map of speeches. */
  datatype Collected = Frame(rows: seq<Row>, fileName: string) | SpeechDict(speeches: Dict<int, seq<string>>)

  /** What it raises: a `KeyError` or the pool's `ValueError` passed on from
      `get_speech_texts`, an `AttributeError` when that returned `0` (an integer has
      no `items`), or an `IndexError` when the file name reads `years[0]` of an empty
      list. */
  datatype Failure = KeyError(year: int) | ValueError | AttributeError | IndexError

  /** `collect_speech_text`, given how `get_speech_texts` ended. */
  function CollectSpeechText(texts: YearsOutcome<Dict<int, seq<string>>>, years: seq<int>, writeToFile: bool): (r: Result<Collected, Failure>)
    ensures texts.RaisesKeyError? ==> r == Err(KeyError(texts.year))
    ensures texts.RaisesValueError? ==> r == Err(ValueError)
    ensures texts.ReturnsZero? ==> r == Err(AttributeError)
    ensures texts.Returns? && !writeToFile ==> r == Ok(SpeechDict(texts.value))
    ensures texts.Returns? && writeToFile ==> (r == Err(IndexError) <==> |years| == 0)
    ensures r.Ok? && r.value.Frame? ==> |r.value.rows| == Sum(YearCounts(texts.value))
    ensures r.Ok? && r.value.Frame? ==>
      r.value.rows == Flatten(texts.value) && r.value.fileName == PickleName(years)
  {
    match texts
    case RaisesKeyError(y) => Err(KeyError(y))
    case RaisesValueError => Err(ValueError)
    case ReturnsZero => Err(AttributeError)
    case Returns(speeches) =>
      var data := Flatten(speeches);
      FlattenCount(speeches);
      if writeToFile then
        if |years| == 0 then Err(IndexError) else Ok(Frame(data, PickleName(years)))
      else Ok(SpeechDict(speeches))
  }

  /** In the pickled frame, the `i`-th text of the `k`-th year is the row right after the
      rows of the years before it, `i` places in, tagged with that year. */
  lemma FrameRowPosition(texts: YearsOutcome<Dict<int, seq<string>>>, years: seq<int>, k: nat, i: nat)
    requires texts.Returns? && |years| > 0
    requires k < |texts.value| && i < |texts.value[k].1|
    ensures var r := CollectSpeechText(texts, years, true);
      && r.Ok? && r.value.Frame?
      && var at := |Flatten(texts.value[..k])| + i;
      && at < |r.value.rows|
      && r.value.rows[at] == (texts.value[k].0, texts.value[k].1[i])
  {
    FlattenPosition(texts.value, k, i);
  }
}

=== FILE: date_matcher.dfy ===
/** `Vectorize.__date_matcher` (data_analysis/vectorize.py): the leftmost substring with
    the digit shape of an ISO 8601 extended-format calendar date, YYYY-MM-DD (ISO
    8601:2004 section 4.1.2.2), or the title itself when there is none. Months and days
    are not range-checked: "9999-99-99" matches. */
module DateMatcher {
  import opened Outcomes
  import opened Decimal
  import opened Seqs

  /** `t[i..i + 10]` matches `\d{4}-\d{2}-\d{2}`. */
  predicate DateAt(t: string, i: nat)
  {
    && i + 10 <= |t|
    && IsDigit(t[i]) && IsDigit(t[i + 1]) && IsDigit(t[i + 2]) && IsDigit(t[i + 3])
    && t[i + 4] == '-'
    && IsDigit(t[i + 5]) && IsDigit(t[i + 6])
    && t[i + 7] == '-'
    && IsDigit(t[i + 8]) && IsDigit(t[i + 9])
  }

  /** The whole string is one date-shaped token. */
  predicate IsDateShaped(d: string)
  {
    |d| == 10 && DateAt(d, 0)
  }

  /** The regex engine's scan: the first position at or after `from` where a date starts. */
  function FindDate(t: string, from: nat): (r: Option<nat>)
    decreases |t| - from
    ensures r.Some? ==> from <= r.value && DateAt(t, r.value)
    ensures r.Some? ==> forall j: nat | from <= j < r.value :: !DateAt(t, j)
    ensures r.None? ==> forall j: nat | from <= j :: !DateAt(t, j)
  {
    if from >= |t| then None
    else if DateAt(t, from) then Some(from)
    else FindDate(t, from + 1)
  }

  /** `re.search` then `group()`, falling back to the title. */
  function MatchDate(title: string): (r: string)
    ensures (exists i: nat :: DateAt(title, i)) ==>
      exists i: nat :: DateAt(title, i) && (forall j: nat | j < i :: !DateAt(title, j)) && r == title[i..i + 10]
    ensures (forall i: nat :: !DateAt(title, i)) ==> r == title
  {
    match FindDate(title, 0)
    case Some(i) => title[i..i + 10]
    case None => title
  }

  /** A date-shaped string normalises to itself. */
  lemma MatchDateOfDate(d: string)
    requires IsDateShaped(d)
    ensures MatchDate(d) == d
  {
    assert DateAt(d, 0);
  }

  /** Normalising twice changes nothing, so re-applying the matcher to keys that were
      already normalised is harmless. */
  lemma MatchDateIdempotent(title: string)
    ensures MatchDate(MatchDate(title)) == MatchDate(title)
  {
    if exists i: nat :: DateAt(title, i) {
      var i: nat :| DateAt(title, i) && MatchDate(title) == title[i..i + 10];
      MatchDateOfDate(title[i..i + 10]);
    }
  }

  /** Behind a digit-free prefix, the first date-shaped token is found exactly. */
  lemma MatchDateAfterDigitFree(prefix: string, d: string, suffix: string)
    requires NoDigits(prefix) && IsDateShaped(d)
    ensures MatchDate(prefix + d + suffix) == d
  {
    var t := prefix + d + suffix;
    assert DateAt(t, |prefix|);
    forall j: nat | j < |prefix|
      ensures !DateAt(t, j)
    {
      assert t[j] == prefix[j];
    }
    var i: nat :| DateAt(t, i) && (forall j: nat | j < i :: !DateAt(t, j)) && MatchDate(t) == t[i..i + 10];
    assert i == |prefix|;
  }

  /** The end-to-end example: "Speech A 2023-01-10" is keyed under "2023-01-10". */
  lemma MatchDateExample()
    ensures MatchDate("Speech A 2023-01-10") == "2023-01-10"
    ensures MatchDate("Speech A") == "Speech A"
  {
    assert "Speech A 2023-01-10" == "Speech A " + "2023-01-10" + "";
    MatchDateAfterDigitFree("Speech A ", "2023-01-10", "");
    assert forall i: nat :: !DateAt("Speech A", i);
  }
}

=== FILE: decimal.dfy ===
/** Decimal digits and Python's `str(int)` / `int(str)` on ASCII digit strings. */
module Decimal {

  predicate IsDigit(c: char)
  {
    '0' <= c <= '9'
  }

  predicate AllDigits(s: string)
  {
    forall i | 0 <= i < |s| :: IsDigit(s[i])
  }

  predicate NoDigits(s: string)
  {
    forall i | 0 <= i < |s| :: !IsDigit(s[i])
  }

  function DigitValue(c: char): nat
    requires IsDigit(c)
  {
    c as int - '0' as int
  }

  function DigitChar(d: nat): (c: char)
    requires d < 10
    ensures IsDigit(c) && DigitValue(c) == d
  {
    ('0' as int + d) as char
  }

  /** `int(s)` for a string of ASCII digits (leading zeros allowed). */
  function ParseNat(s: string): nat
    requires AllDigits(s)
  {
    if |s| == 0 then 0 else ParseNat(s[..|s| - 1]) * 10 + DigitValue(s[|s| - 1])
  }

  function Pow10(n: nat): nat
  {
    if n == 0 then 1 else 10 * Pow10(n - 1)
  }

  /** A string of n digits spells a number below 10^n. */
  lemma {:induction false} ParseNatBelow(s: string)
    requires AllDigits(s)
    ensures ParseNat(s) < Pow10(|s|)
  {
    if |s| > 0 {
      ParseNatBelow(s[..|s| - 1]);
    }
  }

  /** `str(n)` for a non-negative integer: no leading zeros, at least one digit. */
  function NatToString(n: nat): (r: string)
    ensures |r| > 0 && AllDigits(r)
    decreases n
  {
    (if n < 10 then "" else NatToString(n / 10)) + [DigitChar(n % 10)]
  }

  /** `str(i)` for any integer. */
  function IntToString(i: int): (r: string)
    ensures |r| > 0
    ensures i < 0 <==> r[0] == '-'
  {
    if i < 0 then "-" + NatToString(-i) else NatToString(i)
  }

  /** Reading back what `str` wrote gives the number again. */
  lemma {:induction false} ParseNatToString(n: nat)
    ensures ParseNat(NatToString(n)) == n
    decreases n
  {
    var s := NatToString(n);
    assert s[..|s| - 1] == if n < 10 then "" else NatToString(n / 10);
    if n >= 10 {
      ParseNatToString(n / 10);
    }
  }

  /** Different naturals print differently. */
  lemma NatToStringInjective(m: nat, n: nat)
    requires NatToString(m) == NatToString(n)
    ensures m == n
  {
    ParseNatToString(m);
    ParseNatToString(n);
  }

  /** Different integers print differently. */
  lemma IntToStringInjective(a: int, b: int)
    requires IntToString(a) == IntToString(b)
    ensures a == b
  {
    var s := IntToString(a);
    if a < 0 {
      assert b < 0;
      assert s[1..] == NatToString(-a) == NatToString(-b);
      NatToStringInjective(-a, -b);
    } else {
      assert b >= 0;
      NatToStringInjective(a, b);
    }
  }
}

=== FILE: fed_scraper.dfy ===
/** The pure parts of `FedScraper` (scraper_py/fed_scraper.py): which links of the
    speeches page name a year page, the year a year page is for, how a speech page
    becomes text, which requested years are scraped, how the parsed speeches are put
    back in link order whatever order the threads finish in, how the links of the
    policy page are sorted, and the names of the output files. Pages are given as what
    BeautifulSoup finds on them; requests and threads are replaced by their outcomes. */
module FedScraper {
  import opened Outcomes
  import opened Seqs
  import opened ODict
  import opened Decimal
  import opened Pool

  const BaseUrl: string := "https://www.federalreserve.gov"

  predicate StartsWith(s: string, p: string)
  {
    |p| <= |s| && s[..|p|] == p
  }

  /** The references the scraper joins to `BASE_URL`: absolute URLs, and paths that
      start with a single `/`. */
  predicate Joinable(ref: string)
  {
    StartsWith(ref, "https://") || (|ref| > 0 && ref[0] == '/' && !(|ref| > 1 && ref[1] == '/'))
  }

  /** `urljoin(BASE_URL, ref)`: an absolute URL is kept, a path replaces the base's
      (empty) path. */
  function UrlJoin(ref: string): (r: string)
    requires Joinable(ref)
    ensures StartsWith(r, "https://")
  {
    if StartsWith(ref, "https://") then ref
    else
      assert (BaseUrl + ref)[..8] == BaseUrl[..8];
      BaseUrl + ref
  }

  /** Joining twice joins once: the second `urljoin` of `get_link` changes nothing. */
  lemma UrlJoinTwice(ref: string)
    requires Joinable(ref)
    ensures UrlJoin(UrlJoin(ref)) == UrlJoin(ref)
  {
  }

  // ---------------------------------------------------------------------------------
  // Year pages

  const YearPrefix: string := "/newsevents/speech/"
  const YearSuffix: string := "-speeches.htm"

  /** `re.fullmatch(r"/newsevents/speech/\d{4}-speeches\.htm", href)`. */
  predicate IsYearHref(h: string)
  {
    && |h| == |YearPrefix| + 4 + |YearSuffix|
    && h[..|YearPrefix|] == YearPrefix
    && AllDigits(h[|YearPrefix|..|YearPrefix| + 4])
    && h[|YearPrefix| + 4..] == YearSuffix
  }

  /** A year page's URL: the base, then a year href. */
  predicate IsYearUrl(u: string)
  {
    StartsWith(u, BaseUrl) && IsYearHref(u[|BaseUrl|..])
  }

  lemma YearHrefJoinable(h: string)
    requires IsYearHref(h)
    ensures Joinable(h) && IsYearUrl(UrlJoin(h))
  {
    assert h[0] == YearPrefix[0];
    assert h[1] == YearPrefix[1];
    assert UrlJoin(h) == BaseUrl + h;
    assert (BaseUrl + h)[|BaseUrl|..] == h;
  }

  /** `get_link`, given the hrefs of the page's anchors in page order. */
  function GetLink(hrefs: seq<string>): (r: seq<string>)
    ensures |r| <= |hrefs|
    ensures forall i | 0 <= i < |r| :: IsYearUrl(r[i])
  {
    if |hrefs| == 0 then []
    else
      var rest := GetLink(hrefs[..|hrefs| - 1]);
      var h := hrefs[|hrefs| - 1];
      if IsYearHref(h) then
        YearHrefJoinable(h);
        UrlJoinTwice(h);
        rest + [UrlJoin(UrlJoin(h))]
      else rest
  }

  /** The links are the year hrefs, in page order, each behind the base URL. */
  lemma {:induction false} GetLinkIsFilter(hrefs: seq<string>)
    ensures var years := Filter(IsYearHref, hrefs);
      && |GetLink(hrefs)| == |years|
      && forall i | 0 <= i < |years| :: GetLink(hrefs)[i] == BaseUrl + years[i]
  {
    if |hrefs| > 0 {
      var init, h := hrefs[..|hrefs| - 1], hrefs[|hrefs| - 1];
      GetLinkIsFilter(init);
      assert hrefs == init + [h];
      FilterAppend(IsYearHref, init, h);
      if IsYearHref(h) {
        YearHrefJoinable(h);
      }
    }
  }

  /** `(\d{4})-speeches` matches at `i`. */
  predicate YearAt(s: string, i: nat)
  {
    i + 13 <= |s| && AllDigits(s[i..i + 4]) && s[i + 4..i + 13] == "-speeches"
  }

  /** The scan of `re.search`: the first position at or after `from` where the pattern
      matches. */
  function FindYear(s: string, from: nat): (r: Option<nat>)
    decreases |s| - from
    ensures r.Some? ==> from <= r.value && YearAt(s, r.value)
    ensures r.Some? ==> forall j: nat | from <= j < r.value :: !YearAt(s, j)
    ensures r.None? ==> forall j: nat | from <= j :: !YearAt(s, j)
  {
    if from >= |s| then None
    else if YearAt(s, from) then Some(from)
    else FindYear(s, from + 1)
  }

  /** `int(re.search(r"(\d{4})-speeches", link).group(1))`; no match raises. */
  function YearOf(link: string): (r: Option<int>)
    ensures r.Some? ==> 0 <= r.value < 10000
  {
    match FindYear(link, 0)
    case None => None
    case Some(i) =>
      ParseNatBelow(link[i..i + 4]);
      assert Pow10(4) == 10000;
      Some(ParseNat(link[i..i + 4]))
  }

  /** The year of a year page is the four digits of its href. */
  lemma YearOfYearUrl(u: string)
    requires IsYearUrl(u)
    ensures YearOf(u).Some? && YearOf(u).value == ParseNat(u[|BaseUrl|..][|YearPrefix|..|YearPrefix| + 4])
  {
    var d := u[|BaseUrl|..][|YearPrefix|..|YearPrefix| + 4];
    YearUrlParts(u);
    YearPageStartNoDigits();
    YearSuffixStart();
    YearOfAfterDigitFree(BaseUrl + YearPrefix, d, YearSuffix);
  }

  /** A year page's URL is the fixed start, the four digits and the fixed end. */
  lemma YearUrlParts(u: string)
    requires IsYearUrl(u)
    ensures var d := u[|BaseUrl|..][|YearPrefix|..|YearPrefix| + 4];
      |d| == 4 && AllDigits(d) && u == (BaseUrl + YearPrefix) + d + YearSuffix
  {
    var h := u[|BaseUrl|..];
    var d := h[|YearPrefix|..|YearPrefix| + 4];
    assert h == YearPrefix + d + YearSuffix;
    assert u == BaseUrl + h;
  }

  lemma YearSuffixStart()
    ensures |YearSuffix| >= 9 && YearSuffix[..9] == "-speeches"
  {
  }

  /** Behind a digit-free prefix, the year read is the four digits right after it. */
  lemma YearOfAfterDigitFree(prefix: string, d: string, suffix: string)
    requires NoDigits(prefix) && |d| == 4 && AllDigits(d)
    requires |suffix| >= 9 && suffix[..9] == "-speeches"
    ensures YearOf(prefix + d + suffix).Some? && YearOf(prefix + d + suffix).value == ParseNat(d)
  {
    var u := prefix + d + suffix;
    YearAfterDigitFree(prefix, d, suffix);
    assert u[|prefix|..|prefix| + 4] == d;
  }

  lemma YearPageStartNoDigits()
    ensures NoDigits(BaseUrl + YearPrefix)
  {
  }

  /** Behind a digit-free prefix, the first match is the year right after it. */
  lemma YearAfterDigitFree(prefix: string, d: string, suffix: string)
    requires NoDigits(prefix) && |d| == 4 && AllDigits(d)
    requires |suffix| >= 9 && suffix[..9] == "-speeches"
    ensures FindYear(prefix + d + suffix, 0).Some? && FindYear(prefix + d + suffix, 0).value == |prefix|
  {
    var t := prefix + d + suffix;
    var k := |prefix|;
    assert t[k..k + 4] == d;
    assert t[k + 4..k + 13] == suffix[..9];
    assert YearAt(t, k);
    forall j: nat | j < k ensures !YearAt(t, j) {
      assert t[j] == prefix[j];
      if j + 4 <= |t| {
        assert t[j..j + 4][0] == t[j];
      }
    }
  }

  /** The map `get_speech_links` builds once every event has its anchor, given each year
      page's link (as `get_link` returns them) and the joined links of its speech
      events: a year page without events is skipped, and a later page of the same year
      replaces an earlier one. */
  function YearMap(pages: seq<(string, seq<string>)>): (r: Dict<int, seq<string>>)
    requires forall i | 0 <= i < |pages| :: IsYearUrl(pages[i].0)
    ensures Valid(r)
    ensures forall i | 0 <= i < |r| :: |r[i].1| > 0
  {
    if |pages| == 0 then []
    else
      var rest := YearMap(pages[..|pages| - 1]);
      var (link, events) := pages[|pages| - 1];
      YearOfYearUrl(link);
      if |events| == 0 then rest
      else
        var r := Put(rest, YearOf(link).value, events);
        PutKeepsNonEmpty(rest, YearOf(link).value, events);
        PutValid(rest, YearOf(link).value, events);
        r
  }

  /** Page `i` contributes to year `y`: it has speech events and its link reads `y`. */
  predicate Source<E>(pages: seq<(string, seq<E>)>, i: nat, y: int)
    requires i < |pages|
  {
    |pages[i].1| > 0 && YearOf(pages[i].0) == Some(y)
  }

  /** Page `i` is the last page that contributes to year `y`. */
  predicate LastSource<E>(pages: seq<(string, seq<E>)>, i: nat, y: int)
    requires i < |pages|
  {
    Source(pages, i, y) && forall j | i < j < |pages| :: !Source(pages, j, y)
  }

  /** One step of the map: the last page decides its own year, if it has events, and
      leaves every other year as the earlier pages left it. */
  lemma YearMapStep(pages: seq<(string, seq<string>)>, y: int)
    requires |pages| > 0 && forall i | 0 <= i < |pages| :: IsYearUrl(pages[i].0)
    ensures Get(YearMap(pages), y) ==
      if Source(pages, |pages| - 1, y) then Some(pages[|pages| - 1].1) else Get(YearMap(pages[..|pages| - 1]), y)
  {
    var rest := YearMap(pages[..|pages| - 1]);
    var (link, events) := pages[|pages| - 1];
    YearOfYearUrl(link);
    if |events| > 0 {
      if YearOf(link).value == y {
        PutGetSame(rest, y, events);
      } else {
        PutGetOther(rest, YearOf(link).value, events, y);
      }
    }
  }

  /** A source among all pages is a source among the earlier ones or the last page. */
  lemma SourceSplit(pages: seq<(string, seq<string>)>, init: seq<(string, seq<string>)>, y: int)
    requires |pages| > 0 && init == pages[..|pages| - 1]
    ensures (exists i | 0 <= i < |pages| :: Source(pages, i, y)) <==>
      (exists i | 0 <= i < |init| :: Source(init, i, y)) || Source(pages, |pages| - 1, y)
  {
    if exists i | 0 <= i < |pages| :: Source(pages, i, y) {
      var i :| 0 <= i < |pages| && Source(pages, i, y);
      if i < |pages| - 1 {
        assert init[i] == pages[i];
        assert Source(init, i, y);
      }
    }
    if exists i | 0 <= i < |pages| - 1 :: Source(init, i, y) {
      var i :| 0 <= i < |pages| - 1 && Source(init, i, y);
      assert init[i] == pages[i];
      assert Source(pages, i, y);
    }
  }

  /** A year is in the links map exactly when some page with events reads that year. */
  lemma {:induction false} YearMapHasYear(pages: seq<(string, seq<string>)>, y: int)
    requires forall i | 0 <= i < |pages| :: IsYearUrl(pages[i].0)
    ensures Get(YearMap(pages), y).Some? <==> exists i | 0 <= i < |pages| :: Source(pages, i, y)
  {
    if |pages| > 0 {
      var init := pages[..|pages| - 1];
      assert forall i | 0 <= i < |init| :: init[i] == pages[i];
      YearMapHasYear(init, y);
      YearMapStep(pages, y);
      SourceSplit(pages, init, y);
    }
  }

  /** The links stored for a year are the events of the last page that reads it. */
  lemma {:induction false} YearMapLastWins(pages: seq<(string, seq<string>)>, y: int, i: nat)
    requires forall i | 0 <= i < |pages| :: IsYearUrl(pages[i].0)
    requires i < |pages| && LastSource(pages, i, y)
    ensures Get(YearMap(pages), y) == Some(pages[i].1)
  {
    YearMapStep(pages, y);
    if i < |pages| - 1 {
      YearUrlsPrefix(pages, pages[..|pages| - 1]);
      LastSourcePrefix(pages, y, i);
      YearMapLastWins(pages[..|pages| - 1], y, i);
    }
  }

  lemma YearUrlsPrefix(pages: seq<(string, seq<string>)>, init: seq<(string, seq<string>)>)
    requires |pages| > 0 && init == pages[..|pages| - 1]
    requires forall i | 0 <= i < |pages| :: IsYearUrl(pages[i].0)
    ensures forall i | 0 <= i < |init| :: IsYearUrl(init[i].0)
  {
  }

  /** The last source before the last page stays the last source once that page is
      dropped, and the last page is then not a source. */
  lemma LastSourcePrefix(pages: seq<(string, seq<string>)>, y: int, i: nat)
    requires i < |pages| - 1 && LastSource(pages, i, y)
    ensures !Source(pages, |pages| - 1, y)
    ensures LastSource(pages[..|pages| - 1], i, y) && pages[..|pages| - 1][i] == pages[i]
  {
    var init := pages[..|pages| - 1];
    forall j | i <= j < |init|
      ensures Source(init, j, y) == Source(pages, j, y)
    {
      assert init[j] == pages[j];
    }
  }

  /** One speech event element: the joined link of its `<a href>`, or `None` when the
      element has no such anchor. */
  type Event = Option<string>

  /** `link_tag['href']` with no anchor found: `None` is not subscriptable. */
  datatype LinksError = TypeError

  /** Every event element of a page has its anchor. */
  predicate Anchored(events: seq<Event>)
  {
    forall j | 0 <= j < |events| :: events[j].Some?
  }

  /** The links of a page's events. */
  function Hrefs(events: seq<Event>): (r: seq<string>)
    requires Anchored(events)
    ensures |r| == |events| && forall j | 0 <= j < |events| :: Some(r[j]) == events[j]
  {
    seq(|events|, j requires 0 <= j < |events| => events[j].value)
  }

  /** The pages with each event replaced by its link. */
  function Resolved(pages: seq<(string, seq<Event>)>): (r: seq<(string, seq<string>)>)
    requires forall i | 0 <= i < |pages| :: Anchored(pages[i].1)
    ensures |r| == |pages|
    ensures forall i | 0 <= i < |pages| :: r[i].0 == pages[i].0 && |r[i].1| == |pages[i].1|
    ensures forall i | 0 <= i < |pages| :: r[i].1 == Hrefs(pages[i].1)
  {
    seq(|pages|, i requires 0 <= i < |pages| => (pages[i].0, Hrefs(pages[i].1)))
  }

  /** `get_speech_links`: one event element without an anchor raises and ends the whole
      call; otherwise the year map of the resolved pages. */
  function SpeechLinks(pages: seq<(string, seq<Event>)>): (r: Result<Dict<int, seq<string>>, LinksError>)
    requires forall i | 0 <= i < |pages| :: IsYearUrl(pages[i].0)
    ensures r.Err? <==> exists i | 0 <= i < |pages| :: !Anchored(pages[i].1)
    ensures r.Ok? ==> Valid(r.value) && forall i | 0 <= i < |r.value| :: |r.value[i].1| > 0
  {
    if exists i | 0 <= i < |pages| :: !Anchored(pages[i].1) then Err(TypeError)
    else Ok(YearMap(Resolved(pages)))
  }

  /** A page contributes to the same year before and after its events are resolved. */
  lemma ResolvedSources(pages: seq<(string, seq<Event>)>, y: int)
    requires forall i | 0 <= i < |pages| :: Anchored(pages[i].1)
    ensures forall i | 0 <= i < |pages| :: Source(Resolved(pages), i, y) == Source(pages, i, y)
  {
  }

  /** When the call completes, a year is in the map exactly when some page with events
      reads that year. */
  lemma SpeechLinksHasYear(pages: seq<(string, seq<Event>)>, y: int)
    requires forall i | 0 <= i < |pages| :: IsYearUrl(pages[i].0)
    ensures SpeechLinks(pages).Ok? ==>
      (Get(SpeechLinks(pages).value, y).Some? <==> exists i | 0 <= i < |pages| :: Source(pages, i, y))
  {
    if SpeechLinks(pages).Ok? {
      var rs := Resolved(pages);
      ResolvedSources(pages, y);
      YearMapHasYear(rs, y);
      if exists i | 0 <= i < |pages| :: Source(pages, i, y) {
        var i :| 0 <= i < |pages| && Source(pages, i, y);
        assert Source(rs, i, y);
      }
    }
  }

  /** When the call completes, the links stored for a year are those of the last page
      with events that reads it, in element order. */
  lemma SpeechLinksLastWins(pages: seq<(string, seq<Event>)>, y: int, i: nat)
    requires forall i | 0 <= i < |pages| :: IsYearUrl(pages[i].0)
    requires i < |pages| && LastSource(pages, i, y)
    ensures SpeechLinks(pages).Ok? ==>
      && Get(SpeechLinks(pages).value, y).Some?
      && var links := Get(SpeechLinks(pages).value, y).value;
      && |links| == |pages[i].1|
      && forall j | 0 <= j < |links| :: Some(links[j]) == pages[i].1[j]
  {
    if SpeechLinks(pages).Ok? {
      var rs := Resolved(pages);
      ResolvedSources(pages, y);
      assert LastSource(rs, i, y);
      YearMapLastWins(rs, y, i);
    }
  }

  lemma {:induction false} PutKeepsNonEmpty(d: Dict<int, seq<string>>, k: int, v: seq<string>)
    requires |v| > 0 && forall i | 0 <= i < |d| :: |d[i].1| > 0
    ensures forall i | 0 <= i < |Put(d, k, v)| :: |Put(d, k, v)[i].1| > 0
  {
    if |d| > 0 && d[0].0 != k {
      PutKeepsNonEmpty(d[1..], k, v);
    }
  }

  // ---------------------------------------------------------------------------------
  // Speech texts

  /** What one request for a speech page gave: an exception other than a missing tag,
      or the page with its content block's paragraph texts and its date text, each
      absent when the tag is missing (texts are `get_text(strip=True)`). */
  datatype Fetched = RequestFailed(message: string) | Page(paragraphs: Option<seq<string>>, date: Option<string>)

  /** `thread_parse`: the date, a newline, then the paragraphs without separator; a
      missing tag gives `""`, and any other exception propagates. */
  function ThreadParse(f: Fetched): (r: Result<string, string>)
    ensures f.RequestFailed? <==> r.Err?
  {
    match f
    case RequestFailed(message) => Err(message)
    case Page(paragraphs, date) =>
      if date.None? || paragraphs.None? then Ok("")
      else Ok(date.value + "\n" + Concat(paragraphs.value))
  }

  /** A parsed page is empty exactly when a tag was missing; otherwise its text is the
      date, the newline, and all of the paragraphs' characters. */
  lemma ThreadParseShape(f: Fetched)
    requires f.Page?
    ensures ThreadParse(f) == Ok("") <==> f.date.None? || f.paragraphs.None?
    ensures f.date.Some? && f.paragraphs.Some? ==>
      var s := ThreadParse(f).value;
      && StartsWith(s, f.date.value + "\n")
      && |s| == |f.date.value| + 1 + Sum(Lengths(f.paragraphs.value))
  {
    if f.date.Some? && f.paragraphs.Some? {
      var d, ps := f.date.value, f.paragraphs.value;
      ConcatLength(ps);
      var s := ThreadParse(f).value;
      assert s == (d + "\n") + Concat(ps);
      assert s[..|d + "\n"|] == d + "\n";
    }
  }

  /** What a finished future leaves in its slot: the parsed text, or `""` when it
      raised. */
  function SlotText(f: Fetched): string
  {
    match ThreadParse(f)
    case Ok(s) => s
    case Err(_) => ""
  }

  /** The per-year loop over `as_completed`: `order[j]` is the index of the link whose
      future finished `j`-th; each result goes to the slot of its own index. */
  method Reassemble(outcomes: seq<Fetched>, order: seq<nat>) returns (result: seq<string>)
    requires IsPermutation(order, |outcomes|)
    ensures |result| == |outcomes|
    ensures forall i | 0 <= i < |outcomes| :: result[i] == SlotText(outcomes[i])
  {
    var n := |outcomes|;
    var slots: seq<Option<string>> := seq(n, _ => None);
    for j := 0 to n
      invariant |slots| == n
      invariant forall i | 0 <= i < n :: slots[i].Some? <==> i in order[..j]
      invariant forall i | 0 <= i < n :: slots[i].Some? ==> slots[i].value == SlotText(outcomes[i])
    {
      var index := order[j];
      slots := slots[index := Some(SlotText(outcomes[index]))];
      assert order[..j + 1] == order[..j] + [index];
    }
    assert order[..n] == order;
    result := seq(n, i requires 0 <= i < n => slots[i].value);
  }

  /** How `get_speech_texts` ends: `0` when a requested year has no links, a `KeyError`
      for a year the links map lacks, the pool's `ValueError` for a worker count it
      refuses, or its value. */
  datatype YearsOutcome<T> = ReturnsZero | RaisesKeyError(year: int) | RaisesValueError | Returns(value: T)

  /** The selection loop of `get_speech_texts`: the first requested year that is absent
      raises, the first one with no links returns `0`; otherwise each requested year
      keeps its links, in the order of first request. */
  function SelectYears(master: Dict<int, seq<string>>, years: seq<int>): (r: YearsOutcome<Dict<int, seq<string>>>)
    ensures r.Returns? ==> Valid(r.value) && Keys(r.value) == Dedup(years)
  {
    if |years| == 0 then Returns([])
    else
      var prev := SelectYears(master, years[..|years| - 1]);
      var y := years[|years| - 1];
      if !prev.Returns? then prev
      else match Get(master, y)
        case None => RaisesKeyError(y)
        case Some(links) =>
          if |links| == 0 then ReturnsZero
          else
            PutKeys(prev.value, y, links);
            PutValid(prev.value, y, links);
            Returns(Put(prev.value, y, links))
  }

  /** A year is usable when the map has it with at least one link. */
  predicate Usable(master: Dict<int, seq<string>>, y: int)
  {
    Get(master, y).Some? && |Get(master, y).value| > 0
  }

  /** The selection succeeds exactly when every requested year is usable. */
  lemma {:induction false} SelectYearsSucceeds(master: Dict<int, seq<string>>, years: seq<int>)
    ensures SelectYears(master, years).Returns? <==> forall i | 0 <= i < |years| :: Usable(master, years[i])
  {
    if |years| > 0 {
      var init := years[..|years| - 1];
      SelectYearsSucceeds(master, init);
      assert forall j | 0 <= j < |years| - 1 :: years[j] == init[j];
    }
  }

  /** After a successful selection every requested year has the map's links. */
  lemma {:induction false} SelectYearsValues(master: Dict<int, seq<string>>, years: seq<int>)
    requires SelectYears(master, years).Returns?
    ensures forall i | 0 <= i < |years| :: Get(SelectYears(master, years).value, years[i]) == Get(master, years[i])
  {
    if |years| > 0 {
      var init, y := years[..|years| - 1], years[|years| - 1];
      SelectYearsValues(master, init);
      var r := SelectYears(master, years).value;
      var prev := SelectYears(master, init).value;
      PutGet(prev, y, Get(master, y).value);
      forall i | 0 <= i < |years| ensures Get(r, years[i]) == Get(master, years[i]) {
        if years[i] != y {
          assert years[i] == init[i];
        }
      }
    }
  }

  /** A failed selection names the first requested year that is not usable: absent
      raises, present without links returns `0`. */
  lemma {:induction false} SelectYearsFailure(master: Dict<int, seq<string>>, years: seq<int>)
    requires !SelectYears(master, years).Returns?
    ensures exists i | 0 <= i < |years| ::
      && FirstUnusable(master, years, i)
      && SelectYears(master, years) == (if Get(master, years[i]).None? then RaisesKeyError(years[i]) else ReturnsZero)
  {
    var init, y := years[..|years| - 1], years[|years| - 1];
    var prev := SelectYears(master, init);
    if prev.Returns? {
      assert FirstUnusable(master, years, |years| - 1) by {
        SelectYearsSucceeds(master, init);
        assert forall j | 0 <= j < |init| :: years[j] == init[j];
      }
    } else {
      SelectYearsFailure(master, init);
      var i :| 0 <= i < |init| && FirstUnusable(master, init, i)
        && prev == (if Get(master, init[i]).None? then RaisesKeyError(init[i]) else ReturnsZero);
      assert FirstUnusable(master, years, i) by {
        assert forall j | 0 <= j <= i :: years[j] == init[j];
      }
      assert years[i] == init[i];
    }
  }

  /** `years[i]` is not usable and every year requested before it is. */
  predicate FirstUnusable(master: Dict<int, seq<string>>, years: seq<int>, i: nat)
    requires i < |years|
  {
    !Usable(master, years[i]) && forall j | 0 <= j < i :: Usable(master, years[j])
  }

  /** `get_speech_links` never stores an empty list, so the `return 0` of
      `get_speech_texts` cannot be reached through it: a requested year is either
      present with links or raises. */
  lemma SpeechLinksNeverZero(pages: seq<(string, seq<Event>)>, years: seq<int>)
    requires forall i | 0 <= i < |pages| :: IsYearUrl(pages[i].0)
    ensures SpeechLinks(pages).Ok? ==> SelectYears(SpeechLinks(pages).value, years) != ReturnsZero
  {
    if SpeechLinks(pages).Err? {
      return;
    }
    var master := SpeechLinks(pages).value;
    if SelectYears(master, years) == ReturnsZero {
      SelectYearsFailure(master, years);
      var i :| 0 <= i < |years| && FirstUnusable(master, years, i)
        && SelectYears(master, years) == (if Get(master, years[i]).None? then RaisesKeyError(years[i]) else ReturnsZero);
      GetIndex(master, years[i]);
    }
  }

  /** A present key's value is the value of some entry. */
  lemma {:induction false} GetIndex(d: Dict<int, seq<string>>, k: int)
    requires Get(d, k).Some?
    ensures exists i | 0 <= i < |d| :: d[i] == (k, Get(d, k).value)
  {
    if d[0].0 != k {
      GetIndex(d[1..], k);
      var i :| 0 <= i < |d[1..]| && d[1..][i] == (k, Get(d, k).value);
      assert d[i + 1] == d[1..][i];
    }
  }

  /** One entry of the result: the year, and in each link's slot the text of that
      link's outcome. */
  predicate Reassembled(entry: (int, seq<string>), year: int, outcomes: seq<Fetched>)
  {
    && entry.0 == year
    && |entry.1| == |outcomes|
    && forall i | 0 <= i < |outcomes| :: entry.1[i] == SlotText(outcomes[i])
  }

  /** `get_speech_texts`, given the links map, the requested years, the worker count
      and, for each selected year in order, the outcome of each link's request and the
      order in which the futures completed. A pool is opened for every selected year,
      so a refused worker count raises as soon as one year was selected. */
  method GetSpeechTexts(master: Dict<int, seq<string>>, years: seq<int>, workers: Option<int>,
                        outcomes: seq<seq<Fetched>>, orders: seq<seq<nat>>)
    returns (r: YearsOutcome<Dict<int, seq<string>>>)
    requires SelectYears(master, years).Returns? ==>
      var shortlist := SelectYears(master, years).value;
      && |outcomes| == |shortlist| && |orders| == |shortlist|
      && forall k | 0 <= k < |shortlist| ::
        |outcomes[k]| == |shortlist[k].1| && IsPermutation(orders[k], |outcomes[k]|)
    ensures !SelectYears(master, years).Returns? ==> r == SelectYears(master, years)
    ensures SelectYears(master, years).Returns? ==>
      (r.RaisesValueError? <==> |SelectYears(master, years).value| > 0 && Rejects(workers))
    ensures SelectYears(master, years).Returns? && !r.RaisesValueError? ==>
      var shortlist := SelectYears(master, years).value;
      && r.Returns? && |r.value| == |shortlist|
      && forall k | 0 <= k < |shortlist| :: Reassembled(r.value[k], shortlist[k].0, outcomes[k])
  {
    var selected := SelectYears(master, years);
    if !selected.Returns? {
      return selected;
    }
    if |selected.value| > 0 && Rejects(workers) {
      return RaisesValueError;
    }
    var results := ReassembleYears(selected.value, outcomes, orders);
    return Returns(results);
  }

  /** The loop over the shortlist: each year, in order, gets the texts its futures
      gave back. */
  method ReassembleYears(shortlist: Dict<int, seq<string>>, outcomes: seq<seq<Fetched>>, orders: seq<seq<nat>>)
    returns (results: Dict<int, seq<string>>)
    requires Valid(shortlist)
    requires |outcomes| == |shortlist| && |orders| == |shortlist|
    requires forall k | 0 <= k < |shortlist| ::
      |outcomes[k]| == |shortlist[k].1| && IsPermutation(orders[k], |outcomes[k]|)
    ensures |results| == |shortlist|
    ensures forall k | 0 <= k < |shortlist| :: Reassembled(results[k], shortlist[k].0, outcomes[k])
  {
    results := [];
    for k := 0 to |shortlist|
      invariant |results| == k
      invariant forall m | 0 <= m < k :: Reassembled(results[m], shortlist[m].0, outcomes[m])
    {
      var (year, links) := shortlist[k];
      var result := Reassemble(outcomes[k], orders[k]);
      FreshYear(shortlist, results, k);
      PutNew(results, year, result);
      ghost var prev := results;
      results := Put(results, year, result);
      assert Reassembled(results[k], shortlist[k].0, outcomes[k]);
      assert forall m | 0 <= m < k :: results[m] == prev[m];
    }
  }

  /** The years of a shortlist are distinct, so each year's assignment adds a new key at
      the end. */
  lemma FreshYear(shortlist: Dict<int, seq<string>>, results: Dict<int, seq<string>>, k: nat)
    requires Valid(shortlist) && k < |shortlist| && |results| == k
    requires forall m | 0 <= m < k :: results[m].0 == shortlist[m].0
    ensures shortlist[k].0 !in Keys(results)
  {
    KeysIndex(shortlist);
    KeysIndex(results);
    assert forall m | 0 <= m < k :: Keys(results)[m] == Keys(shortlist)[m];
  }

  // ---------------------------------------------------------------------------------
  // Policy page links and output names

  predicate IsTestimonyHref(h: string)
  {
    StartsWith(h, "/newsevents/testimony")
  }

  predicate IsReportHref(h: string)
  {
    StartsWith(h, "/monetarypolicy")
  }

  /** No href starts both ways, so the `elif` never hides a report link. */
  lemma HrefKindsDisjoint(h: string)
    ensures !(IsTestimonyHref(h) && IsReportHref(h))
  {
    if IsTestimonyHref(h) {
      assert h[1] == h[..21][1] == 'n';
      if |h| >= 15 {
        assert h[..15][1] != "/monetarypolicy"[1];
      }
    }
  }

  lemma KindJoinable(h: string)
    requires IsTestimonyHref(h) || IsReportHref(h)
    ensures Joinable(h) && UrlJoin(h) == BaseUrl + h
  {
    var p := if IsTestimonyHref(h) then "/newsevents/testimony" else "/monetarypolicy";
    assert h[0] == h[..|p|][0] == p[0];
    assert h[1] == h[..|p|][1] == p[1];
  }

  /** The loop of `get_policy_report_links` over the page's hrefs: the report links and
      the testimony links, each joined to the base URL. */
  function PolicyLinks(hrefs: seq<string>): (r: (seq<string>, seq<string>))
    ensures |r.0| + |r.1| <= |hrefs|
  {
    if |hrefs| == 0 then ([], [])
    else
      var (reports, testimony) := PolicyLinks(hrefs[..|hrefs| - 1]);
      var h := hrefs[|hrefs| - 1];
      if IsTestimonyHref(h) then
        KindJoinable(h);
        (reports, testimony + [UrlJoin(h)])
      else if IsReportHref(h) then
        KindJoinable(h);
        (reports + [UrlJoin(h)], testimony)
      else (reports, testimony)
  }

  /** Each list holds its own kind of href, in page order, behind the base URL. */
  lemma {:induction false} PolicyLinksAreFilters(hrefs: seq<string>)
    ensures var (reports, testimony) := PolicyLinks(hrefs);
      var rs, ts := Filter(IsReportHref, hrefs), Filter(IsTestimonyHref, hrefs);
      && |reports| == |rs| && (forall i | 0 <= i < |rs| :: reports[i] == BaseUrl + rs[i])
      && |testimony| == |ts| && (forall i | 0 <= i < |ts| :: testimony[i] == BaseUrl + ts[i])
  {
    if |hrefs| > 0 {
      var init, h := hrefs[..|hrefs| - 1], hrefs[|hrefs| - 1];
      PolicyLinksAreFilters(init);
      assert hrefs == init + [h];
      FilterAppend(IsReportHref, init, h);
      FilterAppend(IsTestimonyHref, init, h);
      HrefKindsDisjoint(h);
      if IsTestimonyHref(h) || IsReportHref(h) {
        KindJoinable(h);
      }
    }
  }

  /** `f'{year}_fed_speeches.txt'` for every year, in the map's order. */
  function OutputNames(speeches: Dict<int, seq<string>>): (r: seq<string>)
    ensures |r| == |speeches|
  {
    seq(|speeches|, i requires 0 <= i < |speeches| => IntToString(speeches[i].0) + "_fed_speeches.txt")
  }

  /** Different years get different files, so no year's file overwrites another's. */
  lemma OutputNamesDistinct(speeches: Dict<int, seq<string>>)
    requires Valid(speeches)
    ensures Distinct(OutputNames(speeches))
  {
    var names := OutputNames(speeches);
    KeysIndex(speeches);
    forall i, j | 0 <= i < j < |names| ensures names[i] != names[j] {
      var a, b := IntToString(speeches[i].0), IntToString(speeches[j].0);
      if names[i] == names[j] {
        assert a == names[i][..|a|];
        assert |a| == |b|;
        assert b == names[j][..|b|];
        IntToStringInjective(speeches[i].0, speeches[j].0);
      }
    }
  }
}

=== FILE: mixture.dfy ===
/** `MixtureMode.get_preds` (data_analysis/vectorize.py): every document's vectors are
    copied, in document order and then chunk order, into a zero matrix, a Gaussian
    mixture is fitted on it, and the requested predictions are returned. The mixture
    itself (scikit-learn) is a parameter: whatever it returns for the matrix. */
module Mixture {
  import opened Outcomes
  import opened Seqs
  import opened ODict

  type Vector = seq<real>

  /** The constructor's settings; `vecSize` is the matrix width. */
  datatype MixtureMode = MixtureMode(k: int, covType: string, randomState: int, vecSize: int)

  /** What the fitted scikit-learn model answers for a matrix. */
  datatype Fitted = Fitted(labels: seq<int>, probabilities: seq<Vector>)

  /** numpy's `ValueError`s: a negative matrix width, or a vector that cannot be
      broadcast into a row; `FitFailed` is whatever `GaussianMixture.fit` raises. */
  datatype MixtureError = NegativeDimension | CannotBroadcast(row: nat) | FitFailed(message: string)

  /** The return values of lines 186, 189 and 194, and the implicit `None`. */
  datatype Preds = HardLabels(labels: seq<int>) | SoftLabels(probs: seq<Vector>) | Both(soft: seq<Vector>, hard: seq<int>) | NoPreds

  function Zeros(size: nat): Vector
  {
    seq(size, _ => 0.0)
  }

  /** numpy's `arr[i] = array` for a row of width `size`: a vector of that width is
      copied, a one-element vector is broadcast, anything else is refused. */
  function AssignRow(v: Vector, size: nat): (r: Option<Vector>)
    ensures r.Some? <==> |v| == size || |v| == 1
    ensures r.Some? ==> |r.value| == size
    ensures r.Some? ==> forall j | 0 <= j < size ::
      (|v| == size && r.value[j] == v[j]) || (|v| == 1 && r.value[j] == v[0])
  {
    if |v| == size then Some(v)
    else if |v| == 1 then Some(seq(size, _ => v[0]))
    else None
  }

  /** The vectors in the order the nested loop visits them: document order, then chunk
      order (line 178 read as `text.values()`). */
  function Flatten(text: Dict<string, seq<Vector>>): seq<Vector>
  {
    Concat(Values(text))
  }

  lemma MulAtLeast(a: nat, b: nat)
    requires a >= 1
    ensures a * b >= b
  {
  }

  /** The matrix `get_preds` fills: `len(text) * sum_list` rows of width `vecSize`,
      row `i` holding the `i`-th vector for every `i` below the vector count and every
      later row left zero. */
  predicate IsMatrixOf(text: Dict<string, seq<Vector>>, vecSize: nat, m: seq<Vector>)
  {
    && |m| == |text| * |Flatten(text)|
    && |Flatten(text)| <= |m|
    && (forall i | 0 <= i < |Flatten(text)| :: AssignRow(Flatten(text)[i], vecSize) == Some(m[i]))
    && (forall i | |Flatten(text)| <= i < |m| :: m[i] == Zeros(vecSize))
  }

  /** The rows are fully determined: at most one matrix is the matrix of a text. */
  lemma MatrixUnique(text: Dict<string, seq<Vector>>, vecSize: nat, m: seq<Vector>, m': seq<Vector>)
    requires IsMatrixOf(text, vecSize, m) && IsMatrixOf(text, vecSize, m')
    ensures m == m'
  {
    forall i | 0 <= i < |m| ensures m[i] == m'[i] {
      if i < |Flatten(text)| {
        assert Some(m[i]) == AssignRow(Flatten(text)[i], vecSize) == Some(m'[i]);
      }
    }
  }

  /** Every row can be traced back: the row right after the vectors of the documents
      before `d`, `c` places in, holds chunk `c` of document `d`. */
  lemma MatrixRow(text: Dict<string, seq<Vector>>, vecSize: nat, m: seq<Vector>, d: nat, c: nat)
    requires IsMatrixOf(text, vecSize, m)
    requires d < |text| && c < |text[d].1|
    ensures var at := |Flatten(text[..d])| + c;
      at < |m| && AssignRow(text[d].1[c], vecSize) == Some(m[at])
  {
    FlattenPosition(text, d, c);
  }

  /** Every vector of the text fits a row of width `vecSize`. */
  predicate Fits(text: Dict<string, seq<Vector>>, vecSize: nat)
  {
    forall i | 0 <= i < |Flatten(text)| :: AssignRow(Flatten(text)[i], vecSize).Some?
  }

  /** The first half of `get_preds`: allocate `len(text) * sum_list` zero rows and copy
      the vectors in. */
  method BuildMatrix(text: Dict<string, seq<Vector>>, vecSize: int) returns (r: Result<seq<Vector>, MixtureError>)
    ensures vecSize < 0 <==> r == Err(NegativeDimension)
    ensures r.Ok? ==> vecSize >= 0 && IsMatrixOf(text, vecSize, r.value)
    ensures r.Err? && r.error.CannotBroadcast? ==>
      && r.error.row < |Flatten(text)|
      && AssignRow(Flatten(text)[r.error.row], vecSize).None?
      && forall i | 0 <= i < r.error.row :: AssignRow(Flatten(text)[i], vecSize).Some?
    ensures r.Ok? || r == Err(NegativeDimension) || r.error.CannotBroadcast?
  {
    if vecSize < 0 {
      return Err(NegativeDimension);
    }
    var flat := Flatten(text);
    var total := |flat|;
    KeysIndex(text);
    if |text| > 0 {
      MulAtLeast(|text|, total);
    } else {
      assert Values(text) == [];
    }
    var arr := seq(|text| * total, _ => Zeros(vecSize));
    var i := 0;
    while i < total
      invariant 0 <= i <= total <= |arr| == |text| * total
      invariant forall j | 0 <= j < i :: AssignRow(flat[j], vecSize) == Some(arr[j])
      invariant forall j | i <= j < |arr| :: arr[j] == Zeros(vecSize)
    {
      match AssignRow(flat[i], vecSize)
      case None =>
        return Err(CannotBroadcast(i));
      case Some(row) =>
        arr := arr[i := row];
      i := i + 1;
    }
    return Ok(arr);
  }

  /** Row `i` of the matrix belongs to a known document and chunk: the vector of chunk
      `c` of document `d` sits right after the vectors of all earlier documents. */
  lemma FlattenPosition(text: Dict<string, seq<Vector>>, d: nat, c: nat)
    requires d < |text| && c < |text[d].1|
    ensures var at := |Flatten(text[..d])| + c;
      at < |Flatten(text)| && Flatten(text)[at] == text[d].1[c]
  {
    KeysIndex(text);
    KeysIndex(text[..d]);
    assert Values(text[..d]) == Values(text)[..d];
    ConcatIndex(Values(text), d, c);
  }

  /** What the caller gets back for the requested kinds of prediction. */
  function Dispatch(hard: bool, soft: bool, fitted: Fitted): (p: Preds)
    ensures Labels(p) == (if hard then Some(fitted.labels) else None)
    ensures Probabilities(p) == (if soft then Some(fitted.probabilities) else None)
  {
    if hard && !soft then HardLabels(fitted.labels)
    else if soft && !hard then SoftLabels(fitted.probabilities)
    else if soft && hard then Both(fitted.probabilities, fitted.labels)
    else NoPreds
  }

  function Labels(p: Preds): Option<seq<int>>
  {
    match p
    case HardLabels(l) => Some(l)
    case Both(_, l) => Some(l)
    case _ => None
  }

  function Probabilities(p: Preds): Option<seq<Vector>>
  {
    match p
    case SoftLabels(s) => Some(s)
    case Both(s, _) => Some(s)
    case _ => None
  }

  /** The outcome is fully determined by what it carries: asking for neither kind gives
      `None`, and the pair holds the probabilities first. */
  lemma DispatchShapes(hard: bool, soft: bool, fitted: Fitted)
    ensures !hard && !soft <==> Dispatch(hard, soft, fitted) == NoPreds
    ensures hard && soft ==> Dispatch(hard, soft, fitted).soft == fitted.probabilities
    ensures hard && soft ==> Dispatch(hard, soft, fitted).hard == fitted.labels
  {
    var p := Dispatch(hard, soft, fitted);
    assert Labels(p).None? && Probabilities(p).None? ==> p.NoPreds?;
  }

  /** `get_preds` as a whole: build the matrix, fit, dispatch. `fit` is the mixture model:
      what fitting on a matrix yields, or the exception it raises. The model is fitted
      on, and predicts for, exactly the matrix of the text, so row `i` of the answer
      belongs to the chunk `MatrixRow` names. */
  method GetPreds(mode: MixtureMode, text: Dict<string, seq<Vector>>, hard: bool, soft: bool,
                  fit: seq<Vector> -> Result<Fitted, string>) returns (r: Result<Preds, MixtureError>)
    ensures mode.vecSize < 0 ==> r == Err(NegativeDimension)
    ensures r.Ok? ==> Labels(r.value).Some? == hard && Probabilities(r.value).Some? == soft
    ensures r.Ok? ==> mode.vecSize >= 0 && exists m: seq<Vector> ::
      IsMatrixOf(text, mode.vecSize, m) && fit(m).Ok? && r.value == Dispatch(hard, soft, fit(m).value)
    ensures r.Err? && r.error.FitFailed? ==> mode.vecSize >= 0 && exists m: seq<Vector> ::
      IsMatrixOf(text, mode.vecSize, m) && fit(m) == Err(r.error.message)
    ensures mode.vecSize < 0 <==> r == Err(NegativeDimension)
    ensures r.Err? && r.error.CannotBroadcast? ==>
      && r.error.row < |Flatten(text)|
      && AssignRow(Flatten(text)[r.error.row], mode.vecSize).None?
      && forall i | 0 <= i < r.error.row :: AssignRow(Flatten(text)[i], mode.vecSize).Some?
    ensures mode.vecSize >= 0 && Fits(text, mode.vecSize) ==> exists m: seq<Vector> ::
      IsMatrixOf(text, mode.vecSize, m) && (r.Ok? <==> fit(m).Ok?)
  {
    var m := BuildMatrix(text, mode.vecSize);
    if m.Err? {
      return Err(m.error);
    }
    var outcome := fit(m.value);
    if outcome.Err? {
      return Err(FitFailed(outcome.error));
    }
    return Ok(Dispatch(hard, soft, outcome.value));
  }
}

=== FILE: odict.dfy ===
/** Python dictionaries, whose iteration order is insertion order: an association list
    with distinct keys. Assigning to an existing key replaces its value in place; a new
    key is appended at the end. */
module ODict {
  import opened Outcomes
  import opened Seqs

  type Dict<K, V> = seq<(K, V)>

  function Keys<K, V>(d: Dict<K, V>): seq<K>
  {
    seq(|d|, i requires 0 <= i < |d| => d[i].0)
  }

  function Values<K, V>(d: Dict<K, V>): seq<V>
  {
    seq(|d|, i requires 0 <= i < |d| => d[i].1)
  }

  predicate Distinct<T(==)>(s: seq<T>)
  {
    forall i, j | 0 <= i < j < |s| :: s[i] != s[j]
  }

  /** The invariant of every Python dictionary: no key twice. */
  predicate Valid<K(==), V>(d: Dict<K, V>)
  {
    Distinct(Keys(d))
  }

  /** `d[k]` when `k` is present. */
  function Get<K(==), V>(d: Dict<K, V>, k: K): Option<V>
  {
    if |d| == 0 then None
    else if d[0].0 == k then Some(d[0].1)
    else Get(d[1..], k)
  }

  /** `d[k] = v`. */
  function Put<K(==,!new), V>(d: Dict<K, V>, k: K, v: V): Dict<K, V>
  {
    if |d| == 0 then [(k, v)]
    else if d[0].0 == k then [(k, v)] + d[1..]
    else [d[0]] + Put(d[1..], k, v)
  }

  /** Assignment keeps the key order: a present key stays where it is, a new key comes
      last. */
  lemma {:induction false} PutKeys<K(!new), V>(d: Dict<K, V>, k: K, v: V)
    ensures Keys(Put(d, k, v)) == if k in Keys(d) then Keys(d) else Keys(d) + [k]
  {
    if |d| > 0 {
      KeysCons(d);
      if d[0].0 == k {
        KeysCons(Put(d, k, v));
      } else {
        PutKeys(d[1..], k, v);
        KeysCons(Put(d, k, v));
      }
    }
  }

  /** The keys of a non-empty dictionary: its first key, then those of the rest. */
  lemma KeysCons<K, V>(d: Dict<K, V>)
    requires |d| > 0
    ensures Keys(d) == [d[0].0] + Keys(d[1..])
  {
  }

  /** Assignment keeps the keys distinct. */
  lemma PutValid<K(!new), V>(d: Dict<K, V>, k: K, v: V)
    requires Valid(d)
    ensures Valid(Put(d, k, v))
  {
    PutKeys(d, k, v);
    if k !in Keys(d) {
      var ks := Keys(d);
      assert forall i | 0 <= i < |ks| :: (ks + [k])[i] == ks[i];
    }
  }

  /** After `d[k] = v`, looking up `k` gives `v` and every other key reads as before. */
  lemma PutGet<K(!new), V>(d: Dict<K, V>, k: K, v: V)
    ensures Get(Put(d, k, v), k) == Some(v)
    ensures forall k' | k' != k :: Get(Put(d, k, v), k') == Get(d, k')
  {
    PutGetSame(d, k, v);
    forall k' | k' != k
      ensures Get(Put(d, k, v), k') == Get(d, k')
    {
      PutGetOther(d, k, v, k');
    }
  }

  lemma {:induction false} PutGetSame<K(!new), V>(d: Dict<K, V>, k: K, v: V)
    ensures Get(Put(d, k, v), k) == Some(v)
  {
    if |d| > 0 && d[0].0 != k {
      PutGetSame(d[1..], k, v);
    }
  }

  lemma {:induction false} PutGetOther<K(!new), V>(d: Dict<K, V>, k: K, v: V, k': K)
    requires k' != k
    ensures Get(Put(d, k, v), k') == Get(d, k')
  {
    if |d| > 0 && d[0].0 != k {
      PutGetOther(d[1..], k, v, k');
    }
  }

  lemma {:induction false} KeysIndex<K, V>(d: Dict<K, V>)
    ensures |Keys(d)| == |d| && |Values(d)| == |d|
    ensures forall i | 0 <= i < |d| :: Keys(d)[i] == d[i].0 && Values(d)[i] == d[i].1
  {
    if |d| > 0 {
      KeysIndex(d[1..]);
    }
  }

  /** The keys of a prefix are the prefix of the keys. */
  lemma KeysPrefix<K, V>(d: Dict<K, V>, n: nat)
    requires n <= |d|
    ensures |Keys(d)| == |d| && Keys(d[..n]) == Keys(d)[..n]
  {
    KeysIndex(d);
    KeysIndex(d[..n]);
  }

  /** The keys of a non-empty dictionary are those of all but its last entry, then the
      last entry's key. */
  lemma {:induction false} KeysLast<K, V>(d: Dict<K, V>)
    requires |d| > 0
    ensures Keys(d) == Keys(d[..|d| - 1]) + [d[|d| - 1].0]
  {
    var n := |d| - 1;
    if n > 0 {
      var tail := d[1..];
      KeysLast(tail);
      assert tail[..n - 1] == d[..n][1..];
      assert tail[n - 1] == d[n];
      assert Keys(d[..n]) == [d[0].0] + Keys(d[..n][1..]);
    }
  }

  /** A key is present exactly when looking it up succeeds. */
  lemma {:induction false} GetPresent<K, V>(d: Dict<K, V>, k: K)
    ensures Get(d, k).Some? <==> k in Keys(d)
  {
    if |d| > 0 {
      KeysCons(d);
      GetPresent(d[1..], k);
    }
  }

  /** A dictionary built from scratch by assigning the pairs in order. */
  function FromPairs<K(==,!new), V>(ps: seq<(K, V)>): Dict<K, V>
  {
    if |ps| == 0 then [] else Put(FromPairs(ps[..|ps| - 1]), ps[|ps| - 1].0, ps[|ps| - 1].1)
  }

  /** Building a dictionary from pairs: no duplicate keys, a key is present exactly when
      some pair carries it, and its value is the one of the LAST pair carrying it. */
  lemma FromPairsLastWins<K(!new), V>(ps: seq<(K, V)>)
    ensures Valid(FromPairs(ps))
    ensures forall i | 0 <= i < |ps| ::
      (forall j | i < j < |ps| :: ps[j].0 != ps[i].0) ==> Get(FromPairs(ps), ps[i].0) == Some(ps[i].1)
    ensures forall k | (forall i | 0 <= i < |ps| :: ps[i].0 != k) :: Get(FromPairs(ps), k) == None
  {
    FromPairsValid(ps);
    forall i | 0 <= i < |ps| && (forall j | i < j < |ps| :: ps[j].0 != ps[i].0)
      ensures Get(FromPairs(ps), ps[i].0) == Some(ps[i].1)
    {
      FromPairsLast(ps, i);
    }
    forall k | (forall i | 0 <= i < |ps| :: ps[i].0 != k)
      ensures Get(FromPairs(ps), k) == None
    {
      FromPairsAbsent(ps, k);
    }
  }

  lemma {:induction false} FromPairsValid<K(!new), V>(ps: seq<(K, V)>)
    ensures Valid(FromPairs(ps))
  {
    if |ps| > 0 {
      var ps' := ps[..|ps| - 1];
      FromPairsValid(ps');
      PutValid(FromPairs(ps'), ps[|ps| - 1].0, ps[|ps| - 1].1);
    }
  }

  /** The value under the key of the pair at `i` is that pair's when no later pair
      carries the key. */
  lemma {:induction false} FromPairsLast<K(!new), V>(ps: seq<(K, V)>, i: nat)
    requires i < |ps|
    requires forall j | i < j < |ps| :: ps[j].0 != ps[i].0
    ensures Get(FromPairs(ps), ps[i].0) == Some(ps[i].1)
  {
    var n := |ps| - 1;
    var ps' := ps[..n];
    var d := FromPairs(ps');
    assert FromPairs(ps) == Put(d, ps[n].0, ps[n].1);
    if i < n {
      assert ps'[i] == ps[i];
      assert forall j | i < j < |ps'| :: ps'[j].0 != ps'[i].0 by {
        assert forall j | i < j < |ps'| :: ps'[j] == ps[j];
      }
      FromPairsLast(ps', i);
      PutGetOther(d, ps[n].0, ps[n].1, ps[i].0);
    } else {
      PutGetSame(d, ps[n].0, ps[n].1);
    }
  }

  /** A key no pair carries is absent. */
  lemma {:induction false} FromPairsAbsent<K(!new), V>(ps: seq<(K, V)>, k: K)
    requires forall i | 0 <= i < |ps| :: ps[i].0 != k
    ensures Get(FromPairs(ps), k) == None
  {
    if |ps| > 0 {
      var n := |ps| - 1;
      var ps' := ps[..n];
      var d := FromPairs(ps');
      assert FromPairs(ps) == Put(d, ps[n].0, ps[n].1);
      assert forall i | 0 <= i < |ps'| :: ps'[i].0 != k by {
        assert forall i | 0 <= i < |ps'| :: ps'[i] == ps[i];
      }
      FromPairsAbsent(ps', k);
      PutGetOther(d, ps[n].0, ps[n].1, k);
    }
  }

  /** A key is among the keys of a dictionary built from pairs exactly when some pair
      carries it. */
  lemma FromPairsKeys<K(!new), V>(ps: seq<(K, V)>)
    ensures forall k :: k in Keys(FromPairs(ps)) <==> exists i | 0 <= i < |ps| :: ps[i].0 == k
  {
    forall k
      ensures k in Keys(FromPairs(ps)) <==> exists i | 0 <= i < |ps| :: ps[i].0 == k
    {
      FromPairsHasKey(ps, k);
    }
  }

  lemma FromPairsHasKey<K(!new), V>(ps: seq<(K, V)>, k: K)
    ensures k in Keys(FromPairs(ps)) <==> exists i | 0 <= i < |ps| :: ps[i].0 == k
  {
    FromPairsKeysOfPairs(ps, k);
    KeysIndex(ps);
    if k in Keys(ps) {
      var i :| 0 <= i < |ps| && Keys(ps)[i] == k;
      assert ps[i].0 == k;
    }
  }

  lemma {:induction false} FromPairsKeysOfPairs<K(!new), V>(ps: seq<(K, V)>, k: K)
    ensures k in Keys(FromPairs(ps)) <==> k in Keys(ps)
  {
    if |ps| > 0 {
      var n := |ps| - 1;
      FromPairsKeysOfPairs(ps[..n], k);
      PutKeys(FromPairs(ps[..n]), ps[n].0, ps[n].1);
      KeysLast(ps);
    }
  }

  /** The keys come in the order of their first occurrence: each pair appends its key
      unless an earlier pair carried it, so the keys are the pairs' keys without the
      repeats. */
  lemma FromPairsKeyOrder<K(!new), V>(ps: seq<(K, V)>)
    ensures Keys(FromPairs(ps)) == Dedup(Keys(ps))
    ensures forall i | 0 <= i < |ps| ::
      Keys(FromPairs(ps[..i + 1])) ==
        (if ps[i].0 in Keys(FromPairs(ps[..i])) then Keys(FromPairs(ps[..i]))
         else Keys(FromPairs(ps[..i])) + [ps[i].0])
  {
    FromPairsKeysDedup(ps);
    forall i | 0 <= i < |ps|
      ensures Keys(FromPairs(ps[..i + 1])) ==
        (if ps[i].0 in Keys(FromPairs(ps[..i])) then Keys(FromPairs(ps[..i]))
         else Keys(FromPairs(ps[..i])) + [ps[i].0])
    {
      FromPairsStep(ps, i);
      PutKeys(FromPairs(ps[..i]), ps[i].0, ps[i].1);
    }
  }

  /** The keys of a dictionary filled from pairs are the pairs' keys without repeats,
      each where it first occurs. */
  lemma {:induction false} FromPairsKeysDedup<K(!new), V>(ps: seq<(K, V)>)
    ensures Keys(FromPairs(ps)) == Dedup(Keys(ps))
  {
    if |ps| > 0 {
      var n := |ps| - 1;
      var init, k, prev := FromPairs(ps[..n]), ps[n].0, Keys(ps[..n]);
      FromPairsKeysDedup(ps[..n]);
      FromPairsStep(ps, n);
      assert ps[..n + 1] == ps;
      PutKeys(init, k, ps[n].1);
      assert Keys(ps) == prev + [k];
      DedupSnoc(prev, k);
      assert k in Keys(init) <==> k in prev;
    }
  }

  /** The pairs up to `i` build the dictionary of the pairs before it, then assign the
      `i`-th. */
  lemma FromPairsStep<K(!new), V>(ps: seq<(K, V)>, i: nat)
    requires i < |ps|
    ensures FromPairs(ps[..i + 1]) == Put(FromPairs(ps[..i]), ps[i].0, ps[i].1)
  {
    assert ps[..i + 1][..i] == ps[..i];
  }

  /** Assigning to the first position holding a key overwrites its value there. */
  lemma PutAt<K(!new), V>(d: Dict<K, V>, i: nat, v: V)
    requires i < |d|
    requires forall j | 0 <= j < i :: d[j].0 != d[i].0
    ensures Put(d, d[i].0, v) == d[i := (d[i].0, v)]
  {
    PutAtPointwise(d, i, v);
  }

  lemma {:induction false} PutAtPointwise<K(!new), V>(d: Dict<K, V>, i: nat, v: V)
    requires i < |d|
    requires forall j | 0 <= j < i :: d[j].0 != d[i].0
    ensures |Put(d, d[i].0, v)| == |d|
    ensures forall j | 0 <= j < |d| :: Put(d, d[i].0, v)[j] == if j == i then (d[i].0, v) else d[j]
  {
    var k := d[i].0;
    if i == 0 {
      assert Put(d, k, v) == [(k, v)] + d[1..];
    } else {
      var tail := d[1..];
      assert tail[i - 1] == d[i];
      assert forall j | 0 <= j < i - 1 :: tail[j].0 != tail[i - 1].0 by {
        assert forall j | 0 <= j < i - 1 :: tail[j] == d[j + 1];
      }
      PutAtPointwise(tail, i - 1, v);
      assert d[0].0 != k;
      assert Put(d, k, v) == [d[0]] + Put(tail, k, v);
    }
  }

  /** Assigning to a key already present overwrites its value where it stands. */
  lemma PutExisting<K(!new), V>(d: Dict<K, V>, i: nat, v: V)
    requires Valid(d) && i < |d|
    ensures Put(d, d[i].0, v) == d[i := (d[i].0, v)]
  {
    KeysIndex(d);
    forall j | 0 <= j < i
      ensures d[j].0 != d[i].0
    {
      assert Keys(d)[j] != Keys(d)[i];
    }
    PutAt(d, i, v);
  }

  /** Assigning to a new key appends it at the end. */
  lemma {:induction false} PutNew<K(!new), V>(d: Dict<K, V>, k: K, v: V)
    requires k !in Keys(d)
    ensures Put(d, k, v) == d + [(k, v)]
  {
    if |d| > 0 {
      KeysCons(d);
      PutNew(d[1..], k, v);
    }
  }
}

=== FILE: outcomes.dfy ===
/** Optional values and results with an error side, used wherever the modelled code
    returns `None`, an empty marker, or raises. */
module Outcomes {

  datatype Option<+T> = None | Some(value: T)

  datatype Result<+T, +E> = Ok(value: T) | Err(error: E)
}

=== FILE: pca.dfy ===
/** `PCAMatrix` (data_analysis/vectorize.py): a PCA model with an "applied" flag that
    starts False and is set once a fit returns a truthy matrix. The scikit-learn fit is
    a parameter: what `fit_transform` returns, or the exception it raises. */
module Pca {
  import opened Outcomes

  type Vector = seq<real>

  /** `explained_variance_ratio_` and `explained_variance_` of the fitted model. */
  datatype Variance = Variance(ratio: seq<real>, absolute: seq<real>)

  /** `bool(output_matrix)` for a numpy array: False or True for exactly one element, a
      `ValueError` ("ambiguous") for more. An empty array is False before NumPy 2.2 and
      raises from NumPy 2.2 on; `Ambiguous` covers the raising case. */
  datatype Truthiness = Truthy | Falsy | Ambiguous

  /** What `fit_transform(data)` does: raise, or fit (which sets the model's variance
      attributes) and return the projected matrix. */
  datatype FitOutcome = Raised(message: string) | Returned(output: seq<Vector>, truth: Truthiness, variance: Variance)

  /** The object: its component count, the `applied_pca` flag and the variance attributes
      the scikit-learn model holds once some fit has run. */
  datatype PcaMatrix = PcaMatrix(components: int, applied: bool, fitted: Option<Variance>)

  /** The result of `apply_pca`: the object afterwards, and the returned matrix, `None`,
      or the message of the `ValueError` raised. */
  datatype Applied = Applied(state: PcaMatrix, value: Result<Option<seq<Vector>>, string>)

  const ErrorPrefix := "Encountered the following error : "
  const AmbiguousTruth := "The truth value of an array with more than one element is ambiguous. Use a.any() or a.all()"
  const MisspeltName := "'PCA' object has no attribute 'fit_tranform'"

  function NewPcaMatrix(components: int): (p: PcaMatrix)
    ensures !p.applied && GetExplainedVariance(p).None?
  {
    PcaMatrix(components, false, None)
  }

  /** Once the flag is set the model has been fitted. */
  predicate Consistent(p: PcaMatrix)
  {
    p.applied ==> p.fitted.Some?
  }

  /** `apply_pca` with the fit method spelt `fit_transform`. */
  function ApplyPca(p: PcaMatrix, outcome: FitOutcome): (a: Applied)
    ensures a.state.components == p.components
    ensures a.state.applied <==> p.applied || (outcome.Returned? && outcome.truth == Truthy)
    ensures a.value.Err? <==> outcome.Raised? || outcome.truth == Ambiguous
    ensures a.value.Err? ==> a.state.applied == p.applied && |ErrorPrefix| <= |a.value.error| && a.value.error[..|ErrorPrefix|] == ErrorPrefix
    ensures a.value.Ok? && a.value.value.Some? ==> outcome.Returned? && a.value.value.value == outcome.output && a.state.applied
    ensures outcome.Raised? ==> a.state == p
    ensures outcome.Returned? ==> a.state.fitted == Some(outcome.variance)
    ensures outcome.Returned? && outcome.truth == Truthy ==> a.value == Ok(Some(outcome.output))
    ensures outcome.Returned? && outcome.truth == Falsy ==> a.value == Ok(None)
    ensures Consistent(p) ==> Consistent(a.state)
  {
    match outcome
    case Raised(message) => Applied(p, Err(ErrorPrefix + message))
    case Returned(output, truth, variance) =>
      var fitted := p.(fitted := Some(variance));
      match truth
      case Ambiguous => Applied(fitted, Err(ErrorPrefix + AmbiguousTruth))
      case Truthy => Applied(fitted.(applied := true), Ok(Some(output)))
      case Falsy => Applied(fitted, Ok(None))
  }

  /** `apply_pca` as written: `self.model.fit_tranform` does not exist, so every call
      raises `ValueError` and nothing changes. */
  function ApplyPcaAsWritten(p: PcaMatrix, data: seq<Vector>): (a: Applied)
    ensures a.state == p && a.value.Err?
    ensures a == ApplyPca(p, Raised(MisspeltName))
  {
    Applied(p, Err(ErrorPrefix + MisspeltName))
  }

  /** `get_explained_variance`: `None` (after printing a message) until the flag is set,
      then the pair (ratio, variance). */
  function GetExplainedVariance(p: PcaMatrix): (r: Option<Variance>)
    requires Consistent(p)
    ensures r.Some? <==> p.applied
    ensures r.Some? ==> Some(r.value) == p.fitted
  {
    if !p.applied then None else p.fitted
  }

  /** The flag is never cleared: a successful fit keeps the explained variance available. */
  lemma FlagNeverCleared(p: PcaMatrix, outcome: FitOutcome)
    requires Consistent(p) && p.applied
    ensures ApplyPca(p, outcome).state.applied
    ensures GetExplainedVariance(ApplyPca(p, outcome).state).Some?
  {
  }

  /** With the fit method spelt right, a fresh object given a truthy fit returns the
      output and from then on reports the fitted variance. */
  lemma TruthyFitEnablesVariance(components: int, output: seq<Vector>, variance: Variance)
    ensures var a := ApplyPca(NewPcaMatrix(components), Returned(output, Truthy, variance));
      && a.value == Ok(Some(output))
      && Consistent(a.state)
      && GetExplainedVariance(a.state) == Some(variance)
  {
  }

  /** Running the code as written on any sequence of data sets: every call raises, the
      flag stays False, and the explained variance is never available. */
  lemma {:induction false} AsWrittenNeverApplies(components: int, datasets: seq<seq<Vector>>)
    ensures var p := AsWrittenAfter(NewPcaMatrix(components), datasets);
      !p.applied && GetExplainedVariance(p).None?
  {
    if |datasets| > 0 {
      AsWrittenNeverApplies(components, datasets[..|datasets| - 1]);
    }
  }

  /** The object after `apply_pca` as written was called on each data set in turn. */
  function AsWrittenAfter(p: PcaMatrix, datasets: seq<seq<Vector>>): PcaMatrix
  {
    if |datasets| == 0 then p
    else ApplyPcaAsWritten(AsWrittenAfter(p, datasets[..|datasets| - 1]), datasets[|datasets| - 1]).state
  }
}

=== FILE: pool.dfy ===
/** The one check `concurrent.futures.ThreadPoolExecutor` makes of its argument before
    any task runs. */
module Pool {
  import opened Outcomes

  /** The `ValueError` raised for a worker count the pool refuses. */
  datatype PoolError = InvalidWorkerCount

  /** `ThreadPoolExecutor(max_workers=w)` raises `ValueError` when `w` is given and is not
      positive; `None` (the library's default pool size) is accepted. */
  predicate Rejects(workers: Option<int>)
  {
    workers.Some? && workers.value <= 0
  }
}

=== FILE: py_cleaner.dfy ===
/** `PythonTextCleaner` (text_cleaner_cpp/performance_comparison.py): the pure Python
    version of `Clean_Text`, and the agreement of the two that its correctness test
    looks for. */
module PyCleaner {
  import opened Seqs
  import opened Bytes
  import opened Split
  import opened Blanks
  import SpeechClean

  const PyTerms: set<char> := {'.', '!', '?'}

  /** The characters `str.isspace()` accepts, which `str.strip()` removes. */
  predicate IsPySpace(c: char)
  {
    || c == ' ' || '\t' <= c <= '\r' || '\U{1C}' <= c <= '\U{1F}'
    || c == '\U{85}' || c == '\U{A0}' || c == '\U{1680}'
    || '\U{2000}' <= c <= '\U{200A}' || c == '\U{2028}' || c == '\U{2029}'
    || c == '\U{202F}' || c == '\U{205F}' || c == '\U{3000}'
  }

  const PySpace: iset<char> := iset c | IsPySpace(c)

  /** `str.strip()` with no argument. */
  function PyStrip(s: string): string
  {
    Strip(s, PySpace)
  }

  /** The results so far and the sentence being built. */
  datatype PyScan = PyScan(results: seq<string>, current: string)

  function PyStep(st: PyScan, c: char): PyScan
  {
    var cur := st.current + [c];
    if c in PyTerms then
      PyScan(if |PyStrip(cur)| > 0 then st.results + [PyStrip(cur)] else st.results, "")
    else PyScan(st.results, cur)
  }

  function PyScanAll(s: string): PyScan
  {
    if |s| == 0 then PyScan([], "") else PyStep(PyScanAll(s[..|s| - 1]), s[|s| - 1])
  }

  /** `split_punctuation`: the stripped pieces, keeping only the non-empty ones. */
  function PySplitPunctuation(s: string): seq<string>
  {
    var st := PyScanAll(s);
    if |PyStrip(st.current)| > 0 then st.results + [PyStrip(st.current)] else st.results
  }

  /** The non-empty stripped forms of some pieces, in order. */
  function StrippedNonEmpty(ps: seq<string>, ws: iset<char>): (r: seq<string>)
    ensures |r| <= |ps|
  {
    if |ps| == 0 then []
    else
      var t := Strip(ps[|ps| - 1], ws);
      StrippedNonEmpty(ps[..|ps| - 1], ws) + (if |t| > 0 then [t] else [])
  }

  lemma {:induction false} PyScanMatches(s: string)
    ensures PyScanAll(s).current == ScanAll(s, PyTerms).current
    ensures PyScanAll(s).results == StrippedNonEmpty(ScanAll(s, PyTerms).closed, PySpace)
  {
    if |s| > 0 {
      var s', c := s[..|s| - 1], s[|s| - 1];
      PyScanMatches(s');
      var st' := ScanAll(s', PyTerms);
      var py' := PyScanAll(s');
      var cur := st'.current + [c];
      assert py'.current + [c] == cur;
      if c in PyTerms {
        assert ScanAll(s, PyTerms) == Scan(st'.closed + [cur], []);
        var t := PyStrip(cur);
        assert PyScanAll(s) == PyScan(if |t| > 0 then py'.results + [t] else py'.results, "");
        assert (st'.closed + [cur])[..|st'.closed|] == st'.closed;
        assert StrippedNonEmpty(st'.closed + [cur], PySpace) == StrippedNonEmpty(st'.closed, PySpace) + (if |t| > 0 then [t] else []);
      } else {
        assert ScanAll(s, PyTerms) == Scan(st'.closed, cur);
        assert PyScanAll(s) == PyScan(py'.results, cur);
      }
    }
  }

  /** The Python splitter is the C++ splitter followed by `strip()`, with the pieces
      that strip to nothing removed. */
  lemma {:induction false} PySplitIsStrippedPieces(s: string)
    ensures PySplitPunctuation(s) == StrippedNonEmpty(Pieces(s, PyTerms), PySpace)
  {
    PyScanMatches(s);
    var st := ScanAll(s, PyTerms);
    if |st.current| > 0 {
      assert (st.closed + [st.current])[..|st.closed|] == st.closed;
    } else {
      assert PyStrip(st.current) == [];
    }
  }

  /** Each element of `StrippedNonEmpty` is the non-empty stripped form of a piece. */
  lemma {:induction false} StrippedNonEmptyElement(ps: seq<string>, ws: iset<char>, i: nat)
    requires i < |StrippedNonEmpty(ps, ws)|
    ensures |StrippedNonEmpty(ps, ws)[i]| > 0
    ensures exists j | 0 <= j < |ps| :: StrippedNonEmpty(ps, ws)[i] == Strip(ps[j], ws)
  {
    var init := ps[..|ps| - 1];
    if i < |StrippedNonEmpty(init, ws)| {
      StrippedNonEmptyElement(init, ws, i);
      var j :| 0 <= j < |init| && StrippedNonEmpty(init, ws)[i] == Strip(init[j], ws);
      assert init[j] == ps[j];
    } else {
      assert StrippedNonEmpty(ps, ws)[i] == Strip(ps[|ps| - 1], ws);
    }
  }

  /** A non-empty piece with no blank at either end. */
  predicate Trimmed(p: string, ws: iset<char>)
  {
    |p| > 0 && p[0] !in ws && p[|p| - 1] !in ws
  }

  predicate AllTrimmed(ps: seq<string>, ws: iset<char>)
  {
    forall i | 0 <= i < |ps| :: Trimmed(ps[i], ws)
  }

  /** A non-empty piece whose last character is a terminator. */
  predicate EndsInTerm(p: string, terms: set<char>)
  {
    |p| > 0 && p[|p| - 1] in terms
  }

  /** Every piece but the last ends in a terminator. */
  predicate InnerEndsInTerm(ps: seq<string>, terms: set<char>)
  {
    forall i | 0 <= i < |ps| - 1 :: EndsInTerm(ps[i], terms)
  }

  predicate AllClosed(ps: seq<string>, terms: set<char>)
  {
    forall j | 0 <= j < |ps| :: IsClosed(ps[j], terms)
  }

  /** Every Python piece is non-empty and has no blank at either end. */
  lemma {:induction false} PySplitShape(s: string)
    ensures AllTrimmed(PySplitPunctuation(s), PySpace)
  {
    PySplitIsStrippedPieces(s);
    StrippedShape(Pieces(s, PyTerms), PySpace);
  }

  lemma {:induction false} StrippedShape(ps: seq<string>, ws: iset<char>)
    ensures AllTrimmed(StrippedNonEmpty(ps, ws), ws)
  {
    var out := StrippedNonEmpty(ps, ws);
    forall i | 0 <= i < |out| ensures Trimmed(out[i], ws) {
      StrippedNonEmptyElement(ps, ws, i);
    }
  }

  /** Stripped closed pieces still end in their terminator when no terminator is
      blank. */
  lemma {:induction false} StrippedClosedEnd(ps: seq<string>, ws: iset<char>, terms: set<char>, i: nat)
    requires forall c | c in terms :: c !in ws
    requires AllClosed(ps, terms)
    requires i < |StrippedNonEmpty(ps, ws)|
    ensures EndsInTerm(StrippedNonEmpty(ps, ws)[i], terms)
  {
    var init, last := ps[..|ps| - 1], ps[|ps| - 1];
    var t := Strip(last, ws);
    var before := StrippedNonEmpty(init, ws);
    assert StrippedNonEmpty(ps, ws) == before + (if |t| > 0 then [t] else []);
    if i < |before| {
      assert AllClosed(init, terms) by {
        forall j | 0 <= j < |init| ensures IsClosed(init[j], terms) {
          assert init[j] == ps[j];
        }
      }
      StrippedClosedEnd(init, ws, terms, i);
      assert StrippedNonEmpty(ps, ws)[i] == before[i];
    } else {
      assert IsClosed(last, terms);
      StripKeepsLast(last, ws);
      assert StrippedNonEmpty(ps, ws)[i] == t;
    }
  }

  lemma {:induction false} StrippedClosedEnds(ps: seq<string>, ws: iset<char>, terms: set<char>, rest: seq<string>)
    requires forall c | c in terms :: c !in ws
    requires AllClosed(ps, terms)
    requires |rest| <= 1
    ensures InnerEndsInTerm(StrippedNonEmpty(ps, ws) + rest, terms)
  {
    var closed := StrippedNonEmpty(ps, ws);
    var out := closed + rest;
    forall i | 0 <= i < |out| - 1 ensures EndsInTerm(out[i], terms) {
      assert out[i] == closed[i];
      StrippedClosedEnd(ps, ws, terms, i);
    }
  }

  /** No terminator is a blank to `strip()`. */
  lemma TermsNotBlank()
    ensures forall c | c in PyTerms :: c !in PySpace
  {
    forall c | c in PyTerms ensures !IsPySpace(c) {
      assert c == '.' || c == '!' || c == '?';
    }
  }

  /** Every Python piece except possibly the last ends in a terminator: the closed
      pieces end in one, and a terminator is not blank. */
  lemma {:induction false} PySplitEnds(s: string)
    ensures InnerEndsInTerm(PySplitPunctuation(s), PyTerms)
  {
    PyScanMatches(s);
    ScanShape(s, PyTerms);
    var st := ScanAll(s, PyTerms);
    assert AllClosed(st.closed, PyTerms);
    var t := PyStrip(PyScanAll(s).current);
    assert PySplitPunctuation(s) == StrippedNonEmpty(st.closed, PySpace) + (if |t| > 0 then [t] else []);
    TermsNotBlank();
    StrippedClosedEnds(st.closed, PySpace, PyTerms, if |t| > 0 then [t] else []);
  }

  /** The Python object; `min_chars` is an unbounded Python `int`. */
  datatype PyTextCleaner = PyTextCleaner(
    rawText: string,
    fileName: string,
    minChars: int,
    sentences: seq<string>,
    cleanedText: string,
    numSentences: int)

  predicate PyConsistent(c: PyTextCleaner)
  {
    c.numSentences == |c.sentences| && c.cleanedText == Concat(c.sentences)
  }

  function NewPyTextCleaner(rawText: string, fileName: string, minChars: int): (c: PyTextCleaner)
    ensures c.rawText == rawText && c.fileName == fileName && c.minChars == minChars
    ensures PyConsistent(c) && c.sentences == []
  {
    PyTextCleaner(rawText, fileName, minChars, [], "", 0)
  }

  /** `is_ascii_only`. */
  predicate PyKeep(t: string, minChars: int)
  {
    AllAscii(t) && |t| >= minChars
  }

  /** The loop of `process_text`: strip each piece again and filter. */
  function PyKept(ps: seq<string>, minChars: int): (r: seq<string>)
    ensures |r| <= |ps|
  {
    if |ps| == 0 then []
    else
      var t := PyStrip(ps[|ps| - 1]);
      PyKept(ps[..|ps| - 1], minChars) + (if PyKeep(t, minChars) then [t] else [])
  }

  /** `process_text`: appends the split's pieces that pass the ASCII and length test, in
      order, to the sentences, their text to the cleaned text and their number to the
      count; it resets nothing. */
  function PyProcessText(c: PyTextCleaner): (r: PyTextCleaner)
    ensures PyConsistent(c) ==> PyConsistent(r)
    ensures r.rawText == c.rawText && r.fileName == c.fileName && r.minChars == c.minChars
    ensures |c.sentences| <= |r.sentences| && r.sentences[..|c.sentences|] == c.sentences
    ensures var kept := KeepFilter(PySplitPunctuation(c.rawText), c.minChars);
      && r.sentences == c.sentences + kept
      && r.cleanedText == c.cleanedText + Concat(kept)
      && r.numSentences == c.numSentences + |kept|
  {
    SecondStripNoOp(c.rawText, c.minChars);
    var k := PyKept(PySplitPunctuation(c.rawText), c.minChars);
    ConcatSplit(c.sentences, k);
    c.(sentences := c.sentences + k, cleanedText := c.cleanedText + Concat(k), numSentences := c.numSentences + |k|)
  }

  /** The second `strip()` in `process_text` changes nothing: the pieces are already
      stripped, so the filter sees the split's own output. */
  lemma {:induction false} SecondStripNoOp(s: string, minChars: int)
    ensures PyKept(PySplitPunctuation(s), minChars) == KeepFilter(PySplitPunctuation(s), minChars)
  {
    PySplitIsStrippedPieces(s);
    StrippedIdempotentAll(Pieces(s, PyTerms), PySpace);
    PyKeptOfStripped(PySplitPunctuation(s), minChars);
  }

  /** The pieces that pass the filter, unchanged. */
  function KeepFilter(ps: seq<string>, minChars: int): (r: seq<string>)
    ensures forall i | 0 <= i < |r| :: PyKeep(r[i], minChars) && r[i] in ps
    ensures forall t :: t in r <==> t in ps && PyKeep(t, minChars)
  {
    if |ps| == 0 then []
    else
      var t := ps[|ps| - 1];
      assert ps == ps[..|ps| - 1] + [t];
      KeepFilter(ps[..|ps| - 1], minChars) + (if PyKeep(t, minChars) then [t] else [])
  }

  /** The filter keeps the input order: filtering a concatenation filters each part. */
  lemma {:induction false} KeepFilterAppend(a: seq<string>, b: seq<string>, minChars: int)
    ensures KeepFilter(a + b, minChars) == KeepFilter(a, minChars) + KeepFilter(b, minChars)
    decreases |b|
  {
    if |b| == 0 {
      assert a + b == a;
    } else {
      assert (a + b)[..|a + b| - 1] == a + b[..|b| - 1];
      KeepFilterAppend(a, b[..|b| - 1], minChars);
    }
  }

  lemma {:induction false} StrippedIdempotentAll(ps: seq<string>, ws: iset<char>)
    ensures forall i | 0 <= i < |StrippedNonEmpty(ps, ws)| ::
      Strip(StrippedNonEmpty(ps, ws)[i], ws) == StrippedNonEmpty(ps, ws)[i]
  {
    if |ps| > 0 {
      StrippedIdempotentAll(ps[..|ps| - 1], ws);
      StripIdempotent(ps[|ps| - 1], ws);
    }
  }

  lemma {:induction false} PyKeptOfStripped(ps: seq<string>, minChars: int)
    requires forall i | 0 <= i < |ps| :: PyStrip(ps[i]) == ps[i]
    ensures PyKept(ps, minChars) == KeepFilter(ps, minChars)
  {
    if |ps| > 0 {
      PyKeptOfStripped(ps[..|ps| - 1], minChars);
    }
  }

  /** The blanks `str.isspace()` adds to `" \t\n\r"` among ASCII characters: vertical
      tab, form feed and the four separators 0x1C-0x1F. */
  predicate OtherBlank(c: char)
  {
    c == '\U{0B}' || c == '\U{0C}' || '\U{1C}' <= c <= '\U{1F}'
  }

  /** The texts on which the two cleaners are meant to agree: ASCII (so the Python
      string and the C++ bytes are the same characters), without the extra blanks. */
  predicate Comparable(s: string)
  {
    AllAscii(s) && forall i | 0 <= i < |s| :: !OtherBlank(s[i])
  }

  /** On such characters the two blank sets agree. */
  lemma BlankSetsAgree(c: char)
    requires IsAscii(c) && !OtherBlank(c)
    ensures c in SpeechClean.TrimSet <==> c in PySpace
  {
  }

  /** The C++ filter is the Python filter once `min_chars` is not negative. */
  lemma {:induction false} KeptIsKeepFilter(ts: seq<ByteString>, minChars: SpeechClean.Int32)
    requires minChars >= 0
    ensures SpeechClean.Kept(ts, minChars) == KeepFilter(ts, minChars)
  {
    if |ts| > 0 {
      KeptIsKeepFilter(ts[..|ts| - 1], minChars);
    }
  }

  /** With `min_chars >= 1` the filter drops empty pieces anyway, so trimming every
      piece and trimming and then removing the empty ones pass the same sentences. */
  lemma {:induction false} FilterDropsEmpty(ps: seq<string>, ts: seq<string>, ws: iset<char>, minChars: int)
    requires minChars >= 1
    requires |ts| == |ps| && forall i | 0 <= i < |ps| :: ts[i] == Strip(ps[i], ws)
    ensures KeepFilter(ts, minChars) == KeepFilter(StrippedNonEmpty(ps, ws), minChars)
  {
    if |ps| > 0 {
      var n := |ps| - 1;
      var t := ts[n];
      assert t == Strip(ps[n], ws);
      assert forall i | 0 <= i < n :: ts[..n][i] == Strip(ps[..n][i], ws);
      FilterDropsEmpty(ps[..n], ts[..n], ws, minChars);
      var before := StrippedNonEmpty(ps[..n], ws);
      var kept := KeepFilter(ts[..n], minChars);
      assert KeepFilter(ts, minChars) == kept + (if PyKeep(t, minChars) then [t] else []);
      if |t| > 0 {
        assert StrippedNonEmpty(ps, ws) == before + [t];
        KeepFilterSnoc(before, t, minChars);
      } else {
        assert StrippedNonEmpty(ps, ws) == before;
      }
    }
  }

  lemma KeepFilterSnoc(ps: seq<string>, t: string, minChars: int)
    ensures KeepFilter(ps + [t], minChars) == KeepFilter(ps, minChars) + (if PyKeep(t, minChars) then [t] else [])
  {
    assert (ps + [t])[..|ps|] == ps;
  }

  /** A piece of a comparable text is comparable. */
  lemma PieceComparable(ps: seq<ByteString>, i: nat)
    requires i < |ps| && Comparable(Concat(ps))
    ensures Comparable(ps[i])
  {
    var p := ps[i];
    forall j | 0 <= j < |p| ensures IsAscii(p[j]) && !OtherBlank(p[j]) {
      ConcatIndex(ps, i, j);
    }
  }

  /** On a comparable piece, the C++ trim and `str.strip()` agree. */
  lemma TrimAgrees(p: SpeechClean.CppString)
    requires Comparable(p)
    ensures SpeechClean.Trim(p) == Strip(p, PySpace)
  {
    forall j | 0 <= j < |p| ensures p[j] in SpeechClean.TrimSet <==> p[j] in PySpace {
      BlankSetsAgree(p[j]);
    }
    SpeechClean.TrimIsStrip(p);
    SpeechClean.StripAsChars(p, SpeechClean.TrimSet);
    StripAgree<char>(p, SpeechClean.TrimSet, PySpace);
  }

  /** Each C++ trimmed piece of a comparable text is its Python-stripped piece. */
  lemma TrimmedPiecesAgree(text: SpeechClean.CppString)
    requires Comparable(text)
    ensures var ps := SpeechClean.SplitPunctuation(text);
      forall i | 0 <= i < |ps| :: SpeechClean.TrimAll(ps)[i] == Strip(ps[i], PySpace)
  {
    var ps := SpeechClean.SplitPunctuation(text);
    PiecesLossless(text, SpeechClean.Terms);
    forall i | 0 <= i < |ps| ensures SpeechClean.TrimAll(ps)[i] == Strip(ps[i], PySpace) {
      PieceComparable(ps, i);
      TrimAgrees(ps[i]);
    }
  }

  /** The agreement `test_correctness` looks for: on comparable text and with
      `min_chars >= 1`, the Python cleaner and the C++ cleaner keep the same sentences. */
  lemma CleanersAgree(text: SpeechClean.CppString, minChars: SpeechClean.Int32)
    requires Comparable(text) && minChars >= 1
    ensures PyKept(PySplitPunctuation(text), minChars)
         == SpeechClean.Kept(SpeechClean.TrimAll(SpeechClean.SplitPunctuation(text)), minChars)
  {
    var ps := SpeechClean.SplitPunctuation(text);
    var ts := SpeechClean.TrimAll(ps);
    assert SpeechClean.Terms == PyTerms;
    SpeechClean.PiecesAsChars(text);
    assert ps == Pieces(text, PyTerms);
    TrimmedPiecesAgree(text);
    KeptIsKeepFilter(ts, minChars);
    FilterDropsEmpty(ps, ts, PySpace, minChars);
    PySplitIsStrippedPieces(text);
    SecondStripNoOp(text, minChars);
  }

  /** The same agreement between the two objects after one `process_text` each. */
  lemma ObjectsAgree(text: SpeechClean.CppString, fileName: ByteString, minChars: SpeechClean.Int32)
    requires Comparable(text) && minChars >= 1
    ensures PyProcessText(NewPyTextCleaner(text, fileName, minChars)).sentences
         == SpeechClean.AfterProcess(SpeechClean.NewCleanText(text, fileName, minChars)).sentences
  {
    CleanersAgree(text, minChars);
  }
}

=== FILE: seqs.dfy ===
/** Sequence helpers shared by every component: flattening, filtering, leftmost search
    and permutations (the orders in which a thread pool may complete its tasks). */
module Seqs {

  /** All the inner sequences, one after the other, in order. */
  function Concat<T>(ss: seq<seq<T>>): seq<T>
  {
    if |ss| == 0 then [] else Concat(ss[..|ss| - 1]) + ss[|ss| - 1]
  }

  function Map<A, B>(f: A -> B, s: seq<A>): seq<B>
  {
    seq(|s|, i requires 0 <= i < |s| => f(s[i]))
  }

  /** The distinct elements of `s`, in order of first occurrence. */
  function Dedup<T(==,!new)>(s: seq<T>): (r: seq<T>)
    ensures forall x :: x in r <==> x in s
  {
    if |s| == 0 then []
    else
      var rest := Dedup(s[..|s| - 1]);
      var x := s[|s| - 1];
      assert forall y :: y in s <==> y in s[..|s| - 1] || y == x by {
        assert s == s[..|s| - 1] + [x];
      }
      if x in rest then rest else rest + [x]
  }

  /** One more element is kept exactly when it is new. */
  lemma DedupSnoc<T(!new)>(s: seq<T>, x: T)
    ensures Dedup(s + [x]) == if x in s then Dedup(s) else Dedup(s) + [x]
  {
    assert (s + [x])[..|s|] == s;
  }

  /** The elements of `s` that satisfy `p`, in their original order. */
  function Filter<T>(p: T -> bool, s: seq<T>): (r: seq<T>)
    ensures |r| <= |s|
    ensures forall i | 0 <= i < |r| :: p(r[i])
  {
    if |s| == 0 then []
    else Filter(p, s[..|s| - 1]) + (if p(s[|s| - 1]) then [s[|s| - 1]] else [])
  }

  function Sum(xs: seq<int>): int
  {
    if |xs| == 0 then 0 else Sum(xs[..|xs| - 1]) + xs[|xs| - 1]
  }

  /** The lengths of the inner sequences. */
  function Lengths<T>(ss: seq<seq<T>>): seq<int>
  {
    seq(|ss|, i requires 0 <= i < |ss| => |ss[i]|)
  }

  lemma ConcatAppend<T>(ss: seq<seq<T>>, x: seq<T>)
    ensures Concat(ss + [x]) == Concat(ss) + x
  {
    assert (ss + [x])[..|ss|] == ss;
  }

  lemma {:induction false} ConcatSplit<T>(a: seq<seq<T>>, b: seq<seq<T>>)
    ensures Concat(a + b) == Concat(a) + Concat(b)
    decreases |b|
  {
    if |b| == 0 {
      assert a + b == a;
    } else {
      var b' := b[..|b| - 1];
      var x := b[|b| - 1];
      assert b == b' + [x];
      assert a + b == (a + b') + [x];
      ConcatAppend(a + b', x);
      ConcatSplit(a, b');
      ConcatAppend(b', x);
    }
  }

  /** Element `j` of the `i`-th inner sequence sits in the flattening right after
      everything the first `i` inner sequences contribute. */
  lemma {:induction false} ConcatIndex<T>(ss: seq<seq<T>>, i: nat, j: nat)
    requires i < |ss| && j < |ss[i]|
    ensures |Concat(ss[..i])| + j < |Concat(ss)|
    ensures Concat(ss)[|Concat(ss[..i])| + j] == ss[i][j]
  {
    assert ss == ss[..i + 1] + ss[i + 1..];
    ConcatSplit(ss[..i + 1], ss[i + 1..]);
    assert ss[..i + 1] == ss[..i] + [ss[i]];
    ConcatAppend(ss[..i], ss[i]);
  }

  /** The flattening is as long as the inner lengths add up to. */
  lemma {:induction false} ConcatLength<T>(ss: seq<seq<T>>)
    ensures |Concat(ss)| == Sum(Lengths(ss))
  {
    if |ss| > 0 {
      ConcatLength(ss[..|ss| - 1]);
      assert Lengths(ss[..|ss| - 1]) == Lengths(ss)[..|ss| - 1];
    }
  }

  /** No inner sequence is longer than the flattening. */
  lemma {:induction false} ConcatBound<T>(ss: seq<seq<T>>, i: nat)
    requires i < |ss|
    ensures |ss[i]| <= |Concat(ss)|
  {
    if i < |ss| - 1 {
      ConcatBound(ss[..|ss| - 1], i);
    }
  }

  lemma FilterAppend<T>(p: T -> bool, a: seq<T>, x: T)
    ensures Filter(p, a + [x]) == Filter(p, a) + (if p(x) then [x] else [])
  {
    assert (a + [x])[..|a|] == a;
  }

  /** An element is kept exactly when it occurs in the input and satisfies `p`. */
  lemma {:induction false} FilterMembership<T>(p: T -> bool, s: seq<T>, x: T)
    ensures x in Filter(p, s) <==> x in s && p(x)
  {
    if |s| > 0 {
      FilterMembership(p, s[..|s| - 1], x);
      assert s == s[..|s| - 1] + [s[|s| - 1]];
    }
  }

  /** The results of `f` on the elements of `s`, one after the other. */
  function FlatMap<A, B>(f: A -> seq<B>, s: seq<A>): seq<B>
  {
    if |s| == 0 then [] else FlatMap(f, s[..|s| - 1]) + f(s[|s| - 1])
  }

  lemma {:induction false} FlatMapAppend<A, B>(f: A -> seq<B>, a: seq<A>, b: seq<A>)
    ensures FlatMap(f, a + b) == FlatMap(f, a) + FlatMap(f, b)
    decreases |b|
  {
    if |b| == 0 {
      assert a + b == a;
    } else {
      var b' := b[..|b| - 1];
      FlatMapAppend(f, a, b');
      assert (a + b)[..|a + b| - 1] == a + b';
      assert (a + b)[|a + b| - 1] == b[|b| - 1];
      var x, y, z := FlatMap(f, a), FlatMap(f, b'), f(b[|b| - 1]);
      assert FlatMap(f, a + b) == (x + y) + z;
      assert FlatMap(f, b) == y + z;
      assert (x + y) + z == x + (y + z);
    }
  }

  lemma EmptyPrefix<T>(x: seq<T>)
    ensures [] + x == x
  {
  }

  lemma FilterOne<T>(p: T -> bool, x: T)
    ensures Filter(p, [x]) == if p(x) then [x] else []
  {
    assert [x][..0] == [];
  }

  lemma FlatMapOne<A, B>(f: A -> seq<B>, x: A)
    ensures FlatMap(f, [x]) == f(x)
  {
    assert [x][..0] == [];
  }

  /** One more element adds its results at the end. */
  lemma FlatMapStep<A, B>(f: A -> seq<B>, s: seq<A>, i: nat)
    requires i < |s|
    ensures FlatMap(f, s[..i + 1]) == FlatMap(f, s[..i]) + f(s[i])
  {
    assert s[..i + 1][..i] == s[..i];
  }

  /** An element without results can be left out. */
  lemma FlatMapSkip<A, B>(f: A -> seq<B>, s: seq<A>, i: nat)
    requires i < |s| && f(s[i]) == []
    ensures FlatMap(f, s) == FlatMap(f, s[..i]) + FlatMap(f, s[i + 1..])
  {
    var a, b := s[..i + 1], s[i + 1..];
    assert a + b == s;
    FlatMapAppend(f, a, b);
    FlatMapStep(f, s, i);
  }

  /** A property every element's results have holds for all results. */
  lemma {:induction false} FlatMapAll<A, B>(f: A -> seq<B>, s: seq<A>, p: B -> bool)
    requires forall j | 0 <= j < |s| :: forall x | x in f(s[j]) :: p(x)
    ensures forall x | x in FlatMap(f, s) :: p(x)
  {
    if |s| > 0 {
      FlatMapAll(f, s[..|s| - 1], p);
      assert forall x | x in f(s[|s| - 1]) :: p(x);
    }
  }

  /** Filtering distributes over concatenation. */
  lemma {:induction false} FilterConcat<T>(p: T -> bool, a: seq<T>, b: seq<T>)
    ensures Filter(p, a + b) == Filter(p, a) + Filter(p, b)
    decreases |b|
  {
    if |b| == 0 {
      assert a + b == a;
    } else {
      var b', x := b[..|b| - 1], b[|b| - 1];
      FilterConcat(p, a, b');
      assert (a + b)[..|a + b| - 1] == a + b';
    }
  }

  /** `order` lists every index below `n` exactly once: the order in which a pool of
      `n` tasks may complete. */
  ghost predicate IsPermutation(order: seq<nat>, n: nat)
  {
    && |order| == n
    && (forall k | 0 <= k < n :: order[k] < n)
    && (forall k, l | 0 <= k < l < n :: order[k] != order[l])
    && (forall i | 0 <= i < n :: i in order)
  }
}

=== FILE: speech_clean.dfy ===
/** `Clean_Text` (text_cleaner_cpp/speech_clean.cpp): splits a raw text into sentences,
    trims each one, keeps the ASCII sentences that are long enough, and accumulates them. */
module SpeechClean {
  import opened Seqs
  import opened Bytes
  import opened Split
  import opened Blanks

  /** `std::string::npos`, the largest `size_t`. */
  const NPOS: nat := 0xFFFF_FFFF_FFFF_FFFF
  /** `size_t` arithmetic is modulo this. */
  const SIZE_T_MOD: nat := 0x1_0000_0000_0000_0000

  type Int32 = x: int | -0x8000_0000 <= x < 0x8000_0000

  /** A `std::string`: its length is a `size_t`. */
  type CppString = s: ByteString | |s| <= NPOS

  /** The sentence terminators of `split_punctuation`. */
  const Terms: set<Byte> := {'.', '!', '?'}
  /** The characters `process_text` trims. */
  const TrimSet: iset<Byte> := iset{' ', '\t', '\n', '\r'}

  /** The object after construction; the date field is the wall-clock date and is not
      modelled. */
  datatype CleanText = CleanText(
    rawText: CppString,
    fileName: ByteString,
    minChars: Int32,
    sentences: seq<ByteString>,
    cleanedText: ByteString,
    numSentences: int)

  /** The accumulators agree: one count per sentence, and the cleaned text is the
      sentences joined without separator. */
  predicate Consistent(c: CleanText)
  {
    c.numSentences == |c.sentences| && c.cleanedText == Concat(c.sentences)
  }

  function NewCleanText(rawText: CppString, fileName: ByteString, minChars: Int32): (c: CleanText)
    ensures Consistent(c) && c.sentences == []
    ensures c.rawText == rawText && c.fileName == fileName && c.minChars == minChars
  {
    CleanText(rawText, fileName, minChars, [], [], 0)
  }

  /** `find_first_not_of`: the first position holding a non-member, or `npos`. */
  function FindFirstNotOf(s: ByteString, set_: iset<Byte>): (r: nat)
    ensures r == NPOS || r < |s|
    ensures r < |s| && r != NPOS ==> s[r] !in set_ && forall i | 0 <= i < r :: s[i] in set_
    ensures r == NPOS && |s| <= NPOS ==> forall i | 0 <= i < |s| :: s[i] in set_
  {
    FindFirstNotOfFrom(s, set_, 0)
  }

  function FindFirstNotOfFrom(s: ByteString, set_: iset<Byte>, from: nat): (r: nat)
    requires from <= |s|
    ensures r == NPOS || from <= r < |s|
    ensures from <= r < |s| && r != NPOS ==> s[r] !in set_ && forall i | from <= i < r :: s[i] in set_
    ensures r == NPOS && |s| <= NPOS ==> forall i | from <= i < |s| :: s[i] in set_
    decreases |s| - from
  {
    if from == |s| then NPOS
    else if s[from] !in set_ then from
    else FindFirstNotOfFrom(s, set_, from + 1)
  }

  /** `find_last_not_of`: the last position holding a non-member, or `npos`. */
  function FindLastNotOf(s: ByteString, set_: iset<Byte>): (r: nat)
    ensures r == NPOS || r < |s|
    ensures r < |s| && r != NPOS ==> s[r] !in set_ && forall i | r < i < |s| :: s[i] in set_
    ensures r == NPOS && |s| <= NPOS ==> forall i | 0 <= i < |s| :: s[i] in set_
  {
    FindLastNotOfBefore(s, set_, |s|)
  }

  function FindLastNotOfBefore(s: ByteString, set_: iset<Byte>, before: nat): (r: nat)
    requires before <= |s|
    ensures r == NPOS || r < before
    ensures r < before && r != NPOS ==> s[r] !in set_ && forall i | r < i < before :: s[i] in set_
    ensures r == NPOS && before <= NPOS ==> forall i | 0 <= i < before :: s[i] in set_
  {
    if before == 0 then NPOS
    else if s[before - 1] !in set_ then before - 1
    else FindLastNotOfBefore(s, set_, before - 1)
  }

  /** `erase(0, count)`: removes the first `count` characters, or all of them. */
  function EraseFront(s: ByteString, count: nat): (r: ByteString)
    ensures |r| == |s| - (if count < |s| then count else |s|)
    ensures r == s[|s| - |r|..]
  {
    if count < |s| then s[count..] else []
  }

  /** `erase(pos)`: keeps the characters before `pos`; a `pos` past the end throws. */
  function EraseFrom(s: ByteString, pos: nat): (r: ByteString)
    requires pos <= |s|
    ensures r == s[..pos]
  {
    s[..pos]
  }

  /** The sum of two `size_t` values, which wraps around past `NPOS`. */
  function SizeTSum(x: nat, y: nat): (r: nat)
    requires x < SIZE_T_MOD && y < SIZE_T_MOD
    ensures r < SIZE_T_MOD && (r == x + y || r == x + y - SIZE_T_MOD)
  {
    if x + y < SIZE_T_MOD then x + y else x + y - SIZE_T_MOD
  }

  /** The two trimming statements of `process_text`. When nothing but blanks is left,
      `find_last_not_of` gives `npos` and `npos + 1` wraps to 0, so all is erased. */
  function Trim(s: CppString): (r: CppString)
    ensures |r| <= |s|
  {
    var a := EraseFront(s, FindFirstNotOf(s, TrimSet));
    var pos := SizeTSum(FindLastNotOf(a, TrimSet), 1);
    EraseFrom(a, pos)
  }

  /** For any string whose length fits in a `size_t`, the trimming is exactly the
      removal of blanks from both ends: a piece of blanks becomes empty. */
  lemma TrimIsStrip(s: CppString)
    ensures Trim(s) == Strip(s, TrimSet)
  {
    var a := EraseFront(s, FindFirstNotOf(s, TrimSet));
    EraseFrontIsStripLeft(s);
    EraseBackIsStripRight(a);
  }

  /** Stripping a byte string, read as characters, strips the same elements. */
  lemma StripAsChars(s: ByteString, ws: iset<Byte>)
    ensures Strip<Byte>(s, ws) == Strip<char>(s, ws)
  {
    StripLeftAsChars(s, ws);
    StripRightAsChars(StripLeft<Byte>(s, ws), ws);
  }

  lemma {:induction false} StripLeftAsChars(s: ByteString, ws: iset<Byte>)
    ensures StripLeft<Byte>(s, ws) == StripLeft<char>(s, ws)
  {
    if |s| > 0 {
      StripLeftAsChars(s[1..], ws);
    }
  }

  lemma {:induction false} StripRightAsChars(s: ByteString, ws: iset<Byte>)
    ensures StripRight<Byte>(s, ws) == StripRight<char>(s, ws)
  {
    if |s| > 0 {
      StripRightAsChars(s[..|s| - 1], ws);
    }
  }

  lemma EraseFrontIsStripLeft(s: ByteString)
    requires |s| <= NPOS
    ensures EraseFront(s, FindFirstNotOf(s, TrimSet)) == StripLeft(s, TrimSet)
  {
    var f := FindFirstNotOf(s, TrimSet);
    var l := StripLeft(s, TrimSet);
    if f == NPOS {
      assert |l| == 0;
    } else {
      assert |s| - |l| == f;
    }
  }

  lemma EraseBackIsStripRight(a: ByteString)
    requires |a| <= NPOS
    ensures SizeTSum(FindLastNotOf(a, TrimSet), 1) <= |a|
    ensures EraseFrom(a, SizeTSum(FindLastNotOf(a, TrimSet), 1)) == StripRight(a, TrimSet)
  {
    var g := FindLastNotOf(a, TrimSet);
    var r := StripRight(a, TrimSet);
    if g == NPOS {
      assert |r| == 0;
    } else {
      assert |r| == g + 1;
    }
  }

  /** `static_cast<size_t>(min_chars)`, the conversion the comparison
      `sentence.size() >= min_chars` applies to its `int` side. */
  function SizeT(m: Int32): (r: nat)
    ensures r < SIZE_T_MOD && (r - m) % SIZE_T_MOD == 0
  {
    if m >= 0 then m else m + SIZE_T_MOD
  }

  /** The filter of `process_text`. */
  predicate Keep(t: ByteString, minChars: Int32)
  {
    AllAscii(t) && |t| >= SizeT(minChars)
  }

  /** `split_punctuation` on a `std::string`; each piece is a `std::string` too. */
  function SplitPunctuation(s: CppString): (r: seq<CppString>)
    ensures r == Pieces(s, Terms)
  {
    PiecesWithin(s);
    Pieces(s, Terms)
  }

  /** The split of a byte string, read as characters, is the same split. */
  lemma {:induction false} ScanAsChars(s: ByteString, terms: set<Byte>)
    ensures ScanAll<Byte>(s, terms).closed == ScanAll<char>(s, terms).closed
    ensures ScanAll<Byte>(s, terms).current == ScanAll<char>(s, terms).current
  {
    if |s| > 0 {
      ScanAsChars(s[..|s| - 1], terms);
    }
  }

  lemma PiecesAsChars(s: ByteString)
    ensures Pieces<Byte>(s, Terms) == Pieces<char>(s, Terms)
  {
    ScanAsChars(s, Terms);
  }

  lemma PiecesWithin(s: ByteString)
    ensures forall i | 0 <= i < |Pieces(s, Terms)| :: |Pieces(s, Terms)[i]| <= |s|
  {
    PiecesLossless(s, Terms);
    forall i | 0 <= i < |Pieces(s, Terms)| ensures |Pieces(s, Terms)[i]| <= |s| {
      ConcatBound(Pieces(s, Terms), i);
    }
  }

  /** Every piece, trimmed. */
  function TrimAll(pieces: seq<CppString>): (r: seq<CppString>)
    ensures |r| == |pieces|
    ensures forall i | 0 <= i < |pieces| :: r[i] == Trim(pieces[i])
  {
    seq(|pieces|, i requires 0 <= i < |pieces| => Trim(pieces[i]))
  }

  /** The trimmed sentences that pass the filter, in order. */
  function Kept(trimmed: seq<ByteString>, minChars: Int32): (r: seq<ByteString>)
    ensures |r| <= |trimmed|
  {
    if |trimmed| == 0 then []
    else
      var t := trimmed[|trimmed| - 1];
      Kept(trimmed[..|trimmed| - 1], minChars) + (if Keep(t, minChars) then [t] else [])
  }

  /** The sentences one call of `process_text` adds. */
  function NewSentences(c: CleanText): seq<ByteString>
  {
    Kept(TrimAll(SplitPunctuation(c.rawText)), c.minChars)
  }

  /** The object after `process_text`: appends, resets nothing. */
  function AfterProcess(c: CleanText): (r: CleanText)
  {
    var k := NewSentences(c);
    c.(sentences := c.sentences + k, cleanedText := c.cleanedText + Concat(k), numSentences := c.numSentences + |k|)
  }

  /** One iteration of `process_text` on an already trimmed sentence. */
  function Absorb(c: CleanText, t: CppString): (r: CleanText)
  {
    if Keep(t, c.minChars)
    then c.(sentences := c.sentences + [t], cleanedText := c.cleanedText + t, numSentences := c.numSentences + 1)
    else c
  }

  /** The iterations over a sequence of trimmed sentences. */
  function AbsorbAll(c: CleanText, trimmed: seq<CppString>): (r: CleanText)
  {
    if |trimmed| == 0 then c else Absorb(AbsorbAll(c, trimmed[..|trimmed| - 1]), trimmed[|trimmed| - 1])
  }

  /** The iterations append exactly the kept sentences to each accumulator. */
  lemma {:induction false} AbsorbAllAppends(c: CleanText, trimmed: seq<CppString>)
    ensures AbsorbAll(c, trimmed) == c.(sentences := c.sentences + Kept(trimmed, c.minChars),
                                        cleanedText := c.cleanedText + Concat(Kept(trimmed, c.minChars)),
                                        numSentences := c.numSentences + |Kept(trimmed, c.minChars)|)
  {
    if |trimmed| > 0 {
      var init, t := trimmed[..|trimmed| - 1], trimmed[|trimmed| - 1];
      AbsorbAllAppends(c, init);
      var k := Kept(init, c.minChars);
      assert trimmed == init + [t];
      KeptSnoc(init, t, c.minChars);
      var c' := AbsorbAll(c, init);
      assert AbsorbAll(c, trimmed) == Absorb(c', t);
      if Keep(t, c.minChars) {
        assert Kept(trimmed, c.minChars) == k + [t];
        assert c.sentences + (k + [t]) == (c.sentences + k) + [t];
        ConcatAppend(k, t);
        assert c.cleanedText + (Concat(k) + t) == (c.cleanedText + Concat(k)) + t;
      } else {
        assert Kept(trimmed, c.minChars) == k;
      }
    }
  }

  /** `process_text` itself, a loop over the pieces of the raw text. */
  method ProcessText(c: CleanText) returns (r: CleanText)
    ensures r == AfterProcess(c)
  {
    var pieces := SplitPunctuation(c.rawText);
    ghost var trimmed := TrimAll(pieces);
    r := c;
    for i := 0 to |pieces|
      invariant r == AbsorbAll(c, trimmed[..i])
    {
      r := ProcessPiece(r, pieces[i]);
      assert trimmed[..i + 1][..i] == trimmed[..i];
    }
    assert trimmed[..|pieces|] == trimmed;
    AbsorbAllAppends(c, trimmed);
  }

  /** The body of the loop: trim one piece, test it, and keep it if it passes. */
  method ProcessPiece(c: CleanText, piece: CppString) returns (r: CleanText)
    ensures r == Absorb(c, Trim(piece))
  {
    var sentence := Trim(piece);
    var ascii := IsAsciiOnly(sentence);
    r := c;
    if ascii && |sentence| >= SizeT(c.minChars) {
      r := c.(sentences := c.sentences + [sentence], cleanedText := c.cleanedText + sentence, numSentences := c.numSentences + 1);
    }
  }

  lemma KeptSnoc(trimmed: seq<ByteString>, t: ByteString, minChars: Int32)
    ensures Kept(trimmed + [t], minChars) == Kept(trimmed, minChars) + (if Keep(t, minChars) then [t] else [])
  {
    assert (trimmed + [t])[..|trimmed|] == trimmed;
  }

  /** A sentence is kept exactly when it is one of the trimmed pieces and passes the
      ASCII and length filter. */
  lemma {:induction false} KeptMembership(trimmed: seq<ByteString>, minChars: Int32, x: ByteString)
    ensures x in Kept(trimmed, minChars) <==> x in trimmed && Keep(x, minChars)
  {
    if |trimmed| > 0 {
      KeptMembership(trimmed[..|trimmed| - 1], minChars, x);
      assert trimmed == trimmed[..|trimmed| - 1] + [trimmed[|trimmed| - 1]];
    }
  }

  /** The filter keeps order: the sentences of consecutive stretches of pieces follow
      one another. */
  lemma {:induction false} KeptAppend(a: seq<ByteString>, b: seq<ByteString>, minChars: Int32)
    ensures Kept(a + b, minChars) == Kept(a, minChars) + Kept(b, minChars)
    decreases |b|
  {
    if |b| == 0 {
      assert a + b == a;
    } else {
      assert (a + b)[..|a + b| - 1] == a + b[..|b| - 1];
      KeptAppend(a, b[..|b| - 1], minChars);
    }
  }

  /** `process_text` keeps the accumulators consistent, and a second call appends the
      same sentences again. */
  lemma ProcessConsistent(c: CleanText)
    requires Consistent(c)
    ensures Consistent(AfterProcess(c))
    ensures AfterProcess(AfterProcess(c)).sentences == c.sentences + NewSentences(c) + NewSentences(c)
  {
    ConcatSplit(c.sentences, NewSentences(c));
  }

  /** A negative `min_chars` converts to a huge `size_t` no sentence reaches, so nothing
      is kept. */
  lemma {:induction false} NegativeMinKeepsNothing(trimmed: seq<ByteString>, minChars: Int32)
    requires minChars < 0
    requires forall i | 0 <= i < |trimmed| :: |trimmed[i]| < SIZE_T_MOD - 0x8000_0000
    ensures Kept(trimmed, minChars) == []
  {
    if |trimmed| > 0 {
      NegativeMinKeepsNothing(trimmed[..|trimmed| - 1], minChars);
    }
  }

  /** With `min_chars == 0` a piece made only of blanks survives, as an empty sentence. */
  lemma ZeroMinKeepsEmpty(pieces: seq<CppString>, i: nat)
    requires i < |pieces| && AllBlank(pieces[i], TrimSet)
    ensures "" in Kept(TrimAll(pieces), 0)
  {
    TrimIsStrip(pieces[i]);
    assert TrimAll(pieces)[i] == [];
    KeptMembership(TrimAll(pieces), 0, []);
  }

  /** `get_sentenes`: both branches give the kept sentences (an empty vector when there
      are none). */
  function GetSentenes(c: CleanText): (r: seq<ByteString>)
    ensures r == c.sentences
  {
    if |c.sentences| <= 0 then [] else c.sentences
  }

  /** `get_sentence_count`. */
  function GetSentenceCount(c: CleanText): (r: int)
    requires Consistent(c)
    ensures r == |GetSentenes(c)|
  {
    c.numSentences
  }
}

=== FILE: split.dfy ===
/** The sentence splitter shared by both text cleaners: a left-to-right scan that adds
    every element to the current piece and closes the piece after a terminator, with
    the unterminated remainder as a last piece. */
module Split {
  import opened Seqs

  /** The pieces closed so far and the piece being built. */
  datatype Scan<T> = Scan(closed: seq<seq<T>>, current: seq<T>)

  function Step<T(==)>(st: Scan<T>, c: T, terms: set<T>): Scan<T>
  {
    var cur := st.current + [c];
    if c in terms then Scan(st.closed + [cur], []) else Scan(st.closed, cur)
  }

  function ScanAll<T(==)>(s: seq<T>, terms: set<T>): Scan<T>
  {
    if |s| == 0 then Scan([], []) else Step(ScanAll(s[..|s| - 1], terms), s[|s| - 1], terms)
  }

  /** `split_punctuation`: the closed pieces, then the remainder when it is non-empty. */
  function Pieces<T(==)>(s: seq<T>, terms: set<T>): seq<seq<T>>
  {
    var st := ScanAll(s, terms);
    if |st.current| > 0 then st.closed + [st.current] else st.closed
  }

  predicate NoTerm<T(==)>(s: seq<T>, terms: set<T>)
  {
    forall i | 0 <= i < |s| :: s[i] !in terms
  }

  /** A closed piece: non-empty, ending in a terminator, with no terminator before it. */
  predicate IsClosed<T(==)>(p: seq<T>, terms: set<T>)
  {
    |p| > 0 && p[|p| - 1] in terms && NoTerm(p[..|p| - 1], terms)
  }

  /** The shape of a split: every piece but the last is closed; the last is closed or a
      non-empty remainder without terminators. */
  predicate WellSplit<T(==)>(ps: seq<seq<T>>, terms: set<T>)
  {
    && (forall i | 0 <= i < |ps| - 1 :: IsClosed(ps[i], terms))
    && (|ps| > 0 ==> IsClosed(ps[|ps| - 1], terms) || (|ps[|ps| - 1]| > 0 && NoTerm(ps[|ps| - 1], terms)))
  }

  /** How many elements of `s` are terminators. */
  function CountTerms<T(==)>(s: seq<T>, terms: set<T>): nat
  {
    if |s| == 0 then 0 else CountTerms(s[..|s| - 1], terms) + (if s[|s| - 1] in terms then 1 else 0)
  }

  /** The closed pieces and the current piece together are the input so far. */
  lemma {:induction false} ScanConcat<T>(s: seq<T>, terms: set<T>)
    ensures Concat(ScanAll(s, terms).closed) + ScanAll(s, terms).current == s
  {
    if |s| > 0 {
      var s', c := s[..|s| - 1], s[|s| - 1];
      ScanConcat(s', terms);
      var st' := ScanAll(s', terms);
      var cur := st'.current + [c];
      var x := Concat(st'.closed);
      assert x + cur == s by {
        assert s == s' + [c];
        assert x + (st'.current + [c]) == (x + st'.current) + [c];
      }
      if c in terms {
        ConcatAppend(st'.closed, cur);
        assert ScanAll(s, terms) == Scan(st'.closed + [cur], []);
      } else {
        assert ScanAll(s, terms) == Scan(st'.closed, cur);
      }
    }
  }

  /** Every closed piece is closed, and the current piece holds no terminator and is
      empty exactly after a terminator. */
  lemma {:induction false} ScanShape<T>(s: seq<T>, terms: set<T>)
    ensures forall i | 0 <= i < |ScanAll(s, terms).closed| :: IsClosed(ScanAll(s, terms).closed[i], terms)
    ensures NoTerm(ScanAll(s, terms).current, terms)
    ensures |ScanAll(s, terms).current| == 0 <==> |s| == 0 || s[|s| - 1] in terms
  {
    if |s| > 0 {
      var s', c := s[..|s| - 1], s[|s| - 1];
      ScanShape(s', terms);
      var st' := ScanAll(s', terms);
      var cur := st'.current + [c];
      assert cur[..|cur| - 1] == st'.current;
    }
  }

  /** One closed piece per terminator. */
  lemma {:induction false} ScanCount<T>(s: seq<T>, terms: set<T>)
    ensures |ScanAll(s, terms).closed| == CountTerms(s, terms)
  {
    if |s| > 0 {
      ScanCount(s[..|s| - 1], terms);
    }
  }

  /** `split_punctuation` loses nothing: the pieces concatenate back to the input. */
  lemma {:induction false} PiecesLossless<T>(s: seq<T>, terms: set<T>)
    ensures Concat(Pieces(s, terms)) == s
  {
    ScanConcat(s, terms);
    var st := ScanAll(s, terms);
    if |st.current| > 0 {
      ConcatAppend(st.closed, st.current);
    }
  }

  /** Every piece is non-empty, every piece but the last ends in its only terminator,
      and there is one piece per terminator plus one for a trailing remainder. */
  lemma {:induction false} PiecesShape<T>(s: seq<T>, terms: set<T>)
    ensures WellSplit(Pieces(s, terms), terms)
    ensures forall i | 0 <= i < |Pieces(s, terms)| :: |Pieces(s, terms)[i]| > 0
    ensures |Pieces(s, terms)| == CountTerms(s, terms) + (if |s| > 0 && s[|s| - 1] !in terms then 1 else 0)
  {
    ScanShape(s, terms);
    ScanCount(s, terms);
  }

  /** The start of the last piece of a well-formed split is determined by the text
      alone: right after a terminator (or at 0), with no terminator until the end. */
  lemma {:induction false} LastPieceStart<T>(ps: seq<seq<T>>, terms: set<T>)
    requires WellSplit(ps, terms) && |ps| > 0
    ensures var s, k := Concat(ps), |Concat(ps[..|ps| - 1])|;
      && k < |s| && s[k..] == ps[|ps| - 1] && s[..k] == Concat(ps[..|ps| - 1])
      && TailStart(s, k, terms)
  {
    var init, last := ps[..|ps| - 1], ps[|ps| - 1];
    assert ps == init + [last];
    ConcatAppend(init, last);
    var s, k := Concat(ps), |Concat(init)|;
    assert s[k..] == last;
    if k > 0 {
      assert |init| > 0;
      var p := init[|init| - 1];
      assert init == init[..|init| - 1] + [p];
      ConcatAppend(init[..|init| - 1], p);
      assert IsClosed(p, terms);
      assert s[k - 1] == p[|p| - 1];
    }
    forall j | k <= j < |s| - 1 ensures s[j] !in terms {
      assert s[j] == last[..|last| - 1][j - k];
    }
  }

  /** Removing the last piece of a well-formed split leaves closed pieces only. */
  lemma {:induction false} WellSplitInit<T>(ps: seq<seq<T>>, terms: set<T>)
    requires WellSplit(ps, terms) && |ps| > 0
    ensures WellSplit(ps[..|ps| - 1], terms)
    ensures forall i | 0 <= i < |ps| - 1 :: IsClosed(ps[i], terms)
  {
  }

  /** `k` starts a non-empty tail of `s` that follows a terminator (or the start) and
      has no terminator before its last element. */
  predicate TailStart<T(==)>(s: seq<T>, k: nat, terms: set<T>)
  {
    && k < |s|
    && (k == 0 || s[k - 1] in terms)
    && forall j | k <= j < |s| - 1 :: s[j] !in terms
  }

  /** Where such a tail begins is fixed by the text. */
  lemma {:induction false} TailStartUnique<T>(s: seq<T>, k: nat, l: nat, terms: set<T>)
    requires TailStart(s, k, terms) && TailStart(s, l, terms)
    ensures k == l
  {
  }

  /** Two non-empty well-formed splits of the same text end in the same piece, after
      the same text. */
  lemma {:induction false} SameLastPiece<T>(ps: seq<seq<T>>, qs: seq<seq<T>>, terms: set<T>)
    requires WellSplit(ps, terms) && WellSplit(qs, terms) && Concat(ps) == Concat(qs)
    requires |ps| > 0 && |qs| > 0
    ensures ps[|ps| - 1] == qs[|qs| - 1]
    ensures Concat(ps[..|ps| - 1]) == Concat(qs[..|qs| - 1])
  {
    var s := Concat(ps);
    var k, l := |Concat(ps[..|ps| - 1])|, |Concat(qs[..|qs| - 1])|;
    LastPieceStart(ps, terms);
    LastPieceStart(qs, terms);
    TailStartUnique(s, k, l, terms);
    assert ps[|ps| - 1] == s[k..];
    assert Concat(ps[..|ps| - 1]) == s[..k];
  }

  /** Two well-formed splits of the same text are the same split. */
  lemma {:induction false} WellSplitUnique<T>(ps: seq<seq<T>>, qs: seq<seq<T>>, terms: set<T>)
    requires WellSplit(ps, terms) && WellSplit(qs, terms) && Concat(ps) == Concat(qs)
    ensures ps == qs
    decreases |ps| + |qs|
  {
    if |ps| == 0 && |qs| > 0 {
      LastPieceStart(qs, terms);
    } else if |ps| > 0 && |qs| == 0 {
      LastPieceStart(ps, terms);
    } else if |ps| > 0 {
      SameLastPiece(ps, qs, terms);
      WellSplitInit(ps, terms);
      WellSplitInit(qs, terms);
      WellSplitUnique(ps[..|ps| - 1], qs[..|qs| - 1], terms);
      assert ps == ps[..|ps| - 1] + [ps[|ps| - 1]];
      assert qs == qs[..|qs| - 1] + [qs[|qs| - 1]];
    }
  }

  /** `Pieces` is the one well-formed split of its input: any split with the shape
      `split_punctuation` promises and the same concatenation is exactly its result. */
  lemma {:induction false} PiecesCharacterised<T>(s: seq<T>, ps: seq<seq<T>>, terms: set<T>)
    requires WellSplit(ps, terms) && Concat(ps) == s
    ensures Pieces(s, terms) == ps
  {
    PiecesLossless(s, terms);
    PiecesShape(s, terms);
    WellSplitUnique(Pieces(s, terms), ps, terms);
  }

  /** Scanning a closed piece followed by more text closes that piece first. */
  lemma {:induction false} ScanAfterClosed<T>(a: seq<T>, b: seq<T>, terms: set<T>)
    requires IsClosed(a, terms)
    ensures ScanAll(a + b, terms) == Scan([a] + ScanAll(b, terms).closed, ScanAll(b, terms).current)
  {
    if |b| == 0 {
      ScanClosedPiece(a, terms);
      assert a + b == a;
    } else {
      var b', c := b[..|b| - 1], b[|b| - 1];
      ScanAfterClosed(a, b', terms);
      assert (a + b)[..|a + b| - 1] == a + b';
      assert (a + b)[|a + b| - 1] == c;
      var x := ScanAll(b', terms);
      assert ScanAll(b, terms) == Step(x, c, terms);
      if c in terms {
        assert [a] + x.closed + [x.current + [c]] == [a] + (x.closed + [x.current + [c]]);
      }
    }
  }

  /** A closed piece scanned alone is closed as one piece. */
  lemma ScanClosedPiece<T>(a: seq<T>, terms: set<T>)
    requires IsClosed(a, terms)
    ensures ScanAll(a, terms) == Scan([a], [])
  {
    var a' := a[..|a| - 1];
    ScanNoTerm(a', terms);
    assert ScanAll(a, terms) == Step(ScanAll(a', terms), a[|a| - 1], terms);
    assert a' + [a[|a| - 1]] == a;
  }

  /** Without terminators the scan closes nothing and carries the whole input. */
  lemma {:induction false} ScanNoTerm<T>(s: seq<T>, terms: set<T>)
    requires NoTerm(s, terms)
    ensures ScanAll(s, terms) == Scan([], s)
  {
    if |s| > 0 {
      var s', c := s[..|s| - 1], s[|s| - 1];
      assert NoTerm(s', terms) by {
        forall i | 0 <= i < |s'| ensures s'[i] !in terms {
          assert s'[i] == s[i];
        }
      }
      ScanNoTerm(s', terms);
      assert c !in terms;
      assert ScanAll(s, terms) == Step(Scan([], s'), c, terms);
      assert s' + [c] == s;
    }
  }
}

=== FILE: text_extract.dfy ===
/** `Doc::extract_text` (text_extract.cpp): the sentences of a PDF, found page by page
    with the regular expression `[^.!?]+[.!?]`, trimmed, filtered and accumulated. The
    PDF library is replaced by what it hands over: a failed load, or the pages, each
    null or holding its text as Latin-1 bytes. */
module TextExtract {
  import opened Outcomes
  import opened Seqs
  import opened Bytes
  import opened Split
  import opened Blanks

  /** The class `[.!?]` of the sentence regex. */
  const Terms: set<char> := {'.', '!', '?'}

  /** `\s` of `std::regex` in the "C" locale: space, tab, newline, vertical tab, form
      feed, carriage return. */
  predicate IsRegexSpace(c: char)
  {
    c == ' ' || c == '\t' || c == '\n' || c == '\U{0B}' || c == '\U{0C}' || c == '\r'
  }

  /** The same class as a set, for the stripping reference. */
  const RegexSpace: iset<char> := iset c | IsRegexSpace(c)

  /** The shortest trimmed candidate the filter accepts. */
  const MinLength: nat := 30

  // ---------------------------------------------------------------------------------
  // The regex search

  /** Where the greedy `[^.!?]*` at the front of `s` stops: at the first terminator, or
      at the end. */
  function RunEnd(s: string): (k: nat)
    ensures k <= |s|
  {
    if |s| == 0 || s[0] in Terms then 0 else 1 + RunEnd(s[1..])
  }

  lemma {:induction false} RunEndStops(s: string)
    ensures NoTerm(s[..RunEnd(s)], Terms)
    ensures RunEnd(s) < |s| ==> s[RunEnd(s)] in Terms
  {
    if |s| > 0 && s[0] !in Terms {
      RunEndStops(s[1..]);
      var k := RunEnd(s);
      forall i | 0 <= i < k ensures s[..k][i] !in Terms {
        if i > 0 {
          assert s[..k][i] == s[1..][..k - 1][i - 1];
        }
      }
    }
  }

  /** The length of the match of `[^.!?]+[.!?]` anchored at the front of `s`. A shorter
      run would have to stop at a terminator before the first one, so backtracking finds
      no other match than the greedy one. */
  function MatchLen(s: string): (r: Option<nat>)
    ensures r.Some? ==> 2 <= r.value <= |s|
  {
    var k := RunEnd(s);
    if 0 < k < |s| then Some(k + 1) else None
  }

  /** A match is a closed piece; there is none exactly when `s` is empty, starts with
      a terminator or holds none. */
  lemma MatchLenIsMatch(s: string)
    ensures MatchLen(s).Some? ==> IsClosed(s[..MatchLen(s).value], Terms)
    ensures MatchLen(s).None? <==> |s| == 0 || s[0] in Terms || NoTerm(s, Terms)
  {
    var k := RunEnd(s);
    RunEndStops(s);
    if 0 < k < |s| {
      assert s[..k + 1][..k] == s[..k];
      assert s[k] in s[..k + 1][..k + 1];
      assert !NoTerm(s, Terms);
    } else if k == |s| {
      assert s[..k] == s;
    }
  }

  /** The leftmost match in `s`, as its start and end: try the front, else search on
      from the next position. */
  function Search(s: string): (r: Option<Span>)
    ensures r.Some? ==> r.value.start + 2 <= r.value.end <= |s|
  {
    if |s| == 0 then None
    else if MatchLen(s).Some? then Some(Span(0, MatchLen(s).value))
    else
      var rest := Search(s[1..]);
      if rest.None? then None else Some(Span(rest.value.start + 1, rest.value.end + 1))
  }

  /** Where a match starts and ends. */
  datatype Span = Span(start: nat, end: nat)

  /** `Search` finds a match of the regex, and no match starts before it; when it finds
      none, no position starts a match. */
  lemma {:induction false} SearchLeftmost(s: string)
    ensures Search(s).Some? ==>
      var Span(b, e) := Search(s).value;
      MatchLen(s[b..]).Some? && MatchLen(s[b..]).value == e - b
      && forall i | 0 <= i < b :: MatchLen(s[i..]).None?
    ensures Search(s).None? ==> forall i | 0 <= i <= |s| :: MatchLen(s[i..]).None?
  {
    if |s| == 0 {
      assert s[0..] == s;
    } else if MatchLen(s).Some? {
      assert s[0..] == s;
    } else {
      var t := s[1..];
      SearchLeftmost(t);
      forall i | 1 <= i <= |s| ensures s[i..] == t[i - 1..] {
      }
      assert s[0..] == s;
      if Search(t).Some? {
        var b, e := Search(t).value.start, Search(t).value.end;
        SearchDrop(s, b, e);
        assert s[b + 1..] == t[b..];
      }
    }
  }

  /** `sregex_iterator`: the matches in order. A match at the front is taken and the
      scan resumes where it ended; otherwise the scan moves on by one character. */
  function Candidates(s: string): (r: seq<string>)
    ensures forall i | 0 <= i < |r| :: 2 <= |r[i]|
    decreases |s|
  {
    if |s| == 0 then []
    else match MatchLen(s)
      case Some(n) => [s[..n]] + Candidates(s[n..])
      case None => Candidates(s[1..])
  }

  /** The candidates are what repeated `regex_search` finds: the leftmost match, then the
      candidates of the text after it. */
  lemma {:induction false} CandidatesIterateSearch(s: string)
    ensures Search(s).None? ==> Candidates(s) == []
    ensures Search(s).Some? ==>
      Candidates(s) == [s[Search(s).value.start..Search(s).value.end]] + Candidates(s[Search(s).value.end..])
    decreases |s|
  {
    if |s| > 0 {
      if MatchLen(s).Some? {
        CandidatesTake(s, MatchLen(s).value);
        assert s[0..MatchLen(s).value] == s[..MatchLen(s).value];
      } else {
        CandidatesIterateSearch(s[1..]);
        if Search(s[1..]).None? {
          SkipToNone(s);
        } else {
          SkipToSome(s, Search(s[1..]).value.start, Search(s[1..]).value.end);
        }
      }
    }
  }

  /** No match at the front and none after it: no candidates. */
  lemma SkipToNone(s: string)
    requires |s| > 0 && MatchLen(s).None? && Search(s[1..]).None? && Candidates(s[1..]) == []
    ensures Search(s).None? && Candidates(s) == []
  {
  }

  /** No match at the front: the leftmost match after it, moved on by one. */
  lemma SkipToSome(s: string, b: nat, e: nat)
    requires |s| > 0 && MatchLen(s).None? && Found(Search(s[1..]), b, e)
    requires Candidates(s[1..]) == [s[1..][b..e]] + Candidates(s[1..][e..])
    ensures Found(Search(s), b + 1, e + 1) && Candidates(s) == [s[b + 1..e + 1]] + Candidates(s[e + 1..])
  {
    var t := s[1..];
    SearchDrop(s, b, e);
    CandidatesDrop(s);
    SliceShift(s, b, e);
    var piece, after := t[b..e], t[e..];
    assert Candidates(s) == [piece] + Candidates(after);
    assert piece == s[b + 1..e + 1] && after == s[e + 1..];
  }

  /** The search found the match from `b` to `e`. */
  predicate Found(r: Option<Span>, b: nat, e: nat)
  {
    r.Some? && r.value.start == b && r.value.end == e
  }

  lemma SliceShift(s: string, b: nat, e: nat)
    requires b <= e < |s|
    ensures s[b + 1..e + 1] == s[1..][b..e] && s[e + 1..] == s[1..][e..]
  {
    var t := s[1..];
    assert forall i | 0 <= i < e - b :: s[b + 1..e + 1][i] == s[b + 1 + i] == t[b..e][i];
    assert forall i | 0 <= i < |s| - e - 1 :: s[e + 1..][i] == s[e + 1 + i] == t[e..][i];
  }

  lemma CandidatesTake(s: string, n: nat)
    requires |s| > 0 && MatchLen(s) == Some(n)
    ensures Candidates(s) == [s[..n]] + Candidates(s[n..])
  {
  }

  lemma SearchDrop(s: string, b: nat, e: nat)
    requires |s| > 0 && MatchLen(s).None? && Found(Search(s[1..]), b, e)
    ensures Found(Search(s), b + 1, e + 1)
  {
  }

  lemma CandidatesDrop(s: string)
    requires |s| > 0 && MatchLen(s).None?
    ensures Candidates(s) == Candidates(s[1..])
  {
  }

  lemma MatchLenFront(s: string)
    ensures MatchLen(s) == if 0 < RunEnd(s) < |s| then Some(RunEnd(s) + 1) else None
  {
  }

  predicate Long(p: string)
  {
    |p| >= 2
  }

  /** Without a terminator there is no match. */
  lemma {:induction false} NoTermNoCandidates(s: string)
    requires NoTerm(s, Terms)
    ensures Search(s).None? && Candidates(s) == []
  {
    if |s| > 0 {
      MatchLenIsMatch(s);
      assert NoTerm(s[1..], Terms) by {
        forall i | 0 <= i < |s[1..]| ensures s[1..][i] !in Terms {
          assert s[1..][i] == s[i + 1];
        }
      }
      NoTermNoCandidates(s[1..]);
    }
  }

  /** The candidates are the closed pieces of the sentence splitter that hold more than
      the terminator: the text after the last terminator, and a terminator right after
      another one (or at the start), give none. */
  lemma {:induction false} CandidatesArePieces(s: string)
    ensures Candidates(s) == Filter(Long, ScanAll(s, Terms).closed)
    decreases |s|
  {
    var k := RunEnd(s);
    RunEndStops(s);
    if k == |s| {
      assert s[..k] == s;
      NoTermNoCandidates(s);
      ScanNoTerm(s, Terms);
    } else {
      var p, rest := s[..k + 1], s[k + 1..];
      assert IsClosed(p, Terms) by {
        assert p[..k] == s[..k];
      }
      assert s == p + rest;
      ScanAfterClosed(p, rest, Terms);
      CandidatesArePieces(rest);
      FilterConcat(Long, [p], ScanAll(rest, Terms).closed);
      CandidatesFront(s);
    }
  }

  /** Where the first terminator ends the front piece, the candidates are that piece
      when it is long, then those of the rest. */
  lemma CandidatesFront(s: string)
    requires RunEnd(s) < |s|
    ensures Candidates(s) == Filter(Long, [s[..RunEnd(s) + 1]]) + Candidates(s[RunEnd(s) + 1..])
  {
    FilterOne(Long, s[..RunEnd(s) + 1]);
    MatchLenFront(s);
    if RunEnd(s) == 0 {
      CandidatesDrop(s);
      EmptyPrefix(Candidates(s[RunEnd(s) + 1..]));
    } else {
      CandidatesTake(s, RunEnd(s) + 1);
    }
  }



  // ---------------------------------------------------------------------------------
  // Trimming and filtering one candidate

  /** `regex_replace(curr, regex("^\\s+|\\s+$"), "")`: the leading run and the trailing
      run of blanks removed. */
  function RegexTrim(s: string): string
  {
    TrimTrailing(TrimLeading(s))
  }

  /** What `^\s+` leaves: the text after the leading run of blanks. */
  function TrimLeading(s: string): string
  {
    if |s| > 0 && IsRegexSpace(s[0]) then TrimLeading(s[1..]) else s
  }

  /** What `\s+$` leaves: the text before the trailing run of blanks. */
  function TrimTrailing(s: string): string
  {
    if |s| > 0 && IsRegexSpace(s[|s| - 1]) then TrimTrailing(s[..|s| - 1]) else s
  }

  lemma {:induction false} TrimLeadingIsStripLeft(s: string)
    ensures TrimLeading(s) == StripLeft(s, RegexSpace)
  {
    if |s| > 0 && IsRegexSpace(s[0]) {
      TrimLeadingIsStripLeft(s[1..]);
    }
  }

  lemma {:induction false} TrimTrailingIsStripRight(s: string)
    ensures TrimTrailing(s) == StripRight(s, RegexSpace)
  {
    if |s| > 0 && IsRegexSpace(s[|s| - 1]) {
      TrimTrailingIsStripRight(s[..|s| - 1]);
    }
  }

  /** Removing the two regex matches is stripping the `\s` class from both ends. */
  lemma RegexTrimIsStrip(s: string)
    ensures RegexTrim(s) == Strip(s, RegexSpace)
  {
    TrimLeadingIsStripLeft(s);
    TrimTrailingIsStripRight(StripLeft(s, RegexSpace));
  }

  predicate NoParens(s: string)
  {
    forall i | 0 <= i < |s| :: s[i] != '(' && s[i] != ')'
  }

  /** The tests a trimmed candidate passes before it is stored: ASCII, long enough, no
      parenthesis, and (always true by then) not empty. */
  predicate Accepted(t: string)
  {
    AllAscii(t) && |t| >= MinLength && NoParens(t) && |t| > 0
  }

  /** `find('\n')`. */
  function FindNewline(s: string): (r: Option<nat>)
    ensures r.Some? ==> r.value < |s| && s[r.value] == '\n'
  {
    if |s| == 0 then None
    else if s[0] == '\n' then Some(0)
    else
      var r := FindNewline(s[1..]);
      if r.None? then None else Some(r.value + 1)
  }

  /** `find` gives the first newline, and nothing only when there is none. */
  lemma {:induction false} FindNewlineFirst(s: string)
    ensures FindNewline(s).Some? ==> forall i | 0 <= i < FindNewline(s).value :: s[i] != '\n'
    ensures FindNewline(s).None? <==> forall i | 0 <= i < |s| :: s[i] != '\n'
  {
    if |s| > 0 && s[0] != '\n' {
      FindNewlineFirst(s[1..]);
      assert forall i | 1 <= i < |s| :: s[i] == s[1..][i - 1];
    }
  }

  /** `sentence.erase(pos, 1)` at the first newline, if there is one. */
  function EraseFirstNewline(s: string): (r: string)
    ensures |r| == |s| - (if FindNewline(s).Some? then 1 else 0)
  {
    match FindNewline(s)
    case None => s
    case Some(k) => s[..k] + s[k + 1..]
  }

  /** The characters before the erased newline stay in place and the ones after it
      move down by one. */
  lemma EraseShifts(s: string)
    requires FindNewline(s).Some?
    ensures var k, r := FindNewline(s).value, EraseFirstNewline(s);
      && (forall i | 0 <= i < k :: r[i] == s[i])
      && (forall i | k <= i < |r| :: r[i] == s[i + 1])
  {
  }

  /** How many times `c` occurs in `s`. */
  function Occurrences(s: string, c: char): nat
  {
    if |s| == 0 then 0 else Occurrences(s[..|s| - 1], c) + (if s[|s| - 1] == c then 1 else 0)
  }

  lemma {:induction false} OccurrencesAppend(a: string, b: string, c: char)
    ensures Occurrences(a + b, c) == Occurrences(a, c) + Occurrences(b, c)
    decreases |b|
  {
    if |b| == 0 {
      assert a + b == a;
    } else {
      OccurrencesAppend(a, b[..|b| - 1], c);
      assert (a + b)[..|a + b| - 1] == a + b[..|b| - 1];
    }
  }

  lemma {:induction false} NoOccurrences(s: string, c: char)
    requires forall i | 0 <= i < |s| :: s[i] != c
    ensures Occurrences(s, c) == 0
  {
    if |s| > 0 {
      NoOccurrences(s[..|s| - 1], c);
    }
  }

  /** Only the first newline is erased: every later one survives. */
  lemma OneNewlineErased(s: string)
    requires FindNewline(s).Some?
    ensures Occurrences(EraseFirstNewline(s), '\n') == Occurrences(s, '\n') - 1
  {
    var k := FindNewline(s).value;
    assert s == s[..k] + [s[k]] + s[k + 1..];
    OccurrencesAppend(s[..k] + [s[k]], s[k + 1..], '\n');
    OccurrencesAppend(s[..k], [s[k]], '\n');
    OccurrencesAppend(s[..k], s[k + 1..], '\n');
    assert [s[k]][..0] == [];
  }

  /** The sentence one candidate stores, if any. */
  function SentenceOf(candidate: string): seq<string>
  {
    var t := RegexTrim(candidate);
    if Accepted(t) then [EraseFirstNewline(t)] else []
  }

  /** What a stored sentence looks like: ASCII, no parenthesis, no blank at the front,
      ending in its terminator, and at least one character shorter than the filter's
      bound only when a newline was erased. */
  predicate Stored(x: string)
  {
    && AllAscii(x) && NoParens(x)
    && |x| >= MinLength - 1
    && !IsRegexSpace(x[0]) && x[|x| - 1] in Terms
  }

  lemma StoredShape(candidate: string)
    requires IsClosed(candidate, Terms)
    ensures forall x | x in SentenceOf(candidate) :: Stored(x)
    ensures forall x | x in SentenceOf(candidate) :: |x| >= MinLength || '\n' in RegexTrim(candidate)
  {
    var t := RegexTrim(candidate);
    if Accepted(t) {
      TrimmedEnds(candidate);
      ErasedStored(t);
    }
  }

  /** A trimmed closed candidate still ends in its terminator and starts with a
      non-blank. */
  lemma TrimmedEnds(candidate: string)
    requires IsClosed(candidate, Terms) && |RegexTrim(candidate)| > 0
    ensures var t := RegexTrim(candidate); t[|t| - 1] in Terms && !IsRegexSpace(t[0])
  {
    RegexTrimIsStrip(candidate);
    StripKeepsLast(candidate, RegexSpace);
  }

  /** Erasing the first newline of an accepted, trimmed sentence keeps its ends and
      its characters' properties. */
  lemma ErasedStored(t: string)
    requires Accepted(t) && t[|t| - 1] in Terms && !IsRegexSpace(t[0])
    ensures Stored(EraseFirstNewline(t))
    ensures |EraseFirstNewline(t)| >= MinLength || '\n' in t
  {
    var x := EraseFirstNewline(t);
    if FindNewline(t).Some? {
      var k := FindNewline(t).value;
      EraseShifts(t);
      assert 0 < k < |t| - 1;
      assert x[0] == t[0];
      assert x[|x| - 1] == t[|t| - 1];
      assert t[k] in t;
      forall i | 0 <= i < |x| ensures IsAscii(x[i]) && x[i] != '(' && x[i] != ')' {
        if i >= k {
          assert x[i] == t[i + 1];
        }
      }
    }
  }

  /** Thirty characters with a newline store a 29-character sentence: the length bound
      is checked before the newline goes. */
  lemma ShorterThanBound(t: string)
    requires Accepted(t) && |t| == MinLength && FindNewline(t).Some?
    ensures |EraseFirstNewline(t)| == MinLength - 1
  {
  }

  // ---------------------------------------------------------------------------------
  // Pages and the document

  /** What the PDF library gives for one page: nothing, or its text in Latin-1. */
  datatype Page = NullPage | PageText(latin1: ByteString)

  /** The sentences one page stores, in match order. */
  function PageSentences(raw: string): seq<string>
  {
    AcceptedOf(Candidates(raw))
  }

  /** The stored sentences of a sequence of candidates, in order. */
  function AcceptedOf(candidates: seq<string>): seq<string>
  {
    FlatMap(SentenceOf, candidates)
  }

  /** The sentences a page contributes: a null page or a page with no text is skipped. */
  function PageContribution(p: Page): seq<string>
  {
    match p
    case NullPage => []
    case PageText(raw) => if |raw| == 0 then [] else PageSentences(raw)
  }

  /** The sentences of the pages, page by page. */
  function DocSentences(pages: seq<Page>): seq<string>
  {
    FlatMap(PageContribution, pages)
  }

  /** The document text: every sentence followed by one space. */
  function Spaced(xs: seq<string>): string
  {
    if |xs| == 0 then [] else Spaced(xs[..|xs| - 1]) + xs[|xs| - 1] + " "
  }

  /** The text holds the sentences' characters and one space per sentence. */
  lemma {:induction false} SpacedLength(xs: seq<string>)
    ensures |Spaced(xs)| == |Concat(xs)| + |xs|
  {
    if |xs| > 0 {
      var init := xs[..|xs| - 1];
      SpacedLength(init);
      ConcatAppend(init, xs[|xs| - 1]);
      assert xs == init + [xs[|xs| - 1]];
    }
  }

  lemma {:induction false} SpacedAppend(a: seq<string>, b: seq<string>)
    ensures Spaced(a + b) == Spaced(a) + Spaced(b)
    decreases |b|
  {
    if |b| == 0 {
      assert a + b == a;
    } else {
      var b', last := b[..|b| - 1], b[|b| - 1];
      SpacedAppend(a, b');
      assert (a + b)[..|a + b| - 1] == a + b';
      assert (a + b)[|a + b| - 1] == last;
      var x, y := Spaced(a), Spaced(b');
      assert Spaced(a + b) == (x + y) + last + " ";
      assert Spaced(b) == y + last + " ";
      assert (x + y) + last + " " == x + (y + last + " ");
    }
  }

  /** One more element of a loop over pages or matches: its sentences go after the
      ones found so far, in the list and, spaced, in the text. */
  lemma AccumulateStep<A>(f: A -> seq<string>, xs: seq<A>, i: nat, text: string, sentences: seq<string>)
    requires i < |xs|
    ensures Spaced(FlatMap(f, xs[..i])) + Spaced(f(xs[i])) == Spaced(FlatMap(f, xs[..i + 1]))
    ensures text + Spaced(FlatMap(f, xs[..i])) + Spaced(f(xs[i])) == text + Spaced(FlatMap(f, xs[..i + 1]))
    ensures sentences + FlatMap(f, xs[..i]) + f(xs[i]) == sentences + FlatMap(f, xs[..i + 1])
  {
    FlatMapStep(f, xs, i);
    SpacedAppend(FlatMap(f, xs[..i]), f(xs[i]));
  }

  /** The object. `num_pages` holds whatever it held before a successful call (the
      constructor leaves it uninitialised). */
  datatype Doc = Doc(fileName: string, fileText: string, numPages: int, sentences: seq<string>)

  /** `extract_text`: on a failed load nothing changes; otherwise every page is counted,
      `file_text` becomes the spaced sentences of this call and the sentences are
      appended. */
  method ExtractText(d: Doc, file: string, loaded: Option<seq<Page>>) returns (r: Doc)
    ensures loaded.None? ==> r == d
    ensures loaded.Some? ==>
      var found := DocSentences(loaded.value);
      && r.fileName == file
      && r.numPages == |loaded.value|
      && r.sentences == d.sentences + found
      && r.fileText == Spaced(found)
  {
    if loaded.None? {
      return d;
    }
    var pages := loaded.value;
    var text: string := "";
    var sentences := d.sentences;
    for i := 0 to |pages|
      invariant sentences == d.sentences + DocSentences(pages[..i])
      invariant text == Spaced(DocSentences(pages[..i]))
    {
      text, sentences := ExtractPageOf(pages[i], text, sentences);
      AccumulateStep(PageContribution, pages, i, "", d.sentences);
    }
    assert pages[..|pages|] == pages;
    return Doc(file, text, |pages|, sentences);
  }

  /** One iteration of the page loop: a null page or a page without text is skipped. */
  method ExtractPageOf(page: Page, text: string, sentences: seq<string>) returns (text': string, sentences': seq<string>)
    ensures text' == text + Spaced(PageContribution(page))
    ensures sentences' == sentences + PageContribution(page)
  {
    match page
    case NullPage =>
      text', sentences' := text, sentences;
    case PageText(raw) =>
      if |raw| > 0 {
        text', sentences' := ExtractPage(raw, text, sentences);
      } else {
        text', sentences' := text, sentences;
      }
  }

  /** The inner loop of `extract_text` over the matches of one page. */
  method ExtractPage(raw: string, text: string, sentences: seq<string>) returns (text': string, sentences': seq<string>)
    ensures text' == text + Spaced(PageSentences(raw))
    ensures sentences' == sentences + PageSentences(raw)
  {
    var candidates := Candidates(raw);
    text', sentences' := text, sentences;
    for i := 0 to |candidates|
      invariant text' == text + Spaced(AcceptedOf(candidates[..i]))
      invariant sentences' == sentences + AcceptedOf(candidates[..i])
    {
      text', sentences' := ExtractCandidate(candidates[i], text', sentences');
      AccumulateStep(SentenceOf, candidates, i, text, sentences);
    }
    assert candidates[..|candidates|] == candidates;
  }

  /** One iteration of the match loop: trim, filter, erase the first newline, store. */
  method ExtractCandidate(candidate: string, text: string, sentences: seq<string>) returns (text': string, sentences': seq<string>)
    ensures text' == text + Spaced(SentenceOf(candidate))
    ensures sentences' == sentences + SentenceOf(candidate)
  {
    var sentence := RegexTrim(candidate);
    if Accepted(sentence) {
      sentence := EraseFirstNewline(sentence);
      text' := text + sentence + " ";
      sentences' := sentences + [sentence];
      assert [sentence][..0] == [];
    } else {
      text', sentences' := text, sentences;
    }
  }

  /** A null page adds nothing: the sentences are those of the pages before it and
      after it. */
  lemma NullPageAddsNothing(pages: seq<Page>, i: nat)
    requires i < |pages| && pages[i].NullPage?
    ensures DocSentences(pages) == DocSentences(pages[..i]) + DocSentences(pages[i + 1..])
  {
    FlatMapSkip(PageContribution, pages, i);
  }

  /** Every match is a closed piece: a run without terminators, then one terminator. */
  lemma CandidatesClosed(s: string)
    ensures forall i | 0 <= i < |Candidates(s)| :: IsClosed(Candidates(s)[i], Terms)
  {
    CandidatesArePieces(s);
    ScanShape(s, Terms);
    var closed := ScanAll(s, Terms).closed;
    forall i | 0 <= i < |Candidates(s)| ensures IsClosed(Candidates(s)[i], Terms) {
      var c := Candidates(s)[i];
      FilterMembership(Long, closed, c);
      var j :| 0 <= j < |closed| && closed[j] == c;
    }
  }

  /** Every sentence a document stores has the shape `Stored` describes. */
  lemma DocStored(pages: seq<Page>)
    ensures forall x | x in DocSentences(pages) :: Stored(x)
  {
    forall j | 0 <= j < |pages| ensures forall x | x in PageContribution(pages[j]) :: Stored(x) {
      if pages[j].PageText? && |pages[j].latin1| > 0 {
        PageStored(pages[j].latin1);
      }
    }
    FlatMapAll(PageContribution, pages, Stored);
  }

  lemma PageStored(raw: string)
    ensures forall x | x in PageSentences(raw) :: Stored(x)
  {
    var cs := Candidates(raw);
    CandidatesClosed(raw);
    forall j | 0 <= j < |cs| ensures forall x | x in SentenceOf(cs[j]) :: Stored(x) {
      StoredShape(cs[j]);
    }
    FlatMapAll(SentenceOf, cs, Stored);
  }
}

=== FILE: vectorize.dfy ===
/** The dictionary handling of `Vectorize` (data_analysis/vectorize.py): chunking every
    document and keying the chunk lists by the normalised title. */
module Vectorize {
  import opened Outcomes
  import opened Seqs
  import opened ODict
  import opened DateMatcher
  import opened Chunker

  /** A document of the input dictionary: its title and its text, already split into
      sentences. */
  datatype Document = Document(key: string, sentences: seq<Sentence>)

  function KeyedChunks(docs: seq<Document>, maxLen: int): seq<(string, seq<string>)>
  {
    seq(|docs|, i requires 0 <= i < |docs| => (MatchDate(docs[i].key), FlushedChunks(docs[i].sentences, maxLen)))
  }

  /** `__prepare_tokens` as a two-phase transform: a fresh dictionary filled in the input's
      iteration order, each document's chunks under its normalised title, its final
      buffer included. */
  function PrepareTokens(docs: seq<Document>, maxLen: int): (r: Dict<string, seq<string>>)
    ensures Valid(r)
  {
    FromPairsLastWins(KeyedChunks(docs, maxLen));
    FromPairs(KeyedChunks(docs, maxLen))
  }

  /** The output's keys are exactly the normalised titles, each once, and every key is
      already in normal form. */
  lemma PrepareTokensKeys(docs: seq<Document>, maxLen: int)
    ensures Valid(PrepareTokens(docs, maxLen))
    ensures forall k :: k in Keys(PrepareTokens(docs, maxLen)) <==>
      exists i | 0 <= i < |docs| :: MatchDate(docs[i].key) == k
    ensures forall k | k in Keys(PrepareTokens(docs, maxLen)) :: MatchDate(k) == k
  {
    var ps := KeyedChunks(docs, maxLen);
    FromPairsLastWins(ps);
    FromPairsKeys(ps);
    forall k
      ensures k in Keys(PrepareTokens(docs, maxLen)) <==> exists i | 0 <= i < |docs| :: MatchDate(docs[i].key) == k
      ensures k in Keys(PrepareTokens(docs, maxLen)) ==> MatchDate(k) == k
    {
      if k in Keys(PrepareTokens(docs, maxLen)) {
        var i :| 0 <= i < |ps| && ps[i].0 == k;
        assert MatchDate(docs[i].key) == k;
        MatchDateIdempotent(docs[i].key);
      }
      if exists i | 0 <= i < |docs| :: MatchDate(docs[i].key) == k {
        var i :| 0 <= i < |docs| && MatchDate(docs[i].key) == k;
        assert ps[i].0 == k;
      }
    }
  }

  /** Two documents whose titles normalise to the same key collide, and the later one's
      chunks win. */
  lemma PrepareTokensLastWins(docs: seq<Document>, maxLen: int, i: nat)
    requires i < |docs|
    requires forall j | i < j < |docs| :: MatchDate(docs[j].key) != MatchDate(docs[i].key)
    ensures Get(PrepareTokens(docs, maxLen), MatchDate(docs[i].key)) == Some(FlushedChunks(docs[i].sentences, maxLen))
  {
    var ps := KeyedChunks(docs, maxLen);
    FromPairsLastWins(ps);
    assert forall j | i < j < |ps| :: ps[j].0 != ps[i].0;
  }

  // ---------------------------------------------------------------------------
  // The code as written assigns the chunk list into the dictionary it is iterating.

  /** A value of the input dictionary: raw text (as its sentences) before the loop, a
      chunk list after the loop has assigned to its key. */
  datatype Entry = Raw(sentences: seq<Sentence>) | Chunked(chunks: seq<string>)

  /** `RuntimeError: dictionary changed size during iteration`, raised by the next step
      of `text.items()` once a new key was inserted; `TypeError` from `sent_tokenize`
      given a chunk list instead of a string. */
  datatype IterationError = SizeChanged | NotText

  /** The loop of lines 91-107 from position `i`, over a dictionary that had `size`
      entries when the iteration began. */
  function InPlaceFrom(d: Dict<string, Entry>, size: nat, i: nat, maxLen: int): (r: Result<Dict<string, Entry>, IterationError>)
    ensures r.Ok? ==> |r.value| == size
    decreases size - i
  {
    if |d| != size then Err(SizeChanged)
    else if i >= |d| then Ok(d)
    else match d[i].1
      case Chunked(_) => Err(NotText)
      case Raw(sents) => InPlaceFrom(Put(d, MatchDate(d[i].0), Chunked(Chunks(sents, maxLen))), size, i + 1, maxLen)
  }

  /** The loop of lines 91-107 over the whole dictionary. It can only complete when no
      entry was added along the way. */
  function PrepareTokensInPlace(d: Dict<string, Entry>, maxLen: int): (r: Result<Dict<string, Entry>, IterationError>)
    ensures r.Ok? ==> |r.value| == |d|
  {
    InPlaceFrom(d, |d|, 0, maxLen)
  }

  predicate AllRaw(d: Dict<string, Entry>)
  {
    forall i | 0 <= i < |d| :: d[i].1.Raw?
  }

  /** The first `i` entries already replaced by their chunks, the rest still raw. */
  function Processed(d: Dict<string, Entry>, i: nat, maxLen: int): Dict<string, Entry>
    requires AllRaw(d)
  {
    seq(|d|, j requires 0 <= j < |d| =>
      if j < i then (d[j].0, Chunked(Chunks(d[j].1.sentences, maxLen))) else d[j])
  }

  lemma ProcessedKeys(d: Dict<string, Entry>, i: nat, maxLen: int)
    requires AllRaw(d)
    ensures Keys(Processed(d, i, maxLen)) == Keys(d)
  {
    KeysIndex(d);
    KeysIndex(Processed(d, i, maxLen));
  }

  /** While every title met so far is already in normal form, the loop only overwrites
      values in place. */
  lemma {:induction false} InPlaceNormalisedPrefix(d: Dict<string, Entry>, i: nat, maxLen: int)
    requires Valid(d) && AllRaw(d) && i <= |d|
    requires forall j | 0 <= j < i :: MatchDate(d[j].0) == d[j].0
    ensures PrepareTokensInPlace(d, maxLen) == InPlaceFrom(Processed(d, i, maxLen), |d|, i, maxLen)
  {
    if i == 0 {
      assert Processed(d, 0, maxLen) == d;
    } else {
      InPlaceNormalisedPrefix(d, i - 1, maxLen);
      var p := Processed(d, i - 1, maxLen);
      ProcessedKeys(d, i - 1, maxLen);
      KeysIndex(d);
      KeysIndex(p);
      PutExisting(p, i - 1, Chunked(Chunks(d[i - 1].1.sentences, maxLen)));
      assert p[i - 1].0 == d[i - 1].0;
      assert p[i - 1 := (d[i - 1].0, Chunked(Chunks(d[i - 1].1.sentences, maxLen)))] == Processed(d, i, maxLen);
    }
  }

  /** When every title is already in normal form the in-place loop succeeds, each value
      replaced by the document's closed chunks. */
  lemma InPlaceAgreesWhenNormalised(d: Dict<string, Entry>, maxLen: int)
    requires Valid(d) && AllRaw(d)
    requires forall j | 0 <= j < |d| :: MatchDate(d[j].0) == d[j].0
    ensures PrepareTokensInPlace(d, maxLen) == Ok(Processed(d, |d|, maxLen))
  {
    InPlaceNormalisedPrefix(d, |d|, maxLen);
  }

  /** As soon as a title normalises to a key the dictionary does not hold yet, the
      assignment grows the dictionary and the iteration raises. */
  lemma InPlaceFailsOnNewKey(d: Dict<string, Entry>, i: nat, maxLen: int)
    requires Valid(d) && AllRaw(d) && i < |d|
    requires forall j | 0 <= j < i :: MatchDate(d[j].0) == d[j].0
    requires MatchDate(d[i].0) !in Keys(d)
    ensures PrepareTokensInPlace(d, maxLen) == Err(SizeChanged)
  {
    InPlaceNormalisedPrefix(d, i, maxLen);
    var p := Processed(d, i, maxLen);
    ProcessedKeys(d, i, maxLen);
    PutNew(p, MatchDate(d[i].0), Chunked(Chunks(d[i].1.sentences, maxLen)));
  }

  /** A one-document example, run through the code as written: its one title is not a
      date but contains one, so it normalises to a key the dictionary does not hold and
      the loop raises instead of returning. */
  lemma InPlaceExample()
    ensures var doc := [Sentence("Sentence one.", 2), Sentence("Sentence two.", 2), Sentence("Sentence three.", 2)];
      PrepareTokensInPlace([("Speech A 2023-01-10", Raw(doc))], 4) == Err(SizeChanged)
  {
    var doc := [Sentence("Sentence one.", 2), Sentence("Sentence two.", 2), Sentence("Sentence three.", 2)];
    var d := [("Speech A 2023-01-10", Raw(doc))];
    MatchDateExample();
    assert Keys(d) == ["Speech A 2023-01-10"];
    InPlaceFailsOnNewKey(d, 0, 4);
  }

  // ---------------------------------------------------------------------------
  // `tfidf_vectorize` (lines 116-123) and `embedding_whole` (lines 155-161) store
  // each document's result under `__date_matcher(key)` again.

  /** A fresh dictionary with `f` applied to each chunk list, under the re-normalised key.
      `f` stands for the vectoriser's per-chunk fitting or the encoder followed by the
      mean, both floating-point library code. */
  function Rekey<W>(tokens: Dict<string, seq<string>>, f: seq<string> -> W): (r: Dict<string, W>)
    ensures Valid(r)
  {
    if |tokens| == 0 then []
    else
      var last := tokens[|tokens| - 1];
      PutValid(Rekey(tokens[..|tokens| - 1], f), MatchDate(last.0), f(last.1));
      Put(Rekey(tokens[..|tokens| - 1], f), MatchDate(last.0), f(last.1))
  }

  /** `f` applied to every value, keys and order unchanged. */
  function MapValues<W>(tokens: Dict<string, seq<string>>, f: seq<string> -> W): Dict<string, W>
  {
    seq(|tokens|, i requires 0 <= i < |tokens| => (tokens[i].0, f(tokens[i].1)))
  }

  lemma MapValuesKeys<W>(tokens: Dict<string, seq<string>>, f: seq<string> -> W)
    ensures Keys(MapValues(tokens, f)) == Keys(tokens)
  {
    KeysIndex(tokens);
    KeysIndex(MapValues(tokens, f));
  }

  lemma MapValuesAppend<W>(tokens: Dict<string, seq<string>>, f: seq<string> -> W)
    requires |tokens| > 0
    ensures var n := |tokens| - 1;
      MapValues(tokens, f) == MapValues(tokens[..n], f) + [(tokens[n].0, f(tokens[n].1))]
  {
  }

  lemma LastKeyFresh(tokens: Dict<string, seq<string>>)
    requires Valid(tokens) && |tokens| > 0
    ensures var n := |tokens| - 1;
      && Valid(tokens[..n]) && tokens[n].0 !in Keys(tokens[..n])
      && forall k | k in Keys(tokens[..n]) :: k in Keys(tokens)
  {
    var n := |tokens| - 1;
    var ks := Keys(tokens);
    KeysPrefix(tokens, n);
    assert ks[n] == tokens[n].0 by { KeysIndex(tokens); }
    assert Distinct(ks[..n]);
    assert ks[n] !in ks[..n];
  }

  /** Re-normalising keys that are already normalised is harmless: the output has the
      same keys in the same order, each with the result for its own chunk list. */
  lemma {:induction false} RekeyNormalised<W>(tokens: Dict<string, seq<string>>, f: seq<string> -> W)
    requires Valid(tokens)
    requires forall k | k in Keys(tokens) :: MatchDate(k) == k
    ensures Rekey(tokens, f) == MapValues(tokens, f)
  {
    if |tokens| > 0 {
      var n := |tokens| - 1;
      var prefix := tokens[..n];
      LastKeyFresh(tokens);
      RekeyNormalised(prefix, f);
      MapValuesKeys(prefix, f);
      KeysIndex(tokens);
      assert tokens[n].0 in Keys(tokens);
      PutNew(MapValues(prefix, f), tokens[n].0, f(tokens[n].1));
      MapValuesAppend(tokens, f);
    }
  }

  /** On the output of the chunker, re-keying keeps every document's key and position. */
  lemma RekeyAfterPrepare<W>(docs: seq<Document>, maxLen: int, f: seq<string> -> W)
    ensures Rekey(PrepareTokens(docs, maxLen), f) == MapValues(PrepareTokens(docs, maxLen), f)
  {
    PrepareTokensKeys(docs, maxLen);
    RekeyNormalised(PrepareTokens(docs, maxLen), f);
  }
}
